=== FILE: README.md ===
# Notification hub — a Dafny model

The notification hub is a small publish/subscribe layer. Producers publish text on named topic
channels: a serial port, a WebSocket server, or a file-backed test pipe. Subscribers register
with a central `HubManager`, which fans subscription requests out to every hub node and hands
each subscriber a receiver for its channel.

This project models the pure logic of the hub as immutable Dafny datatypes and functions.

**Names and messages**
- `HubChannelName` validation (`HubName`) and `SerialChannelName` normalisation (`SerialName`).
- The `##channel##payload` framing of serial lines (`SerialMsg`).
- The `HubData` payload trim (`Payload`).
- `HubMessage` (`HubMsg`) and the `WsMessage` conversions (`WsMsg`).

**Bookkeeping**
- The subscription maps of both crate trees: `Channels`, `Users`, `LegacyChannels` and `LegacyUsers`.
- The `HubManager` controller (`Manager`). Each hub node is an opaque id: every call made to
  it is appended to a log, and the node's replies are an input.
- The WebSocket server's channel→peer map (`WsServer`). Each handler is a state change plus
  an outbox of deliveries.

**Node clients**
- The serial client's line buffer (`SerialClient`).
- The test pipe client (`PipeClient`).
- The `ClientPipeOptions` builder (`PipeOptions`).

`Wrappers` holds `Option` and `Result`. `Text` holds the Rust `str`/`char` operations the hub
relies on: `trim_matches`, `find`, `starts_with`, `to_ascii_lowercase` and character filtering.

Where the sources disagree, the model follows the code:
- The controller (`backend/src/services/hub/controller.rs`) imports `HubChannels` and calls its
  `is_empty`, which only the newer tree defines. Its channel map is therefore modelled by the
  newer `Channels`, and its user map by the older `LegacyUsers` from its own tree. The older
  `HubChannel` is modelled too (`LegacyChannels`), and each of its operations is proved equal to
  the newer one.
- `PipeClient::start` returns `Err("Read pipe is not available")` when the client has no read
  pipes, although a unit test of the same file expects `Ok` (`PipeClient.Start`,
  `PipeClient.StartWithoutReadPipes`).
- `ClientPipeOptionsBuilder::build` reports a missing channel as "Invaluid channel name"; the
  text is kept as written (`PipeOptions.MissingChannelError`).
- Hub-name validation keeps an inner tab, but serial-name normalisation deletes it. A hub name
  with a tab therefore changes when it is converted to a serial name
  (`SerialName.HubTabLostInSerial`).
- `unregister_from_channel` on a channel nobody subscribed to still asks every node to
  unsubscribe: `is_empty` is true for an unknown channel (`Manager.NodesAskedAfterLastSubscriber`).

## Model

| member | source | states |
|---|---|---|
| Text.ToAsciiLowercase | backend/notification_hub/src/adapters/notification_hub/serial/channels.rs:36 | the result has the input's length, and each character is lowered: ASCII upper-case letters become lower-case, everything else is unchanged |
| Text.LowerChar | backend/notification_hub/src/models/hub/hub_channel_name.rs:63 | `to_ascii_lowercase` on one character: an ASCII upper-case letter moves 32 code points down to its lower-case form, any other character is unchanged, and the result is never upper-case |
| Text.TrimMatches | backend/src/models/hub/hub_data.rs:12-13 | the result is the contiguous middle of the input: every character before and after it matches the predicate, and its own first and last characters do not |
| Text.TrimMatchesOf | backend/src/models/hub/hub_data.rs:12-13 | trimming `pre + mid + post` gives exactly `mid` whenever `pre` and `post` are matching runs and `mid` neither starts nor ends with a matching character |
| Text.Find | backend/src/adapters/notification_hub/serial/message.rs:36-37 | `find` returns the first index where the pattern occurs, and `None` exactly when it occurs nowhere |
| Text.RemoveMatching | backend/notification_hub/src/adapters/notification_hub/serial/channels.rs:37-40 | the filter never lengthens the text, leaves no matching character, and a character occurs in the result iff it occurs in the input and does not match |
| HubName.Validate | backend/notification_hub/src/models/hub/hub_channel_name.rs:36-63 | on the trimmed text, the checks run in order. The line-break error occurs iff a `\n` or `\r` is present. The charset error occurs iff there is no line break but some character is neither alphanumeric, `_` nor whitespace. The space error occurs iff both earlier checks pass and a space is present. Ok iff every character is accepted, and the name is then the ASCII lower-case text |
| HubName.TryFrom | backend/notification_hub/src/models/hub/hub_channel_name.rs:21-65 | Ok iff every character left after trimming whitespace, `\n` and `\r` from both ends is accepted; the name is then that trimmed text lower-cased; every error is one of the three messages. The `String` and `&str` conversions are this one function |
| HubName.AsStr | backend/notification_hub/src/models/hub/hub_channel_name.rs:16-18 | `as_str` gives the name's text, and a name of lower-case letters, digits and `_` validates from that text back to the same name |
| HubName.SameTrimSameResult | backend/notification_hub/src/models/hub/hub_channel_name.rs:34 | two inputs with the same trimmed text validate identically: only the trimmed text is inspected |
| HubName.UnstrippedCharsKept | backend/notification_hub/src/models/hub/hub_channel_name.rs:34 | trimming only removes whitespace at the ends: every non-whitespace character of the input is still in the trimmed text |
| HubName.OkShape | backend/notification_hub/src/models/hub/hub_channel_name.rs:34-63 | an accepted name has only accepted characters, no ASCII upper-case letter, no space, `\n` or `\r`, and no whitespace at either end |
| HubName.Idempotent | backend/notification_hub/src/models/hub/hub_channel_name.rs:34-63 | validating the `as_str` of an accepted name succeeds and gives the same name |
| HubName.LowerNameUnchanged | backend/notification_hub/src/models/hub/hub_channel_name.rs:71-77 | a name made only of lower-case letters, digits and `_` is accepted unchanged |
| HubName.NameCharsAccepted | backend/notification_hub/src/models/hub/hub_channel_name.rs:44-63 | a name made only of letters, digits and `_` is accepted, lower-cased |
| HubName.ForeignCharRejected | backend/notification_hub/src/models/hub/hub_channel_name.rs:44-52 | a character that is neither alphanumeric, `_` nor whitespace, anywhere in the input, makes validation fail |
| HubName.InnerLineBreakRejected | backend/notification_hub/src/models/hub/hub_channel_name.rs:37-41 | a `\n` or `\r` between two non-blank parts gives the line-break error |
| HubName.UntrimmedValidated | backend/notification_hub/src/models/hub/hub_channel_name.rs:34 | an input whose ends are not whitespace goes to the checks unchanged |
| HubName.InnerSpaceRejected | backend/notification_hub/src/models/hub/hub_channel_name.rs:55-60 | a space between two runs of name characters gives the inner-whitespace error |
| HubName.SpacedRejected | backend/notification_hub/src/models/hub/hub_channel_name.rs:44-60 | name characters mixed with at least one space pass the charset check and fail the space check |
| HubName.InnerTabKept | backend/notification_hub/src/models/hub/hub_channel_name.rs:44-63 | a tab between two lower-case runs passes every check and is kept in the name |
| HubName.TabbedAccepted | backend/notification_hub/src/models/hub/hub_channel_name.rs:44-63 | lower-case name characters and tabs pass every check and come out unchanged |
| HubName.BlankIsEmptyName | backend/notification_hub/src/models/hub/hub_channel_name.rs:34-63 | an input made only of whitespace is accepted as the empty name |
| HubName.SurroundingBlanksDropped | backend/notification_hub/src/models/hub/hub_channel_name.rs:115-129 | whitespace and line breaks around a lower-case name are dropped, and the name is kept |
| HubName.ExampleUppercase | backend/notification_hub/src/models/hub/hub_channel_name.rs:93-99 | "Valid_Channel" is accepted as "valid_channel" |
| HubName.ExampleUppercaseLowered | backend/notification_hub/src/models/hub/hub_channel_name.rs:98 | the ASCII lower-case form of "Valid_Channel" is "valid_channel" |
| HubName.ExampleTrailingNewline | backend/notification_hub/src/models/hub/hub_channel_name.rs:115-121 | "validchannel\n" is accepted as "validchannel" |
| HubName.ExampleTrailingReturn | backend/notification_hub/src/models/hub/hub_channel_name.rs:123-129 | "validchannel\r" is accepted as "validchannel" |
| HubName.ExampleInnerSpace | backend/notification_hub/src/models/hub/hub_channel_name.rs:79-84 | "invalid channel" is rejected with the inner-whitespace error |
| HubName.ExampleInnerNewline | backend/notification_hub/src/models/hub/hub_channel_name.rs:101-106 | "valid\nchannel" is rejected with the line-break error |
| HubName.ExampleSpecialChars | backend/notification_hub/src/models/hub/hub_channel_name.rs:86-91 | "invalid@channel!" is rejected |
| Payload.FromStr | backend/src/models/hub/hub_data.rs:10-15 | the payload neither starts nor ends with a space, `\n` or `\r`, and it is a contiguous slice of the input with only such characters around it |
| Payload.AsStr | backend/src/models/hub/hub_data.rs:17-19 | `as_str` gives the payload text, and a payload that neither starts nor ends with a space, `\n` or `\r` is rebuilt unchanged by `from_str` of that text |
| Payload.ToString | backend/src/models/hub/hub_data.rs:20-22 | `to_string` gives the same text as `as_str`, and a payload with clean ends is rebuilt unchanged from it |
| Payload.FromStrOf | backend/src/models/hub/hub_data.rs:10-15 | `from_str` returns exactly the text between a leading and a trailing run of spaces and line breaks; interior characters are kept |
| Payload.FromStrKeeps | backend/src/models/hub/hub_data.rs:10-22 | text with no space or line break at its ends is stored as given, and `as_str` and `to_string` return it |
| Payload.FromStrIdempotent | backend/src/models/hub/hub_data.rs:10-15 | rebuilding a payload from its own text changes nothing |
| Payload.BlankIsEmpty | backend/src/models/hub/hub_data.rs:53-57 | text made only of spaces and line breaks becomes the empty payload |
| Payload.TabKept | backend/src/models/hub/hub_data.rs:12 | a leading tab is not trimmed |
| Payload.ExampleSurroundingSpaces | backend/src/models/hub/hub_data.rs:29-33 | "  example data  " becomes "example data" |
| Payload.ExampleTrailingLineBreaks | backend/src/models/hub/hub_data.rs:47-51 | "  example data  \n\r" becomes "example data" |
| Payload.ExampleBlank | backend/src/models/hub/hub_data.rs:53-57 | "   " becomes the empty payload |
| SerialName.TryFrom | backend/notification_hub/src/adapters/notification_hub/serial/channels.rs:24-46 | Ok iff every non-whitespace character of the input is alphanumeric or `_`. The name is then the input lower-cased with every whitespace character deleted, wherever it occurred. Otherwise the fixed error message is returned |
| SerialName.AsStr | backend/notification_hub/src/adapters/notification_hub/serial/channels.rs:15-17 | `as_str` gives the name's text, and a normal name validates from that text back to the same name |
| SerialName.Tag | backend/notification_hub/src/adapters/notification_hub/serial/channels.rs:19-21 | the tag is the name between two `##` markers, four characters longer than the name; a normal name puts no `#` between the markers |
| SerialName.ToString | backend/notification_hub/src/adapters/notification_hub/serial/channels.rs:89-99 | both `String` conversions give the same text as `as_str`, and a normal name validates from it back to the same name |
| SerialName.NormaliseChars | backend/notification_hub/src/adapters/notification_hub/serial/channels.rs:36-45 | the normalised name has no whitespace and no upper-case letter, and it is all name characters iff the input's non-whitespace characters are |
| SerialName.NormaliseAppend | backend/notification_hub/src/adapters/notification_hub/serial/channels.rs:36-40 | normalising a concatenation is concatenating the normalised parts |
| SerialName.NormaliseNormal | backend/notification_hub/src/adapters/notification_hub/serial/channels.rs:36-40 | a name already made of lower-case letters, digits and `_` normalises to itself |
| SerialName.NormaliseBlank | backend/notification_hub/src/adapters/notification_hub/serial/channels.rs:36-40 | whitespace alone normalises to the empty name |
| SerialName.NormaliseJoin | backend/notification_hub/src/adapters/notification_hub/serial/channels.rs:37-40 | a whitespace run between a normal piece and the rest is deleted, joining them |
| SerialName.SpacedPiecesJoin | backend/notification_hub/src/adapters/notification_hub/serial/channels.rs:37-40 | four normal pieces separated and followed by whitespace runs normalise to their concatenation |
| SerialName.NormalIsSerialName | backend/notification_hub/src/adapters/notification_hub/serial/channels.rs:42-44 | a normal name is accepted unchanged |
| SerialName.NormalisedAccepted | backend/notification_hub/src/adapters/notification_hub/serial/channels.rs:42-44 | an input whose normal form is normal is accepted as that form |
| SerialName.NormalIsHubName | backend/notification_hub/src/adapters/notification_hub/serial/channels.rs:49-53 | a normal name is a valid hub name with the same text |
| SerialName.Idempotent | backend/notification_hub/src/adapters/notification_hub/serial/channels.rs:35-46 | re-validating the text of an accepted serial name gives the same name |
| SerialName.ToHub | backend/notification_hub/src/adapters/notification_hub/serial/channels.rs:49-53 | converting a serial name to a hub name keeps a normal name's text |
| SerialName.FromHub | backend/notification_hub/src/adapters/notification_hub/serial/channels.rs:55-59 | converting a hub name to a serial name gives a normal name, with the same text when the hub name was normal |
| SerialName.SerialNameIsHubName | backend/notification_hub/src/adapters/notification_hub/serial/channels.rs:49-53 | every accepted serial name passes hub validation unchanged, so the `unwrap` in `From<SerialChannelName>` never panics |
| SerialName.HubNameIsSerialName | backend/notification_hub/src/adapters/notification_hub/serial/channels.rs:55-59 | every accepted hub name passes serial validation. The serial text is the hub text with its whitespace deleted, and is the same text when it had none |
| SerialName.HubTabLostInSerial | backend/notification_hub/src/adapters/notification_hub/serial/channels.rs:55-59 | a hub name `a\tb` is accepted with its tab, but converts to the serial name `ab` |
| SerialName.ExampleCapitals | backend/notification_hub/src/adapters/notification_hub/serial/channels.rs:119-127 | "ExamPle" is accepted as "example" |
| SerialName.ExampleSpacesNormalise | backend/notification_hub/src/adapters/notification_hub/serial/channels.rs:133 | " exa mp l e   \n" normalises to "example" |
| SerialName.ExampleSpaces | backend/notification_hub/src/adapters/notification_hub/serial/channels.rs:129-137 | " exa mp l e   \n" is accepted as "example" |
| SerialName.ExampleDotRejected | backend/notification_hub/src/adapters/notification_hub/serial/channels.rs:113-117 | "example.com" is rejected with the fixed error message |
| SerialName.ExampleTag | backend/notification_hub/src/adapters/notification_hub/serial/channels.rs:190-194 | the tag of "example" is "##example##" |
| SerialName.NewChannels | backend/notification_hub/src/adapters/notification_hub/serial/channels.rs:69-73 | a new channel set holds no name |
| SerialName.Add | backend/notification_hub/src/adapters/notification_hub/serial/channels.rs:75-77 | after `add(n)`, `n` is a member and every other membership is unchanged |
| SerialName.Remove | backend/notification_hub/src/adapters/notification_hub/serial/channels.rs:79-82 | after `remove(n)`, `n` is absent and every other membership is unchanged |
| SerialName.Iter | backend/notification_hub/src/adapters/notification_hub/serial/channels.rs:84-86 | `iter` yields exactly the stored names, each once |
| SerialName.AddIdempotent | backend/notification_hub/src/adapters/notification_hub/serial/channels.rs:75-77 | adding a name twice stores it once |
| SerialName.RemoveAbsent | backend/notification_hub/src/adapters/notification_hub/serial/channels.rs:148-155 | removing a name that is not stored leaves the set unchanged |
| SerialName.RemoveUndoesAdd | backend/notification_hub/src/adapters/notification_hub/serial/channels.rs:139-146 | removing a freshly added name restores the previous set |
| SerialMsg.DataFromStr | backend/src/adapters/notification_hub/serial/message.rs:14-16 | `SerialData::from_str` keeps the text verbatim |
| SerialMsg.RawFromStr | backend/src/adapters/notification_hub/serial/message.rs:23-25 | `SerialRawMessage::from_str` keeps the text verbatim |
| SerialMsg.OccursInSuffix | backend/src/adapters/notification_hub/serial/message.rs:37 | a `##` found in the suffix after the first marker is a `##` of the whole line at the shifted offset |
| SerialMsg.MarkersUnique | backend/src/adapters/notification_hub/serial/message.rs:36-37 | a line has at most one pair of framing markers: the first `##`, and the first `##` after it |
| SerialMsg.FoundMarkers | backend/src/adapters/notification_hub/serial/message.rs:36-37 | when both `find` calls succeed they locate the framing markers; when either fails, the line has no framing markers |
| SerialMsg.Locate | backend/src/adapters/notification_hub/serial/message.rs:36-37 | the two `find` calls give the framing markers, or `None` exactly when there are none |
| SerialMsg.MarkersOnly | backend/src/adapters/notification_hub/serial/message.rs:36-37 | any framing markers of a line are the ones already found |
| SerialMsg.ExtractInfo | backend/src/adapters/notification_hub/serial/message.rs:34-47 | on success, the channel is the serial validation of the text between the framing markers, and the payload is the text after the second marker trimmed of spaces and line breaks. `None` means there are no markers, or the text between them is an invalid name |
| SerialMsg.ToHubData | backend/src/adapters/notification_hub/serial/message.rs:73-77 | converting serial data to hub data trims it again: the result is no longer than the text and neither starts nor ends with a space, `\n` or `\r` |
| SerialMsg.FromHubData | backend/src/adapters/notification_hub/serial/message.rs:79-83 | converting hub data to serial data keeps the text |
| SerialMsg.FromPair | backend/src/adapters/notification_hub/serial/message.rs:50-58 | the hub message of a (channel, data) pair has the converted channel and payload |
| SerialMsg.ToHubMessage | backend/src/adapters/notification_hub/serial/message.rs:59-71 | Ok iff `extract_info` finds something, with its channel text and payload text; the error otherwise is the fixed conversion message |
| SerialMsg.ExtractedDataTrimmed | backend/src/adapters/notification_hub/serial/message.rs:39-46 | the extracted channel is normal and the extracted payload is already trimmed, so the conversion to a hub message changes neither |
| SerialMsg.FramedAt | backend/src/adapters/notification_hub/serial/message.rs:36-38 | in `pre ## name ## after` with no `#` in `pre` or `name`, the written markers are the framing markers |
| SerialMsg.LocateFinds | backend/src/adapters/notification_hub/serial/message.rs:36-37 | the framing markers are what the `find` calls return |
| SerialMsg.ExtractLocatedSome | backend/src/adapters/notification_hub/serial/message.rs:41-46 | once the markers are found, extraction succeeds iff the text between them is a valid serial name |
| SerialMsg.ExtractLocatedChannel | backend/src/adapters/notification_hub/serial/message.rs:38-42 | the extracted channel is the validated text between the markers found |
| SerialMsg.ExtractLocatedData | backend/src/adapters/notification_hub/serial/message.rs:39-40 | the extracted payload is the trimmed text after the second marker found |
| SerialMsg.ExtractUnlocated | backend/src/adapters/notification_hub/serial/message.rs:36-46 | without framing markers nothing is extracted |
| SerialMsg.FramedLocated | backend/src/adapters/notification_hub/serial/message.rs:36-38 | in `pre ## name ## after` the markers found enclose `name` and are followed by `after` |
| SerialMsg.ExtractAt | backend/src/adapters/notification_hub/serial/message.rs:38-46 | with the markers found around `name`, extraction fails iff `name` is invalid, and otherwise yields its validation and the trimmed `after` |
| SerialMsg.ExtractFramed | backend/src/adapters/notification_hub/serial/message.rs:34-47 | in `pre ## name ## after` with no `#` in `pre` or `name`, a valid `name` yields its validation and the trimmed `after`, whatever `pre` holds |
| SerialMsg.ExtractFramedInvalid | backend/src/adapters/notification_hub/serial/message.rs:41-46 | an invalid channel segment yields nothing, and the hub-message conversion fails with the fixed message |
| SerialMsg.ExtractTagged | backend/src/adapters/notification_hub/serial/message.rs:34-47 | round trip: for a normal name `n`, `pre + tag(n) + after` yields `n` and the trimmed `after` |
| SerialMsg.HubMessageOfExtract | backend/src/adapters/notification_hub/serial/message.rs:62-68 | the hub message built from an extraction carries its channel text and payload text |
| SerialMsg.TaggedPayloadExtract | backend/src/adapters/notification_hub/serial/message.rs:34-47 | a tag followed by an already trimmed payload reads back as that name and payload |
| SerialMsg.HubMessageThroughLine | backend/src/adapters/notification_hub/serial/message.rs:59-83 | a hub message on a normal channel with a trimmed payload, written as a tagged line, parses back to the same message |
| SerialMsg.NoHashNoMarker | backend/src/adapters/notification_hub/serial/message.rs:36 | a line without `#` contains no `##` |
| SerialMsg.NoMarkerNothing | backend/src/adapters/notification_hub/serial/message.rs:36-46 | a line without `##` yields nothing, and its conversion fails with the fixed message |
| SerialMsg.HubDataRoundTrip | backend/src/adapters/notification_hub/serial/message.rs:73-83 | a trimmed hub payload survives the trip through `SerialData` |
| SerialMsg.SerialDataRoundTrip | backend/src/adapters/notification_hub/serial/message.rs:73-83 | a serial payload with no edge space or line break survives the trip through `HubData` |
| SerialMsg.ExtractTaggedTrimmed | backend/src/adapters/notification_hub/serial/message.rs:34-47 | `tag(n) + d` yields exactly `(n, d)` when `n` is normal and `d` has no edge space or line break |
| SerialMsg.ExampleLine | backend/src/adapters/notification_hub/serial/message.rs:96-101 | "##channel##data" is the tag of "channel" followed by "data" |
| SerialMsg.ExampleExtract | backend/src/adapters/notification_hub/serial/message.rs:103-115 | "##channel##data" yields channel "channel" and data "data" |
| SerialMsg.ExampleToHubMessage | backend/src/adapters/notification_hub/serial/message.rs:125-137 | "##channel##data" converts to the hub message ("channel", "data") |
| SerialMsg.ExampleNoMarker | backend/src/adapters/notification_hub/serial/message.rs:117-123 | "invalid_data" yields nothing, and its conversion fails |
| HubMsg.TryFromStr | backend/notification_hub/src/models/hub/hub_message.rs:22-29 | Err iff the channel fails hub validation, with that validation's message. Otherwise the channel is the validated name and the payload is the trimmed data, so parsing the data never fails |
| HubMsg.New | backend/notification_hub/src/models/hub/hub_message.rs:31-37 | `new` stores the given channel and payload unchanged |
| HubMsg.TryFromStrRoundTrip | backend/notification_hub/src/models/hub/hub_message.rs:22-29 | parsing the text of a parsed message's channel and payload gives the same message |
| HubMsg.TryFromStrIsNew | backend/notification_hub/src/models/hub/hub_message.rs:22-37 | `try_from_str` is validating each part and then calling `new` |
| HubMsg.EncodingKeepsChannelAndData | backend/notification_hub/src/models/hub/hub_message.rs:128-148 | for any encoder whose decoder inverts it, a parsed message decodes back with the same channel and payload |
| HubMsg.ExampleValid | backend/notification_hub/src/models/hub/hub_message.rs:86-95 | ("valid_channel", "some data") parses to that channel and payload |
| HubMsg.ExampleInvalidChannel | backend/notification_hub/src/models/hub/hub_message.rs:97-103 | the channel "invalid channel!" is refused |
| WsMsg.SubscribeTo | backend/notification_hub/src/adapters/notification_hub/websocket/message.rs:16-19 | Ok iff the channel text is a valid hub name, wrapping the validated name; the error is the validation's |
| WsMsg.SubscribeChannel | backend/notification_hub/src/adapters/notification_hub/websocket/message.rs:21-23 | `subscribe_channel` wraps its argument unchanged |
| WsMsg.UnsubscribeFrom | backend/notification_hub/src/adapters/notification_hub/websocket/message.rs:26-29 | Ok iff the channel text is a valid hub name, wrapping the validated name; the error is the validation's |
| WsMsg.UnsubscribeChannel | backend/notification_hub/src/adapters/notification_hub/websocket/message.rs:31-33 | `unsubscribe_channel` wraps its argument unchanged |
| WsMsg.ListChannelsRequest | backend/notification_hub/src/adapters/notification_hub/websocket/message.rs:35-37 | `list_channels_req` is the list request |
| WsMsg.SendData | backend/notification_hub/src/adapters/notification_hub/websocket/message.rs:40-44 | fails only on an invalid channel, with the validation's error; otherwise carries the validated name and the trimmed payload |
| WsMsg.SendDataChannel | backend/notification_hub/src/adapters/notification_hub/websocket/message.rs:47-49 | `send_data_channel` wraps its arguments unchanged |
| WsMsg.ToHubMessage | backend/notification_hub/src/adapters/notification_hub/websocket/message.rs:63-72 | Ok iff the message is `Data`, with its channel and payload; every other variant gives "Invalid message type" |
| WsMsg.FromHubMessage | backend/notification_hub/src/adapters/notification_hub/websocket/message.rs:74-78 | a hub message becomes `Data(channel, data)` |
| WsMsg.HubMessageRoundTrip | backend/notification_hub/src/adapters/notification_hub/websocket/message.rs:63-78 | HubMessage → WsMessage → HubMessage is the identity |
| WsMsg.WsMessageRoundTrip | backend/notification_hub/src/adapters/notification_hub/websocket/message.rs:63-78 | every WebSocket message that unwraps to a hub message is the wrapping of it |
| WsMsg.SendDataIsHubMessage | backend/notification_hub/src/adapters/notification_hub/websocket/message.rs:40-44 | `send_data` followed by unwrapping is `HubMessage::try_from_str` on the same text, failures included |
| WsMsg.TextConstructorsAgree | backend/notification_hub/src/adapters/notification_hub/websocket/message.rs:16-49 | for a valid channel, each text constructor equals its already-validated counterpart |
| WsMsg.ControlMessagesRejected | backend/notification_hub/src/adapters/notification_hub/websocket/message.rs:66-70 | subscribe, unsubscribe and both list messages never unwrap to a hub message |
| WsMsg.ExampleSubscribe | backend/notification_hub/src/adapters/notification_hub/websocket/message.rs:84-94 | subscribing to "test_channel" names that channel |
| Receivers.Resubscribe | backend/src/services/hub/controller.rs:19-22 | `resubscribe` keeps the user id and listens to the same sender |
| Channels.New | backend/notification_hub/src/services/hub/channel.rs:24-26 | a new map holds no channel and satisfies the invariants |
| Channels.SubscribeUser | backend/notification_hub/src/services/hub/channel.rs:30-42 | the channel is created with the fresh sender if absent, and the new id joins its subscribers. The returned receiver carries that id and listens to the channel's sender. No other channel changes |
| Channels.GetNumberSubscribers | backend/notification_hub/src/services/hub/channel.rs:56-61 | the size of the channel's subscriber set, and 0 for an unknown channel |
| Channels.IsEmpty | backend/notification_hub/src/services/hub/channel.rs:64-69 | true iff the subscriber count is 0, so true for an unknown channel |
| Channels.GetSender | backend/notification_hub/src/services/hub/channel.rs:72-80 | Some iff the channel is present, and then its sender |
| Channels.UnsubscribeUser | backend/notification_hub/src/services/hub/channel.rs:46-53 | the id leaves the channel, and the channel is dropped iff nobody is left. An absent channel changes nothing, and no other channel changes |
| Channels.SubscribeMembership | backend/notification_hub/src/services/hub/channel.rs:30-42 | subscribing adds exactly the pair (channel, id) to the subscription relation |
| Channels.UnsubscribeMembership | backend/notification_hub/src/services/hub/channel.rs:46-53 | unsubscribing removes exactly the pair (channel, id) from the subscription relation |
| Channels.SubscribeCounts | backend/notification_hub/src/services/hub/channel.rs:38-41 | a fresh id raises the count by exactly 1 and is a member of the channel's subscribers |
| Channels.SubscribeValid | backend/notification_hub/src/services/hub/channel.rs:30-42 | with a fresh sender, subscribing keeps every stored channel non-empty and the senders distinct |
| Channels.UnsubscribeValid | backend/notification_hub/src/services/hub/channel.rs:46-53 | unsubscribing keeps every stored channel non-empty and the senders distinct |
| Channels.UnsubscribeUndoesSubscribe | backend/notification_hub/src/services/hub/channel.rs:30-53 | unsubscribing a freshly subscribed id restores the previous map |
| Channels.UnknownChannel | backend/notification_hub/src/services/hub/channel.rs:56-80 | under the invariant, a channel is absent iff it is empty, and iff it has no sender |
| Channels.ExampleTwoSubscribers | backend/notification_hub/src/services/hub/channel.rs:117-125 | two subscriptions give two subscribers |
| Channels.ExampleSubscribeUnsubscribe | backend/notification_hub/src/services/hub/channel.rs:106-115 | one subscription gives one subscriber; unsubscribing it removes the channel and the count drops to 0 |
| Users.New | backend/notification_hub/src/services/hub/user.rs:19-21 | a new map has no user and satisfies the invariant |
| Users.SubscribeUser | backend/notification_hub/src/services/hub/user.rs:24-29 | the user exists afterwards and maps the channel to a receiver on the given sender. Its other channels and every other user are unchanged |
| Users.UnsubscribeUser | backend/notification_hub/src/services/hub/user.rs:34-41 | the channel leaves the user's map, and the user is removed iff no channel is left. An unknown user changes nothing; nothing else changes |
| Users.OperationsKeepValid | backend/notification_hub/src/services/hub/user.rs:24-41 | both operations keep every stored user's subscription map non-empty |
| Users.SubscribeOverwrites | backend/notification_hub/src/services/hub/user.rs:28 | subscribing the same user to the same channel again overwrites the entry |
| Users.UnsubscribeUndoesSubscribe | backend/notification_hub/src/services/hub/user.rs:24-41 | subscribing to a new channel and unsubscribing restores the previous map |
| Users.ExampleSubscribeUnsubscribe | backend/notification_hub/src/services/hub/user.rs:62-74 | after one subscription the user maps the channel; unsubscribing it removes the user |
| Users.ExampleTwoChannels | backend/notification_hub/src/services/hub/user.rs:76-94 | leaving one of two channels keeps the user with the other |
| LegacyChannels.SubscribeUser | backend/src/services/hub/channel.rs:23-35 | equals the newer `subscribe_user`: the fresh id is a subscriber and the receiver listens to the channel's sender |
| LegacyChannels.UnsubscribeUser | backend/src/services/hub/channel.rs:37-44 | equals the newer `unsubscribe_user`; an absent channel is a no-op; the id is no longer subscribed |
| LegacyChannels.GetNumberSubscribers | backend/src/services/hub/channel.rs:46-51 | equals the newer count; an unknown channel has 0 |
| LegacyChannels.GetSender | backend/src/services/hub/channel.rs:53-61 | equals the newer `get_sender`; Some iff the channel is present |
| LegacyChannels.OperationsKeepValid | backend/src/services/hub/channel.rs:23-44 | no stored channel is ever left with an empty subscriber set, and the senders stay distinct |
| LegacyChannels.SubscribeThenUnsubscribe | backend/src/services/hub/channel.rs:23-44 | a fresh subscriber raises the count by 1, and unsubscribing it restores the map |
| LegacyUsers.New | backend/src/services/hub/user.rs:18-20 | a new map has no user and satisfies the invariant |
| LegacyUsers.SubscribeUser | backend/src/services/hub/user.rs:22-30 | the channel joins the user's set and a missing user is created with the resubscribed receiver. An existing user keeps its receiver; other users are unchanged |
| LegacyUsers.UnsubscribeUser | backend/src/services/hub/user.rs:32-39 | the channel leaves the set, and the user is removed iff the set becomes empty. An unknown user is a no-op; other users are unchanged |
| LegacyUsers.OperationsKeepValid | backend/src/services/hub/user.rs:22-39 | no stored user ever has an empty channel set |
| LegacyUsers.ReceiverKept | backend/src/services/hub/user.rs:24-27 | a second subscribe keeps the first receiver |
| LegacyUsers.SubscribeIdempotent | backend/src/services/hub/user.rs:29 | subscribing twice to the same channel changes nothing the second time |
| LegacyUsers.UnsubscribeUndoesSubscribe | backend/src/services/hub/user.rs:22-39 | subscribing to a new channel and unsubscribing restores the previous map |
| Manager.New | backend/src/services/hub/controller.rs:59-68 | a new manager has no nodes, an empty log and the given hub sender; its channel map holds no channel and its user map lists no user on any channel, so both maps are valid and agree |
| Manager.Add | backend/src/services/hub/controller.rs:70-72 | the node is appended last; the earlier nodes, both maps, the log and the hub sender are unchanged |
| Manager.FirstErr | backend/src/services/hub/controller.rs:79-82 | the index of the first failing reply: every reply before it is Ok |
| Manager.CallsTo | backend/src/services/hub/controller.rs:79-81 | the calls to the first `n` nodes, in order |
| Manager.FanOut | backend/src/services/hub/controller.rs:75-94 | each node is asked in order, up to and including the first failing one. The result is Ok iff every node answered Ok; otherwise it is that first error |
| Manager.CollectListings | backend/src/services/hub/controller.rs:120-126 | nodes are asked in order until one fails, whose error is returned; otherwise the result is exactly the union of all the lists |
| Manager.StartNodes | backend/src/services/hub/controller.rs:97-101 | every node is started with the hub's sender, stopping at the first error; Ok iff all succeed |
| Manager.Dispatch | backend/src/services/hub/controller.rs:110-113 | a message goes out on its own channel's sender, and is dropped iff the channel is not in the map |
| Manager.ListChannelsOf | backend/src/services/hub/controller.rs:120-126 | the union of all nodes' lists, with the calls logged; the first node error propagates |
| Manager.RegisterToChannel | backend/src/services/hub/controller.rs:130-142 | the fresh user is recorded in both maps, and the receiver returned carries that id and its channel's sender |
| Manager.UnregisterFromChannel | backend/src/services/hub/controller.rs:145-157 | the user is no longer subscribed to the channel in either map |
| Manager.SendToChannel | backend/src/services/hub/controller.rs:160-169 | only node `idx` is sent the message, and its reply is returned; an index past the last node sends nothing and returns Ok |
| Manager.NodesAskedOnFirstSubscriber | backend/src/services/hub/controller.rs:135-140 | the nodes are asked to subscribe iff the channel had no subscriber, i.e. its count becomes 1; otherwise no call is made and the result is Ok |
| Manager.NodesAskedAfterLastSubscriber | backend/src/services/hub/controller.rs:150-155 | the nodes are asked to unsubscribe iff no subscriber is left after removal, including when the channel was unknown |
| Manager.SubscribeKeepsAgreement | backend/src/services/hub/controller.rs:135-137 | subscribing in both maps keeps "subscribed in the channel map" equal to "listed in the user map" |
| Manager.UnsubscribeKeepsAgreement | backend/src/services/hub/controller.rs:150-152 | unsubscribing in both maps keeps them in agreement |
| Manager.RegisterKeepsValid | backend/src/services/hub/controller.rs:130-142 | with a fresh sender, registering keeps both maps valid and in agreement |
| Manager.UnregisterKeepsValid | backend/src/services/hub/controller.rs:145-157 | unregistering keeps both maps valid and in agreement |
| Manager.UnregisterUndoesRegister | backend/src/services/hub/controller.rs:130-157 | registering a fresh user and unregistering it restores both maps |
| Manager.DispatchReachesOnlyOwnChannel | backend/src/services/hub/controller.rs:110-113 | a dispatched message never goes out on another channel's sender |
| Manager.SendReachesAddedNode | backend/src/services/hub/controller.rs:165-166 | after adding nodes in turn, `send_to_channel(idx)` addresses the `idx`-th node added |
| Manager.AddAllAppends | backend/src/services/hub/controller.rs:70-72 | adding nodes one by one appends them in order |
| WsServer.New | backend/src/adapters/notification_hub/websocket/server.rs:30-35 | a new server has no channel |
| WsServer.HandleData | backend/src/adapters/notification_hub/websocket/server.rs:63-93 | the channel is created if absent, and no peer map changes. The data goes to exactly the channel's peers other than the sender, each on its own queue |
| WsServer.HandleSubscribe | backend/src/adapters/notification_hub/websocket/server.rs:96-113 | `addr → tx` is inserted under the channel, creating it if needed and replacing an earlier queue; other channels are unchanged |
| WsServer.HandleUnsubscribe | backend/src/adapters/notification_hub/websocket/server.rs:116-130 | `addr` is removed from that channel only. The channel stays even if empty, and an unknown channel is a no-op |
| WsServer.HandleListChannels | backend/src/adapters/notification_hub/websocket/server.rs:134-143 | the requester alone gets every channel key, including empty channels; the map is unchanged |
| WsServer.HandleIncoming | backend/src/adapters/notification_hub/websocket/server.rs:161-187 | undecodable text and a `ListChannelsResponse` change nothing and send nothing. No channel is ever removed, and only a list request replies to the sender |
| WsServer.Disconnect | backend/src/adapters/notification_hub/websocket/server.rs:194-197 | `addr` leaves every channel and the set of channel keys is unchanged |
| WsServer.SubscriberReceivesData | backend/src/adapters/notification_hub/websocket/server.rs:77-113 | a subscriber receives the data another peer then publishes on its channel |
| WsServer.PublisherNotEchoed | backend/src/adapters/notification_hub/websocket/server.rs:86-91 | the sender of data never receives it |
| WsServer.UnsubscribeUndoesSubscribe | backend/src/adapters/notification_hub/websocket/server.rs:106-129 | unsubscribing right after subscribing leaves the channel's peers as before, with the channel kept |
| WsServer.NothingAfterDisconnect | backend/src/adapters/notification_hub/websocket/server.rs:194-197 | after a disconnect, no data reaches the departed peer |
| WsServer.DisconnectIdempotent | backend/src/adapters/notification_hub/websocket/server.rs:194-197 | disconnecting twice is disconnecting once |
| WsServer.ListedAfterUnsubscribe | backend/src/adapters/notification_hub/websocket/server.rs:125-142 | a channel stays listed after its last peer unsubscribed |
| SerialClient.Position | backend/src/adapters/notification_hub/serial/client.rs:80 | `position` gives the first index of the character, or `None` iff it is absent |
| SerialClient.PositionOf | backend/src/adapters/notification_hub/serial/client.rs:80 | any index holding the character with none before it is what `position` returns |
| SerialClient.FirstLine | backend/src/adapters/notification_hub/serial/client.rs:80-81 | the text up to and including the first `\n` is one complete line |
| SerialClient.SplitLines | backend/src/adapters/notification_hub/serial/client.rs:80-101 | the buffer is its complete lines followed by a rest with no `\n`; each line ends with its only `\n` |
| SerialClient.SplitLinesOfConcat | backend/src/adapters/notification_hub/serial/client.rs:80-101 | splitting gives back any decomposition into complete lines and a partial rest, so no line is lost, merged or reordered |
| SerialClient.ProcessLine | backend/src/adapters/notification_hub/serial/client.rs:83-99 | a message is forwarded iff the line starts with `##` and parses, and its channel is then learned. Otherwise nothing is learned or forwarded |
| SerialClient.ProcessLines | backend/src/adapters/notification_hub/serial/client.rs:80-101 | the lines are handled in order, each forwarding at most one message |
| SerialClient.ProcessLinesLearns | backend/src/adapters/notification_hub/serial/client.rs:84-95 | the learned set grows by exactly the channels of the forwarded messages, all of them normal |
| SerialClient.LearnedNormal | backend/src/adapters/notification_hub/serial/client.rs:88-90 | names learned from normal channels are normal |
| SerialClient.ProcessLinesKeepsNormal | backend/src/adapters/notification_hub/serial/client.rs:88-90 | processing keeps every learned name normal, so listing can convert each one back |
| SerialClient.NewReader | backend/src/adapters/notification_hub/serial/client.rs:69-70 | the reader starts with an empty buffer and nothing learned |
| SerialClient.Feed | backend/src/adapters/notification_hub/serial/client.rs:78-101 | a chunk is appended to the buffer. Every complete line is processed in order and drained, and the partial rest is kept, so the buffer has no `\n` |
| SerialClient.Step | backend/src/adapters/notification_hub/serial/client.rs:77-107 | data is fed, an empty read changes nothing and goes on, and a read error changes nothing and stops the loop |
| SerialClient.ResumeStep | backend/src/adapters/notification_hub/serial/client.rs:80-100 | handling and draining the first line leaves the same remaining work |
| SerialClient.OnChunk | backend/src/adapters/notification_hub/serial/client.rs:78-101 | the `while let Some(pos)` loop as written computes `Feed` and leaves no `\n` in the buffer |
| SerialClient.PartialLineWaits | backend/src/adapters/notification_hub/serial/client.rs:79-80 | a chunk without a line break only grows the buffer |
| SerialClient.UnprefixedLineIgnored | backend/src/adapters/notification_hub/serial/client.rs:97-99 | a line not starting with `##` changes nothing and forwards nothing |
| SerialClient.TaggedLineExtract | backend/src/adapters/notification_hub/serial/client.rs:81-84 | a tagged line ended by its `\n` yields the name and the payload without the line break |
| SerialClient.ExtractedLineForwarded | backend/src/adapters/notification_hub/serial/client.rs:83-94 | a gated line that extracts to `(n, d)` forwards the message `(n, d)` and learns `n` |
| SerialClient.TaggedLineForwarded | backend/src/adapters/notification_hub/serial/client.rs:83-94 | a tagged line for a normal channel is forwarded with its payload, and its channel is learned |
| SerialClient.ListChannels | backend/src/adapters/notification_hub/serial/client.rs:61-64 | `list_channels` returns exactly the learned names, as hub names |
| PipeClient.New | backend/test-utils/src/client_pipe.rs:53-57 | a new client has a write pipe iff one was opened, keeps its read pipes, and has learned nothing |
| PipeClient.StripPrefix | backend/test-utils/src/client_pipe.rs:83 | `strip_prefix` succeeds iff the text starts with the character, and removes just it |
| PipeClient.StripSuffix | backend/test-utils/src/client_pipe.rs:84 | `strip_suffix` succeeds iff the text ends with the character, and removes just it |
| PipeClient.StripQuotes | backend/test-utils/src/client_pipe.rs:82-86 | the surrounding `"` are removed iff both a leading and a trailing one are present; otherwise the line is unchanged |
| PipeClient.ReadLine | backend/test-utils/src/client_pipe.rs:81-110 | after unquoting, a message is forwarded iff the line starts with `##` and parses, and its channel is learned; otherwise nothing changes |
| PipeClient.ReadStep | backend/test-utils/src/client_pipe.rs:80-117 | a line is handled, end of file changes nothing and goes on, and an error stops the reader |
| PipeClient.StartReadPipe | backend/test-utils/src/client_pipe.rs:62-123 | a reader is spawned iff there is a sender; the result is always Ok |
| PipeClient.Start | backend/test-utils/src/client_pipe.rs:154-173 | without read pipes the result is `Err("Read pipe is not available")`. Otherwise it is Ok, with one reader per pipe when a sender is given and none otherwise |
| PipeClient.StartAll | backend/test-utils/src/client_pipe.rs:160-163 | one reader per pipe, in order, when there is a sender |
| PipeClient.Send | backend/test-utils/src/client_pipe.rs:129-145 | without a write pipe the result is `Err("Write pipe is not available")`; otherwise the message is written; nothing else changes |
| PipeClient.ListChannels | backend/test-utils/src/client_pipe.rs:148-151 | exactly the learned names, as hub names |
| PipeClient.StripQuotesOfQuoted | backend/test-utils/src/client_pipe.rs:82-86 | unquoting a quoted text gives the text back |
| PipeClient.ExampleLoneQuote | backend/test-utils/src/client_pipe.rs:82-86 | a lone `"` is left as it is |
| PipeClient.QuotedFrameForwarded | backend/test-utils/src/client_pipe.rs:82-104 | a quoted tagged line for a normal channel is forwarded with its payload, and the channel is learned |
| PipeClient.UngatedLineIgnored | backend/test-utils/src/client_pipe.rs:87-110 | a line not starting with `##` once unquoted changes nothing |
| PipeClient.StartWithoutReadPipes | backend/test-utils/src/client_pipe.rs:158-171 | a client opened without read pipes cannot start, whatever the sender |
| PipeClient.SendWithoutWritePipe | backend/test-utils/src/client_pipe.rs:131-139 | a client opened without a write pipe cannot send |
| PipeClient.ExampleFreshClientListsNone | backend/test-utils/src/client_pipe.rs:198-204 | a fresh client lists no channel |
| PipeOptions.New | backend/test-utils/src/client_pipe_options.rs:18-35 | Err iff the channel name is invalid, with the validation's message; otherwise every argument is stored unchanged |
| PipeOptions.NewBuilder | backend/test-utils/src/client_pipe_options.rs:67-76 | a fresh builder has every field unset |
| PipeOptions.WithWritePath | backend/test-utils/src/client_pipe_options.rs:78-82 | only the write path changes |
| PipeOptions.WithReadPath | backend/test-utils/src/client_pipe_options.rs:83-87 | only the read path changes |
| PipeOptions.WithDelay | backend/test-utils/src/client_pipe_options.rs:89-93 | only the delay changes |
| PipeOptions.WithPeriod | backend/test-utils/src/client_pipe_options.rs:94-98 | only the period changes |
| PipeOptions.WithNDims | backend/test-utils/src/client_pipe_options.rs:106-110 | only the number of dimensions changes |
| PipeOptions.WithChannel | backend/test-utils/src/client_pipe_options.rs:99-105 | Ok iff the name is valid, setting only the channel; otherwise `Err("Invalid channel name")` |
| PipeOptions.UnwrapOr | backend/test-utils/src/client_pipe_options.rs:119-121 | the set value, or the default when unset |
| PipeOptions.Build | backend/test-utils/src/client_pipe_options.rs:111-123 | Err iff no channel was set. Otherwise set values are kept, and unset numbers take delay 100, period 1000 and n_dims 3 |
| PipeOptions.BuildNeedsChannel | backend/test-utils/src/client_pipe_options.rs:112-114 | without a channel, building fails whatever else was set |
| PipeOptions.DefaultsApplied | backend/test-utils/src/client_pipe_options.rs:115-122 | with only a channel set, the paths are unset and the numbers are 100, 1000 and 3 |
| PipeOptions.BuildAgreesWithNew | backend/test-utils/src/client_pipe_options.rs:99-123 | a builder with every field set builds what `new` makes from the same arguments; both fail on the same invalid names |
| PipeOptions.SettersCommute | backend/test-utils/src/client_pipe_options.rs:78-110 | the delay setter commutes with the period and n_dims setters, the two path setters commute, and a second delay replaces the first |
| PipeOptions.ChannelCommutes | backend/test-utils/src/client_pipe_options.rs:89-105 | setting a valid channel commutes with setting the delay |
| PipeOptions.ValidChannelBuilds | backend/test-utils/src/client_pipe_options.rs:115-122 | after a valid channel, later setters are kept and building succeeds |

## Left out

- Async tasks, `Mutex`/`RwLock`, broadcast and mpsc channels, sleeps and the spawned loops are
  concurrency. Each critical section is modelled as the one state change it makes.
- The capacity, lag and message delivery of broadcast channels are left out. A sender or receiver
  is known only by its identity, and dispatch only chooses the sender.
- `Uuid::new_v4` and new broadcast senders are parameters. Freshness is a `requires` where a
  property needs it.
- `Clock::now()` timestamps are dropped from `HubMessage`.
- Opening serial ports, files and sockets is I/O, and so are WebSocket handshakes and writing
  bytes to a pipe or port. `SerialClient::new` and `PipeClient::new` are modelled as the state
  they produce.
- serde/JSON is left out: `to_bytes`, `to_string`, the `TryFrom<String>`/`TryFrom<Vec<u8>>` decoders, and
  `SerialRawMessage::from(HubMessage)` in `PipeClient::send`. The library is not visible, so the
  round trip is stated over an abstract encoder/decoder pair (`HubMsg.EncodingKeepsChannelAndData`).
  A written message is recorded as the message itself.
- Text decoding is simplified. The serial line buffer holds decoded characters, so
  `String::from_utf8_lossy` and byte-level chunking are not modelled. `BUFFER_SIZE` limits one
  read, and that limit is not enforced.
- `char::is_alphanumeric` is restricted to ASCII letters and digits. `char::is_whitespace` is
  the full Unicode White_Space list.
- `HashMap` and `HashSet` iteration order is unspecified in the source. Listings are sets in the
  model, and `Iter` promises each name exactly once in some order.
- The re-creation of `BufReader` on each read of a pipe, and the line splitting of `next_line`,
  are left out. A pipe read is one already-split line.
- The node clients' subscribe/unsubscribe/send bodies are not modelled; the `WebSocketClient`
  and the serial `send` are the nodes the controller talks to, and nodes are opaque ids.
- Files that the core imports but that are not part of this model are replaced by their shown
  counterparts in the other crate tree:
  - `Payload` models `backend/src/models/hub/hub_data.rs`. The older tree's `hub_channel_name.rs`
    and `hub_message.rs` are not part of this model. Every older-tree module that imports them
    therefore uses the newer `HubChannelName` rules (`HubName`) and the newer `HubMessage`
    (`HubMsg`): the serial modules (`SerialMsg`, `SerialClient`), the controller (`Manager`,
    which imports both at `controller.rs:9`) and the WebSocket server (`WsServer`, which imports
    `HubChannelName` at `server.rs:10`).
  - The older tree's `adapters/websocket/message.rs`, whose `WsMessage` the WebSocket server
    imports at `server.rs:9`, is not part of this model. `WsServer` uses the newer `WsMessage`
    (`WsMsg`) in its place: its variants, `send_data_channel` and the text decoding.
  - The newer tree's `HubData` is not part of this model. `HubMsg.TryFromStr` and `WsMsg.SendData`
    model its `data.parse::<HubData>()` as the older `HubData::from_str` trim, so the `unwrap` on
    the parse never fails.
  - The older tree's `HubData` (`backend/src/models/hub/hub_data.rs`) has only an inherent
    `from_str` and no `FromStr` implementation is part of this model. `SerialMsg.ToHubData`
    models the `value.as_str().parse::<HubData>().unwrap()` of the older `serial/message.rs` as
    that same trim, so this `unwrap` never fails either.
  - The older tree's `serial/channels.rs` is not part of this model. The older serial modules
    that import it use the newer `channels.rs` (`SerialName`): the serial client (`SerialClient`)
    and the serial message conversions (`SerialMsg`, whose `ExtractInfo` and `FromPair` take a
    `SerialChannelName`).
  - The newer tree's `serial/message.rs` is not part of this model. `PipeClient`, which imports
    its `SerialRawMessage`, uses the older `message.rs` (`SerialMsg`).
- SerialName.FromHub, SerialName.ToHub, SerialMsg.FromPair: the source `unwrap`s the other side's
  validation and panics when it fails. A hub name decoded by serde, such as "a.b", can reach the
  panic in `SerialName.FromHub`, since `HubChannelName` derives `Deserialize`. Each of these members excludes the panic with a `requires`.
  `SerialName.SerialNameIsHubName`, `SerialName.HubNameIsSerialName` and
  `SerialName.NormalIsHubName` show that no validated name reaches it.
- SerialMsg.ToHubData: `parse::<HubData>()` on the older `HubData` is modelled as its inherent `from_str` trim, which cannot fail, so the `unwrap` at `serial/message.rs:75` is taken never to panic; the `FromStr` implementation it calls is not part of this model.
- The test-utils hub orchestration, the data generators, the examples, the mock sensors and
  joystick, `main.rs`, the `mod.rs` files and the port traits are wiring, random data or printing.
- Manager.UnregisterFromChannel: the contract states only that the user leaves the channel in both maps and that the nodes are kept. That the rest of both maps is unchanged comes from the map operations' own contracts. When the nodes are asked is stated by `Manager.NodesAskedAfterLastSubscriber`.
- Manager.RegisterToChannel: the contract states only the subscription recorded in both maps, the receiver returned, and that the nodes are kept. That the rest of both maps is unchanged comes from the map operations' own contracts. When the nodes are asked is stated by `Manager.NodesAskedOnFirstSubscriber`.

=== FILE: hub_channel_name.dfy ===
/** `HubChannelName`: the validated, normalised name of a hub topic channel.
    Validation trims whitespace (including line breaks) from both ends, then rejects
    a line break left inside, any character that is neither alphanumeric, `_` nor
    whitespace, and any space left inside; a name that passes is lower-cased. */
module HubName {

  import opened Wrappers
  import opened Text

  /** The wrapper does not itself enforce the naming rules: a deserialised message can
      carry any string, so only names produced by `TryFrom` are known to be valid. */
  datatype HubChannelName = HubChannelName(name: string)

  const NewlineError := "Invalid channel name: Newlines are not allowed in the middle."
  const CharsetError := "Invalid channel name: Only alphanumeric characters and '_' are allowed."
  const SpaceError := "Invalid channel name: Whitespace is only allowed at the beginning or end."

  /** The characters that survive every check once the ends are trimmed: name characters,
      and whitespace other than space, line feed and carriage return (a tab, say). */
  predicate IsAcceptedChar(c: char)
  {
    IsNameChar(c) || (IsWhitespace(c) && c != ' ' && c != '\n' && c != '\r')
  }

  /** A lower-case ASCII letter, a digit or `_`. */
  predicate IsLowerNameChar(c: char)
  {
    IsNameChar(c) && !IsAsciiUpper(c)
  }

  /** The input with whitespace, line feeds and carriage returns trimmed from both ends. */
  function Trimmed(value: string): string
  {
    TrimMatches(value, IsStripped)
  }

  /** `as_str`: the name's text. A name of lower-case name characters validates back to
      itself. */
  function AsStr(n: HubChannelName): (s: string)
    ensures s == n.name
    ensures (forall k :: 0 <= k < |s| ==> IsLowerNameChar(s[k])) ==> TryFrom(s) == Ok(n)
  {
    if forall k :: 0 <= k < |n.name| ==> IsLowerNameChar(n.name[k]) then
      LowerNameUnchanged(n.name);
      n.name
    else
      n.name
  }

  /** Some character is neither a name character nor whitespace. */
  predicate HasForeignChar(t: string)
  {
    exists k :: 0 <= k < |t| && !(IsNameChar(t[k]) || IsWhitespace(t[k]))
  }

  /** The checks `TryFrom` applies once the input is trimmed, in order: a line break,
      then a foreign character, then a space; what passes is lower-cased. */
  function Validate(t: string): (r: Result<HubChannelName, string>)
    ensures r.Ok? <==> forall k :: 0 <= k < |t| ==> IsAcceptedChar(t[k])
    ensures r.Ok? ==> r.value.name == ToAsciiLowercase(t)
    ensures r == Err(NewlineError) <==> ('\n' in t || '\r' in t)
    ensures r == Err(CharsetError) <==> ('\n' !in t && '\r' !in t && HasForeignChar(t))
    ensures r == Err(SpaceError) <==> ('\n' !in t && '\r' !in t && !HasForeignChar(t) && ' ' in t)
  {
    if '\n' in t || '\r' in t then
      Err(NewlineError)
    else if HasForeignChar(t) then
      Err(CharsetError)
    else if ' ' in t then
      Err(SpaceError)
    else
      Ok(HubChannelName(ToAsciiLowercase(t)))
  }

  /** `TryFrom<&str>` (and `TryFrom<String>`, which delegates to it). */
  function TryFrom(value: string): (r: Result<HubChannelName, string>)
    ensures r.Ok? <==> forall k :: 0 <= k < |Trimmed(value)| ==> IsAcceptedChar(Trimmed(value)[k])
    ensures r.Ok? ==> r.value.name == ToAsciiLowercase(Trimmed(value))
    ensures r.Err? ==> r.error == NewlineError || r.error == CharsetError || r.error == SpaceError
  {
    Validate(Trimmed(value))
  }

  /** Validation looks only at the trimmed input. */
  lemma SameTrimSameResult(a: string, b: string)
    requires Trimmed(a) == Trimmed(b)
    ensures TryFrom(a) == TryFrom(b)
  {
  }

  /** Every character of `value` that is not stripped survives into the trimmed string. */
  lemma UnstrippedCharsKept(value: string, k: nat)
    requires k < |value| && !IsStripped(value[k])
    ensures value[k] in Trimmed(value)
  {
    var i := LeadLen(value, IsStripped);
    var t := Trimmed(value);
    assert forall j :: i + |t| <= j < |value| ==> value[j] == value[i + |t|..][j - i - |t|];
    assert t[k - i] == value[k];
  }

  /** What a successfully validated name looks like: only accepted characters, no
      upper-case ASCII letter, no space or line break, and no whitespace at either end. */
  lemma OkShape(value: string)
    requires TryFrom(value).Ok?
    ensures var n := TryFrom(value).value.name;
      && (forall k :: 0 <= k < |n| ==> IsAcceptedChar(n[k]) && !IsAsciiUpper(n[k]))
      && ' ' !in n && '\n' !in n && '\r' !in n
      && (n == [] || (!IsWhitespace(n[0]) && !IsWhitespace(n[|n| - 1])))
  {
    var t := Trimmed(value);
    var n := TryFrom(value).value.name;
    forall k | 0 <= k < |n|
      ensures IsAcceptedChar(n[k]) && n[k] != ' ' && n[k] != '\n' && n[k] != '\r'
    {
      LowerCharKeepsClasses(t[k]);
    }
    if n != [] {
      LowerCharKeepsClasses(t[0]);
      LowerCharKeepsClasses(t[|t| - 1]);
    }
  }

  /** Idempotence: validating the text of a validated name gives the same name back. */
  lemma Idempotent(value: string)
    requires TryFrom(value).Ok?
    ensures TryFrom(AsStr(TryFrom(value).value)) == TryFrom(value)
  {
    var n := TryFrom(value).value.name;
    OkShape(value);
    TrimMatchesNoop(n, IsStripped);
    LowercaseOfLower(n);
  }

  /** A name already made of lower-case letters, digits and `_` is accepted unchanged. */
  lemma LowerNameUnchanged(value: string)
    requires forall k :: 0 <= k < |value| ==> IsLowerNameChar(value[k])
    ensures TryFrom(value) == Ok(HubChannelName(value))
  {
    assert forall k :: 0 <= k < |value| ==> !IsStripped(value[k]) && IsAcceptedChar(value[k]);
    TrimMatchesNoop(value, IsStripped);
    assert Trimmed(value) == value;
    assert '\n' !in value && '\r' !in value && ' ' !in value;
    LowercaseOfLower(value);
  }

  /** A name made of letters, digits and `_` is accepted, lower-cased. */
  lemma NameCharsAccepted(value: string)
    requires forall k :: 0 <= k < |value| ==> IsNameChar(value[k])
    ensures TryFrom(value) == Ok(HubChannelName(ToAsciiLowercase(value)))
  {
    assert forall k :: 0 <= k < |value| ==> !IsStripped(value[k]) && IsAcceptedChar(value[k]);
    TrimMatchesNoop(value, IsStripped);
  }

  /** A character that is neither a name character nor whitespace anywhere in the input
      makes validation fail. */
  lemma ForeignCharRejected(value: string, k: nat)
    requires k < |value| && !IsNameChar(value[k]) && !IsWhitespace(value[k])
    ensures TryFrom(value).Err?
  {
    UnstrippedCharsKept(value, k);
  }

  /** A line break between two name parts is rejected with the line-break message. */
  lemma InnerLineBreakRejected(a: string, b: string, brk: char)
    requires brk == '\n' || brk == '\r'
    requires a != [] && !IsStripped(a[0]) && b != [] && !IsStripped(b[|b| - 1])
    ensures TryFrom(a + [brk] + b) == Err(NewlineError)
  {
    var s := a + [brk] + b;
    TrimMatchesNoop(s, IsStripped);
    assert s[|a|] == brk;
  }

  /** An input that trimming leaves alone goes straight to the checks. */
  lemma UntrimmedValidated(value: string)
    requires value == [] || (!IsStripped(value[0]) && !IsStripped(value[|value| - 1]))
    ensures TryFrom(value) == Validate(value)
  {
    TrimMatchesNoop(value, IsStripped);
  }

  /** A space between two name parts is rejected with the inner-whitespace message. */
  lemma InnerSpaceRejected(a: string, b: string)
    requires a != [] && b != []
    requires forall k :: 0 <= k < |a| ==> IsNameChar(a[k])
    requires forall k :: 0 <= k < |b| ==> IsNameChar(b[k])
    ensures TryFrom(a + " " + b) == Err(SpaceError)
  {
    var s := a + " " + b;
    JoinedRuns(a, ' ', b, IsNameChar);
    UntrimmedValidated(s);
    SpacedRejected(s, |a|);
  }

  /** Name characters with a space among them fail only the space check. */
  lemma SpacedRejected(t: string, i: nat)
    requires forall k :: 0 <= k < |t| ==> IsNameChar(t[k]) || t[k] == ' '
    requires i < |t| && t[i] == ' '
    ensures Validate(t) == Err(SpaceError)
  {
    assert !HasForeignChar(t);
  }

  /** Inner whitespace other than space and line breaks passes every check and is kept:
      a tab between two lower-case parts survives into the name. */
  lemma InnerTabKept(a: string, b: string)
    requires a != [] && b != []
    requires forall k :: 0 <= k < |a| ==> IsLowerNameChar(a[k])
    requires forall k :: 0 <= k < |b| ==> IsLowerNameChar(b[k])
    ensures TryFrom(a + "\t" + b) == Ok(HubChannelName(a + "\t" + b))
  {
    var s := a + "\t" + b;
    JoinedRuns(a, '\t', b, IsLowerNameChar);
    UntrimmedValidated(s);
    TabbedAccepted(s);
  }

  /** Lower-case name characters and tabs pass every check unchanged. */
  lemma TabbedAccepted(t: string)
    requires forall k :: 0 <= k < |t| ==> IsLowerNameChar(t[k]) || t[k] == '\t'
    ensures Validate(t) == Ok(HubChannelName(t))
  {
    LowercaseOfLower(t);
  }

  /** Input made only of whitespace is accepted as the empty name. */
  lemma BlankIsEmptyName(value: string)
    requires forall k :: 0 <= k < |value| ==> IsStripped(value[k])
    ensures TryFrom(value) == Ok(HubChannelName(""))
  {
    TrimMatchesAllMatch(value, IsStripped);
  }

  /** The cases the source's unit tests exercise. */
  lemma ExampleUppercase(s: string)
    requires s == "Valid_Channel"
    ensures TryFrom(s) == Ok(HubChannelName("valid_channel"))
  {
    ExampleUppercaseLowered(s);
    assert forall k :: 0 <= k < |s| ==> IsNameChar(s[k]);
    NameCharsAccepted(s);
  }

  lemma ExampleUppercaseLowered(s: string)
    requires s == "Valid_Channel"
    ensures ToAsciiLowercase(s) == "valid_channel"
  {
    var r := ToAsciiLowercase(s);
    var t: string := "valid_channel";
    assert |r| == |t| == 13;
    forall k | 0 <= k < 13
      ensures r[k] == t[k]
    {
      if k == 0 || k == 6 {
        assert IsAsciiUpper(s[k]);
      } else {
        assert !IsAsciiUpper(s[k]) && s[k] == t[k];
      }
    }
  }

  /** Whitespace and line breaks around a lower-case name are dropped. */
  lemma SurroundingBlanksDropped(pre: string, mid: string, post: string)
    requires mid != [] && forall k :: 0 <= k < |mid| ==> IsLowerNameChar(mid[k])
    requires AllMatch(pre, IsStripped) && AllMatch(post, IsStripped)
    ensures TryFrom(pre + mid + post) == Ok(HubChannelName(mid))
  {
    TrimMatchesOf(pre, mid, post, IsStripped);
    TrimMatchesNoop(mid, IsStripped);
    SameTrimSameResult(pre + mid + post, mid);
    LowerNameUnchanged(mid);
  }

  lemma ExampleTrailingNewline(s: string)
    requires s == "validchannel\n"
    ensures TryFrom(s) == Ok(HubChannelName("validchannel"))
  {
    var mid: string := "validchannel";
    var post: string := "\n";
    assert [] + mid + post == s;
    SurroundingBlanksDropped([], mid, post);
  }

  lemma ExampleTrailingReturn(s: string)
    requires s == "validchannel\r"
    ensures TryFrom(s) == Ok(HubChannelName("validchannel"))
  {
    var mid: string := "validchannel";
    var post: string := "\r";
    assert [] + mid + post == s;
    SurroundingBlanksDropped([], mid, post);
  }

  lemma ExampleInnerSpace(s: string)
    requires s == "invalid channel"
    ensures TryFrom(s) == Err(SpaceError)
  {
    var a: string := "invalid";
    var b: string := "channel";
    assert a + " " + b == s;
    InnerSpaceRejected(a, b);
  }

  lemma ExampleInnerNewline(s: string)
    requires s == "valid\nchannel"
    ensures TryFrom(s) == Err(NewlineError)
  {
    var a: string := "valid";
    var b: string := "channel";
    assert a + "\n" + b == s;
    InnerLineBreakRejected(a, b, '\n');
  }

  lemma ExampleSpecialChars(s: string)
    requires s == "invalid@channel!"
    ensures TryFrom(s).Err?
  {
    assert !IsNameChar(s[7]) && !IsWhitespace(s[7]);
    ForeignCharRejected(s, 7);
  }
}

=== FILE: hub_channels.dfy ===
/** `HubChannels`: for every hub channel, the broadcast sender its messages go out on
    and the ids of the users subscribed to it. A channel exists only while it has
    subscribers. */
module Channels {

  import opened Wrappers
  import opened Receivers
  import HubName

  datatype ChannelInfo = ChannelInfo(sender: SenderId, subscribers: set<UserId>)

  datatype HubChannels = HubChannels(entries: map<HubName.HubChannelName, ChannelInfo>)

  /** Every stored channel has at least one subscriber. */
  ghost predicate NoEmptyChannel(c: HubChannels)
  {
    forall ch :: ch in c.entries ==> c.entries[ch].subscribers != {}
  }

  /** Distinct channels broadcast on distinct senders. */
  ghost predicate DistinctSenders(c: HubChannels)
  {
    forall a, b :: a in c.entries && b in c.entries && a != b ==> c.entries[a].sender != c.entries[b].sender
  }

  ghost predicate Valid(c: HubChannels)
  {
    NoEmptyChannel(c) && DistinctSenders(c)
  }

  /** `id` is subscribed to no channel: what a fresh `Uuid::new_v4` satisfies. */
  ghost predicate FreshUser(c: HubChannels, id: UserId)
  {
    forall ch :: ch in c.entries ==> id !in c.entries[ch].subscribers
  }

  /** `s` is the sender of no channel: what a new `broadcast::channel` satisfies. */
  ghost predicate FreshSender(c: HubChannels, s: SenderId)
  {
    forall ch :: ch in c.entries ==> c.entries[ch].sender != s
  }

  /** `id` is among the subscribers of `ch`. */
  predicate IsSubscribed(c: HubChannels, ch: HubName.HubChannelName, id: UserId)
  {
    ch in c.entries && id in c.entries[ch].subscribers
  }

  /** The entry of `ch`, if any. */
  function Get(c: HubChannels, ch: HubName.HubChannelName): Option<ChannelInfo>
  {
    if ch in c.entries then Some(c.entries[ch]) else None
  }

  /** `new`. */
  function New(): (c: HubChannels)
    ensures Valid(c)
    ensures forall ch :: Get(c, ch).None?
  {
    HubChannels(map[])
  }

  /** `subscribe_user`: the channel is created with the fresh sender if absent, the
      fresh user id joins its subscribers, and the returned receiver listens to the
      channel's sender. */
  function SubscribeUser(c: HubChannels, ch: HubName.HubChannelName, id: UserId, newSender: SenderId)
    : (r: (HubChannels, HubReceiver))
    ensures ch in r.0.entries
    ensures r.0.entries[ch].sender == (if ch in c.entries then c.entries[ch].sender else newSender)
    ensures r.0.entries[ch].subscribers == (if ch in c.entries then c.entries[ch].subscribers else {}) + {id}
    ensures r.1.userId == id && r.1.receiver == Receiver(r.0.entries[ch].sender)
    ensures forall other :: other != ch ==> Get(r.0, other) == Get(c, other)
  {
    var info := if ch in c.entries then c.entries[ch] else ChannelInfo(newSender, {});
    var info' := ChannelInfo(info.sender, info.subscribers + {id});
    (HubChannels(c.entries[ch := info']), HubReceiver(id, Receiver(info.sender)))
  }

  /** `get_number_subscribers`: zero for an unknown channel. */
  function GetNumberSubscribers(c: HubChannels, ch: HubName.HubChannelName): (n: nat)
    ensures ch !in c.entries ==> n == 0
    ensures ch in c.entries ==> n == |c.entries[ch].subscribers|
  {
    if ch in c.entries then |c.entries[ch].subscribers| else 0
  }

  /** `is_empty`: true for an unknown channel and for one without subscribers. */
  function IsEmpty(c: HubChannels, ch: HubName.HubChannelName): (b: bool)
    ensures b <==> GetNumberSubscribers(c, ch) == 0
  {
    if ch in c.entries then c.entries[ch].subscribers == {} else true
  }

  /** `get_sender`. */
  function GetSender(c: HubChannels, ch: HubName.HubChannelName): (r: Option<SenderId>)
    ensures r.Some? <==> ch in c.entries
    ensures r.Some? ==> r.value == c.entries[ch].sender
  {
    if ch in c.entries then Some(c.entries[ch].sender) else None
  }

  /** `unsubscribe_user`: the id leaves the channel's subscribers, and the channel is
      dropped once nobody is left; an unknown channel is left alone. */
  function UnsubscribeUser(c: HubChannels, ch: HubName.HubChannelName, id: UserId): (r: HubChannels)
    ensures ch !in c.entries ==> r == c
    ensures ch in r.entries ==> (ch in c.entries
      && r.entries[ch] == ChannelInfo(c.entries[ch].sender, c.entries[ch].subscribers - {id}))
    ensures ch in c.entries ==> (ch !in r.entries <==> c.entries[ch].subscribers - {id} == {})
    ensures forall other :: other != ch ==> Get(r, other) == Get(c, other)
  {
    if ch in c.entries then
      var info := c.entries[ch];
      var removed := HubChannels(c.entries[ch := ChannelInfo(info.sender, info.subscribers - {id})]);
      if IsEmpty(removed, ch) then HubChannels(removed.entries - {ch}) else removed
    else
      c
  }

  /** Subscribing adds exactly the pair (`ch`, `id`) to the subscription relation. */
  lemma SubscribeMembership(c: HubChannels, ch: HubName.HubChannelName, id: UserId, newSender: SenderId)
    ensures forall ch2, x :: (IsSubscribed(SubscribeUser(c, ch, id, newSender).0, ch2, x)
      <==> IsSubscribed(c, ch2, x) || (ch2 == ch && x == id))
  {
    var r := SubscribeUser(c, ch, id, newSender).0;
    forall ch2, x ensures IsSubscribed(r, ch2, x) <==> IsSubscribed(c, ch2, x) || (ch2 == ch && x == id)
    {
      if ch2 != ch { assert Get(r, ch2) == Get(c, ch2); }
    }
  }

  /** Unsubscribing removes exactly the pair (`ch`, `id`) from the subscription relation. */
  lemma UnsubscribeMembership(c: HubChannels, ch: HubName.HubChannelName, id: UserId)
    ensures forall ch2, x :: (IsSubscribed(UnsubscribeUser(c, ch, id), ch2, x)
      <==> IsSubscribed(c, ch2, x) && !(ch2 == ch && x == id))
  {
    var r := UnsubscribeUser(c, ch, id);
    forall ch2, x ensures IsSubscribed(r, ch2, x) <==> IsSubscribed(c, ch2, x) && !(ch2 == ch && x == id)
    {
      if ch2 != ch { assert Get(r, ch2) == Get(c, ch2); }
    }
  }

  /** A fresh subscriber raises the channel's count by exactly one. */
  lemma SubscribeCounts(c: HubChannels, ch: HubName.HubChannelName, id: UserId, newSender: SenderId)
    requires FreshUser(c, id)
    ensures GetNumberSubscribers(SubscribeUser(c, ch, id, newSender).0, ch) == GetNumberSubscribers(c, ch) + 1
    ensures id in SubscribeUser(c, ch, id, newSender).0.entries[ch].subscribers
  {
    if ch in c.entries {
      assert id !in c.entries[ch].subscribers;
    }
  }

  /** Subscribing keeps both invariants when the id and the sender are fresh. */
  lemma SubscribeValid(c: HubChannels, ch: HubName.HubChannelName, id: UserId, newSender: SenderId)
    requires Valid(c) && FreshSender(c, newSender)
    ensures Valid(SubscribeUser(c, ch, id, newSender).0)
  {
    var r := SubscribeUser(c, ch, id, newSender).0;
    forall a, b | a in r.entries && b in r.entries && a != b
      ensures r.entries[a].sender != r.entries[b].sender
    {
      assert Get(r, a) == Get(c, a) || a == ch;
      assert Get(r, b) == Get(c, b) || b == ch;
    }
    forall a | a in r.entries ensures r.entries[a].subscribers != {}
    {
      assert Get(r, a) == Get(c, a) || a == ch;
    }
  }

  /** Unsubscribing keeps both invariants. */
  lemma UnsubscribeValid(c: HubChannels, ch: HubName.HubChannelName, id: UserId)
    requires Valid(c)
    ensures Valid(UnsubscribeUser(c, ch, id))
  {
    var r := UnsubscribeUser(c, ch, id);
    forall a | a in r.entries ensures a in c.entries && r.entries[a].sender == c.entries[a].sender
    {
      assert Get(r, a) == Get(c, a) || a == ch;
    }
    forall a | a in r.entries ensures r.entries[a].subscribers != {}
    {
      assert Get(r, a) == Get(c, a) || a == ch;
    }
  }

  /** Unsubscribing right after subscribing a fresh user restores the previous state. */
  lemma UnsubscribeUndoesSubscribe(c: HubChannels, ch: HubName.HubChannelName, id: UserId, newSender: SenderId)
    requires Valid(c) && FreshUser(c, id)
    ensures UnsubscribeUser(SubscribeUser(c, ch, id, newSender).0, ch, id) == c
  {
    var s := SubscribeUser(c, ch, id, newSender).0;
    var r := UnsubscribeUser(s, ch, id);
    if ch in c.entries {
      assert id !in c.entries[ch].subscribers;
      assert s.entries[ch].subscribers - {id} == c.entries[ch].subscribers;
      assert r.entries[ch] == c.entries[ch];
    } else {
      assert s.entries[ch].subscribers - {id} == {};
    }
    forall other | other != ch ensures Get(r, other) == Get(c, other) {}
    assert r.entries.Keys == c.entries.Keys by {
      forall k ensures k in r.entries <==> k in c.entries
      {
        if k != ch { assert Get(r, k) == Get(c, k); }
      }
    }
    assert r.entries == c.entries;
  }

  /** For a channel nobody subscribed to, the count is zero, it is empty and has no
      sender; with the invariant, the converse holds too. */
  lemma UnknownChannel(c: HubChannels, ch: HubName.HubChannelName)
    requires Valid(c)
    ensures ch !in c.entries <==> IsEmpty(c, ch)
    ensures ch !in c.entries <==> GetSender(c, ch).None?
  {
  }

  /** The source's unit tests: two subscriptions give two subscribers; unsubscribing
      the only subscriber removes the channel. */
  lemma ExampleTwoSubscribers(ch: HubName.HubChannelName, id1: UserId, id2: UserId, s1: SenderId, s2: SenderId)
    requires id1 != id2
    ensures var c1 := SubscribeUser(New(), ch, id1, s1).0;
      GetNumberSubscribers(SubscribeUser(c1, ch, id2, s2).0, ch) == 2
  {
    var c1 := SubscribeUser(New(), ch, id1, s1).0;
    assert c1.entries[ch].subscribers == {id1};
    SubscribeCounts(c1, ch, id2, s2);
  }

  lemma ExampleSubscribeUnsubscribe(ch: HubName.HubChannelName, id: UserId, s: SenderId)
    ensures var c1 := SubscribeUser(New(), ch, id, s).0;
      && GetNumberSubscribers(c1, ch) == 1
      && ch !in UnsubscribeUser(c1, ch, id).entries
      && GetNumberSubscribers(UnsubscribeUser(c1, ch, id), ch) == 0
  {
    UnsubscribeUndoesSubscribe(New(), ch, id, s);
  }
}

=== FILE: hub_data.dfy ===
/** `HubData`: the payload text of a hub message. Building it trims spaces, line feeds
    and carriage returns from both ends and keeps everything else, including tabs. */
module Payload {

  import opened Text

  datatype HubData = HubData(text: string)

  /** The characters `from_str` trims: space, line feed and carriage return only. */
  predicate IsDataTrim(c: char)
  {
    c == ' ' || c == '\n' || c == '\r'
  }

  /** `from_str`. */
  function FromStr(data: string): (d: HubData)
    ensures d.text == [] || (!IsDataTrim(d.text[0]) && !IsDataTrim(d.text[|d.text| - 1]))
    ensures exists i :: (0 <= i && i + |d.text| <= |data| && d.text == data[i..i + |d.text|]
      && AllMatch(data[..i], IsDataTrim) && AllMatch(data[i + |d.text|..], IsDataTrim))
  {
    var r := TrimMatches(data, IsDataTrim);
    ghost var i := LeadLen(data, IsDataTrim);
    assert r == data[i..i + |r|];
    HubData(r)
  }

  /** `as_str`: the payload text. A payload whose ends are not trimmed characters, as every
      `from_str` result is, is rebuilt unchanged from it. */
  function AsStr(d: HubData): (s: string)
    ensures s == d.text
    ensures (s == [] || (!IsDataTrim(s[0]) && !IsDataTrim(s[|s| - 1]))) ==> FromStr(s) == d
  {
    if d.text == [] || (!IsDataTrim(d.text[0]) && !IsDataTrim(d.text[|d.text| - 1])) then
      TrimMatchesNoop(d.text, IsDataTrim);
      d.text
    else
      d.text
  }

  /** `to_string`: an owned copy of the `as_str` text. */
  function ToString(d: HubData): (s: string)
    ensures s == AsStr(d)
    ensures (s == [] || (!IsDataTrim(s[0]) && !IsDataTrim(s[|s| - 1]))) ==> FromStr(s) == d
  {
    AsStr(d)
  }

  /** `from_str` returns exactly the part between a leading and a trailing run of trimmed
      characters, whatever those runs are. */
  lemma FromStrOf(pre: string, mid: string, post: string)
    requires AllMatch(pre, IsDataTrim) && AllMatch(post, IsDataTrim)
    requires mid == [] || (!IsDataTrim(mid[0]) && !IsDataTrim(mid[|mid| - 1]))
    ensures FromStr(pre + mid + post) == HubData(mid)
  {
    TrimMatchesOf(pre, mid, post, IsDataTrim);
  }

  /** Text that neither starts nor ends with a trimmed character is kept as it is, so
      `as_str` returns what `from_str` was given. */
  lemma FromStrKeeps(data: string)
    requires data == [] || (!IsDataTrim(data[0]) && !IsDataTrim(data[|data| - 1]))
    ensures AsStr(FromStr(data)) == data
    ensures ToString(FromStr(data)) == data
  {
    TrimMatchesNoop(data, IsDataTrim);
  }

  /** Rebuilding a payload from its own text changes nothing. */
  lemma FromStrIdempotent(data: string)
    ensures FromStr(AsStr(FromStr(data))) == FromStr(data)
  {
    TrimMatchesIdempotent(data, IsDataTrim);
  }

  /** Text made only of spaces and line breaks becomes the empty payload. */
  lemma BlankIsEmpty(data: string)
    requires AllMatch(data, IsDataTrim)
    ensures FromStr(data) == HubData("")
  {
    TrimMatchesAllMatch(data, IsDataTrim);
  }

  /** A leading tab is not trimmed. */
  lemma TabKept(rest: string)
    requires rest == [] || !IsDataTrim(rest[|rest| - 1])
    ensures FromStr("\t" + rest) == HubData("\t" + rest)
  {
    var s := "\t" + rest;
    assert s[0] == '\t' && s[|s| - 1] != ' ' && s[|s| - 1] != '\n' && s[|s| - 1] != '\r';
    TrimMatchesNoop(s, IsDataTrim);
  }

  /** The cases the source's unit tests exercise. */
  lemma ExampleSurroundingSpaces(s: string)
    requires s == "  example data  "
    ensures FromStr(s) == HubData("example data")
  {
    var pre: string := "  ";
    var mid: string := "example data";
    assert pre + mid + pre == s;
    FromStrOf(pre, mid, pre);
  }

  lemma ExampleTrailingLineBreaks(s: string)
    requires s == "  example data  \n\r"
    ensures FromStr(s) == HubData("example data")
  {
    var pre: string := "  ";
    var mid: string := "example data";
    var post: string := "  \n\r";
    assert pre + mid + post == s;
    FromStrOf(pre, mid, post);
  }

  lemma ExampleBlank()
    ensures FromStr("   ") == HubData("")
  {
    var s: string := "   ";
    assert AllMatch(s, IsDataTrim);
    BlankIsEmpty(s);
  }
}

=== FILE: hub_manager.dfy ===
/** `HubManager`: the hub's controller. It keeps the channel→subscribers map and the
    user→channels map, and asks every hub node (serial port, WebSocket server, ...)
    to subscribe to a channel when its first subscriber arrives and to unsubscribe
    after its last subscriber leaves. Nodes are opaque: every call made to one is
    appended to a log, and what each node answers is an input. */
module Manager {

  import opened Wrappers
  import opened Receivers
  import HubName
  import HubMsg
  import Channels
  import LegacyUsers

  /** Identity of a hub node (`Box<dyn NotificationHub>`). */
  type NodeId = nat

  /** The `NotificationHub` calls the manager makes on a node. */
  datatype Request =
    | Subscribe(channel: HubName.HubChannelName)
    | Unsubscribe(channel: HubName.HubChannelName)
    | Start(hubSender: SenderId)
    | Send(message: HubMsg.HubMessage)
    | ListChannels

  datatype NodeCall = NodeCall(node: NodeId, request: Request)

  /** What a node answers to `list_channels`. */
  type Listing = Result<seq<HubName.HubChannelName>, string>

  datatype HubManager = HubManager(
    channels: Channels.HubChannels,
    subscribers: LegacyUsers.HubUsers,
    hubSender: SenderId,
    nodes: seq<NodeId>,
    log: seq<NodeCall>)

  /** A user is subscribed to a channel in one map exactly when it is in the other. */
  ghost predicate MapsAgree(c: Channels.HubChannels, u: LegacyUsers.HubUsers)
  {
    forall ch, id :: Channels.IsSubscribed(c, ch, id) <==> ch in LegacyUsers.ChannelsOf(u, id)
  }

  ghost predicate Valid(m: HubManager)
  {
    Channels.Valid(m.channels) && LegacyUsers.Valid(m.subscribers) && MapsAgree(m.channels, m.subscribers)
  }

  /** `new`: `hubSender` is the sender of the hub's own broadcast channel. */
  function New(hubSender: SenderId): (m: HubManager)
    ensures Valid(m)
    ensures m.nodes == [] && m.log == [] && m.hubSender == hubSender
    ensures forall ch :: Channels.Get(m.channels, ch).None?
    ensures forall id :: LegacyUsers.ChannelsOf(m.subscribers, id) == {}
  {
    HubManager(Channels.New(), LegacyUsers.New(), hubSender, [], [])
  }

  /** `add`: the node goes last, so `nodes[i]` is the `i`-th node added. */
  function Add(m: HubManager, node: NodeId): (r: HubManager)
    ensures |r.nodes| == |m.nodes| + 1 && r.nodes[|m.nodes|] == node
    ensures r.nodes[..|m.nodes|] == m.nodes
    ensures r.channels == m.channels && r.subscribers == m.subscribers && r.log == m.log
    ensures r.hubSender == m.hubSender
  {
    m.(nodes := m.nodes + [node])
  }

  // ---------------------------------------------------------------------------
  // Fan-out to the nodes
  // ---------------------------------------------------------------------------

  /** Index of the first error among `replies`, or `|replies|` if there is none. */
  function FirstErr<T>(replies: seq<Result<T, string>>): (n: nat)
    ensures n <= |replies|
    ensures forall k :: 0 <= k < n ==> replies[k].Ok?
    ensures n < |replies| ==> replies[n].Err?
  {
    if replies == [] || replies[0].Err? then 0 else 1 + FirstErr(replies[1..])
  }

  /** How many nodes a `for node in nodes { node.call().await?; }` loop reaches:
      all of them, or up to and including the first that fails. */
  function Reached<T>(replies: seq<Result<T, string>>): (n: nat)
    ensures n <= |replies|
  {
    if FirstErr(replies) < |replies| then FirstErr(replies) + 1 else |replies|
  }

  /** Past a successful first reply, the first error and the reach shift by one. */
  lemma FirstErrStep<T>(replies: seq<Result<T, string>>)
    requires replies != [] && replies[0].Ok?
    ensures FirstErr(replies) == 1 + FirstErr(replies[1..])
    ensures Reached(replies) == 1 + Reached(replies[1..])
    ensures FirstErr(replies) < |replies| ==> replies[FirstErr(replies)] == replies[1..][FirstErr(replies[1..])]
  {
  }

  /** Every reply is `Ok` exactly when the first is and every later one is. */
  predicate AllOk<T>(replies: seq<Result<T, string>>)
  {
    forall k :: 0 <= k < |replies| ==> replies[k].Ok?
  }

  lemma AllOkStep<T>(replies: seq<Result<T, string>>)
    requires replies != []
    ensures AllOk(replies) <==> replies[0].Ok? && AllOk(replies[1..])
  {
    assert forall k :: 1 <= k < |replies| ==> replies[k] == replies[1..][k - 1];
  }

  /** The calls `request` to the first `n` nodes, in order. */
  function CallsTo(nodes: seq<NodeId>, request: Request, n: nat): (calls: seq<NodeCall>)
    requires n <= |nodes|
    ensures |calls| == n
    ensures forall k :: 0 <= k < n ==> calls[k] == NodeCall(nodes[k], request)
  {
    seq(n, k requires 0 <= k < n => NodeCall(nodes[k], request))
  }

  lemma CallsToCons(nodes: seq<NodeId>, request: Request, n: nat)
    requires 0 < n <= |nodes|
    ensures CallsTo(nodes, request, n) == [NodeCall(nodes[0], request)] + CallsTo(nodes[1..], request, n - 1)
  {
  }

  /** `request` sent to every node in turn, stopping at the first error, which is
      returned; `replies[k]` is what node `k` answers. */
  function FanOut(nodes: seq<NodeId>, request: Request, replies: seq<Result<(), string>>)
    : (r: (seq<NodeCall>, Result<(), string>))
    requires |replies| == |nodes|
    ensures r.0 == CallsTo(nodes, request, Reached(replies))
    ensures r.1.Ok? <==> AllOk(replies)
    ensures r.1.Err? ==> FirstErr(replies) < |replies| && r.1 == replies[FirstErr(replies)]
  {
    if nodes == [] then ([], Ok(()))
    else
      var call := NodeCall(nodes[0], request);
      if replies[0].Err? then ([call], replies[0])
      else
        var rest := FanOut(nodes[1..], request, replies[1..]);
        FirstErrStep(replies);
        AllOkStep(replies);
        CallsToCons(nodes, request, Reached(replies));
        ([call] + rest.0, rest.1)
  }

  /** `ch` is in the list some node returned successfully. */
  ghost predicate Listed(ch: HubName.HubChannelName, listings: seq<Listing>)
  {
    exists k :: 0 <= k < |listings| && listings[k].Ok? && ch in listings[k].value
  }

  /** Past a successful first list, being listed means being in it or in a later one. */
  lemma ListedCons(listings: seq<Listing>)
    requires listings != [] && listings[0].Ok?
    ensures forall ch :: Listed(ch, listings) <==> (ch in listings[0].value || Listed(ch, listings[1..]))
  {
    forall ch | Listed(ch, listings[1..])
      ensures Listed(ch, listings)
    {
      var k :| 0 <= k < |listings| - 1 && listings[1..][k].Ok? && ch in listings[1..][k].value;
      assert listings[k + 1] == listings[1..][k];
    }
    forall ch | Listed(ch, listings) && ch !in listings[0].value
      ensures Listed(ch, listings[1..])
    {
      var k :| 0 <= k < |listings| && listings[k].Ok? && ch in listings[k].value;
      assert k != 0;
      assert listings[1..][k - 1] == listings[k];
    }
  }

  /** `list_channels`: the union of every node's list, or the first node error. */
  function CollectListings(nodes: seq<NodeId>, listings: seq<Listing>)
    : (r: (seq<NodeCall>, Result<set<HubName.HubChannelName>, string>))
    requires |listings| == |nodes|
    ensures r.0 == CallsTo(nodes, ListChannels, Reached(listings))
    ensures r.1.Ok? <==> AllOk(listings)
    ensures r.1.Err? ==> FirstErr(listings) < |listings| && r.1.error == listings[FirstErr(listings)].error
    ensures r.1.Ok? ==> forall ch :: ch in r.1.value <==> Listed(ch, listings)
  {
    if nodes == [] then ([], Ok({}))
    else
      var call := NodeCall(nodes[0], ListChannels);
      match listings[0]
      case Err(e) => ([call], Err(e))
      case Ok(first) =>
        var rest := CollectListings(nodes[1..], listings[1..]);
        FirstErrStep(listings);
        ListedCons(listings);
        AllOkStep(listings);
        CallsToCons(nodes, ListChannels, Reached(listings));
        match rest.1
        case Err(e) => ([call] + rest.0, Err(e))
        case Ok(others) => ([call] + rest.0, Ok((set ch | ch in first) + others))
  }

  // ---------------------------------------------------------------------------
  // Operations
  // ---------------------------------------------------------------------------

  /** `start`: every node is started with the hub's sender, stopping at the first error.
      The dispatch task it spawns is `Dispatch`. */
  function StartNodes(m: HubManager, replies: seq<Result<(), string>>): (r: (HubManager, Result<(), string>))
    requires |replies| == |m.nodes|
    ensures r.0 == m.(log := m.log + CallsTo(m.nodes, Start(m.hubSender), Reached(replies)))
    ensures r.1.Ok? <==> forall k :: 0 <= k < |replies| ==> replies[k].Ok?
  {
    var (calls, res) := FanOut(m.nodes, Start(m.hubSender), replies);
    (m.(log := m.log + calls), res)
  }

  /** The dispatch loop: a message from a node goes out on the sender of its own
      channel, and is dropped when nobody is subscribed to that channel. */
  function Dispatch(m: HubManager, msg: HubMsg.HubMessage): (r: Option<SenderId>)
    ensures r.Some? <==> msg.channel in m.channels.entries
    ensures r.Some? ==> r.value == m.channels.entries[msg.channel].sender
  {
    Channels.GetSender(m.channels, msg.channel)
  }

  /** `list_channels`. */
  function ListChannelsOf(m: HubManager, listings: seq<Listing>)
    : (r: (HubManager, Result<set<HubName.HubChannelName>, string>))
    requires |listings| == |m.nodes|
    ensures r.0 == m.(log := m.log + CallsTo(m.nodes, ListChannels, Reached(listings)))
    ensures r.1.Ok? <==> forall k :: 0 <= k < |listings| ==> listings[k].Ok?
    ensures r.1.Err? ==> FirstErr(listings) < |listings| && r.1.error == listings[FirstErr(listings)].error
    ensures r.1.Ok? ==> forall ch :: ch in r.1.value <==> Listed(ch, listings)
  {
    var (calls, res) := CollectListings(m.nodes, listings);
    (m.(log := m.log + calls), res)
  }

  /** `register_to_channel`: the user `id` (a fresh `Uuid`) joins `ch` in both maps;
      when it is the channel's only subscriber, every node is asked to subscribe.
      A node error is returned, but the maps stay updated. */
  function RegisterToChannel(m: HubManager, ch: HubName.HubChannelName, id: UserId, newSender: SenderId,
                             replies: seq<Result<(), string>>)
    : (r: (HubManager, Result<HubReceiver, string>))
    requires |replies| == |m.nodes|
    ensures Channels.IsSubscribed(r.0.channels, ch, id)
    ensures ch in LegacyUsers.ChannelsOf(r.0.subscribers, id)
    ensures r.1.Ok? ==> r.1.value.userId == id && r.1.value.receiver.sender == r.0.channels.entries[ch].sender
    ensures r.0.nodes == m.nodes && r.0.hubSender == m.hubSender
  {
    var (channels, receiver) := Channels.SubscribeUser(m.channels, ch, id, newSender);
    var subscribers := LegacyUsers.SubscribeUser(m.subscribers, ch, receiver);
    var m1 := m.(channels := channels, subscribers := subscribers);
    if Channels.GetNumberSubscribers(channels, ch) == 1 then
      var (calls, res) := FanOut(m.nodes, Subscribe(ch), replies);
      (m1.(log := m.log + calls), if res.Ok? then Ok(Resubscribe(receiver)) else Err(res.error))
    else
      (m1, Ok(Resubscribe(receiver)))
  }

  /** `unregister_from_channel`: `id` leaves `ch` in both maps; when the channel then
      has no subscriber (or was unknown), every node is asked to unsubscribe. */
  function UnregisterFromChannel(m: HubManager, ch: HubName.HubChannelName, id: UserId,
                                 replies: seq<Result<(), string>>)
    : (r: (HubManager, Result<(), string>))
    requires |replies| == |m.nodes|
    ensures !Channels.IsSubscribed(r.0.channels, ch, id)
    ensures ch !in LegacyUsers.ChannelsOf(r.0.subscribers, id)
    ensures r.0.nodes == m.nodes && r.0.hubSender == m.hubSender
  {
    var channels := Channels.UnsubscribeUser(m.channels, ch, id);
    var subscribers := LegacyUsers.UnsubscribeUser(m.subscribers, ch, id);
    var m1 := m.(channels := channels, subscribers := subscribers);
    if Channels.IsEmpty(channels, ch) then
      var (calls, res) := FanOut(m.nodes, Unsubscribe(ch), replies);
      (m1.(log := m.log + calls), res)
    else
      (m1, Ok(()))
  }

  /** `send_to_channel`: the message goes to node `idx` only, whose answer `reply` is
      returned; an index past the last node sends nothing and succeeds. */
  function SendToChannel(m: HubManager, msg: HubMsg.HubMessage, idx: nat, reply: Result<(), string>)
    : (r: (HubManager, Result<(), string>))
    ensures idx < |m.nodes| ==> r == (m.(log := m.log + [NodeCall(m.nodes[idx], Send(msg))]), reply)
    ensures idx >= |m.nodes| ==> r == (m, Ok(()))
  {
    if idx < |m.nodes| then (m.(log := m.log + [NodeCall(m.nodes[idx], Send(msg))]), reply)
    else (m, Ok(()))
  }

  // ---------------------------------------------------------------------------
  // Properties
  // ---------------------------------------------------------------------------

  /** The nodes are asked to subscribe exactly when the channel had no subscriber
      before (its count becomes 1); otherwise nothing is sent and the call succeeds. */
  lemma NodesAskedOnFirstSubscriber(m: HubManager, ch: HubName.HubChannelName, id: UserId, newSender: SenderId,
                                    replies: seq<Result<(), string>>)
    requires Valid(m) && Channels.FreshUser(m.channels, id) && |replies| == |m.nodes|
    ensures var (m', r) := RegisterToChannel(m, ch, id, newSender, replies);
      && (ch !in m.channels.entries ==>
            m'.log == m.log + CallsTo(m.nodes, Subscribe(ch), Reached(replies))
            && (r.Ok? <==> forall k :: 0 <= k < |replies| ==> replies[k].Ok?))
      && (ch in m.channels.entries ==> m'.log == m.log && r.Ok?)
  {
    Channels.SubscribeCounts(m.channels, ch, id, newSender);
    if ch in m.channels.entries {
      assert m.channels.entries[ch].subscribers != {};
    }
  }

  /** The nodes are asked to unsubscribe exactly when no subscriber other than `id` is
      left on the channel, including when the channel was unknown. */
  lemma NodesAskedAfterLastSubscriber(m: HubManager, ch: HubName.HubChannelName, id: UserId,
                                      replies: seq<Result<(), string>>)
    requires |replies| == |m.nodes|
    ensures var (m', r) := UnregisterFromChannel(m, ch, id, replies);
      && (Channels.GetNumberSubscribers(m'.channels, ch) == 0 ==>
            m'.log == m.log + CallsTo(m.nodes, Unsubscribe(ch), Reached(replies))
            && (r.Ok? <==> forall k :: 0 <= k < |replies| ==> replies[k].Ok?))
      && (Channels.GetNumberSubscribers(m'.channels, ch) != 0 ==> m'.log == m.log && r.Ok?)
      && (Channels.GetNumberSubscribers(m'.channels, ch) == 0 <==>
            (ch !in m.channels.entries || m.channels.entries[ch].subscribers - {id} == {}))
  {
  }

  /** Subscribing the same user to the same channel in both maps keeps them in agreement. */
  lemma SubscribeKeepsAgreement(c: Channels.HubChannels, u: LegacyUsers.HubUsers, ch: HubName.HubChannelName,
                                id: UserId, newSender: SenderId)
    requires MapsAgree(c, u)
    ensures var (c', hr) := Channels.SubscribeUser(c, ch, id, newSender);
      MapsAgree(c', LegacyUsers.SubscribeUser(u, ch, hr))
  {
    var (c', hr) := Channels.SubscribeUser(c, ch, id, newSender);
    var u' := LegacyUsers.SubscribeUser(u, ch, hr);
    Channels.SubscribeMembership(c, ch, id, newSender);
    forall ch2, x ensures Channels.IsSubscribed(c', ch2, x) <==> ch2 in LegacyUsers.ChannelsOf(u', x)
    {
      assert Channels.IsSubscribed(c, ch2, x) <==> ch2 in LegacyUsers.ChannelsOf(u, x);
      if x != id {
        assert LegacyUsers.ChannelsOf(u', x) == LegacyUsers.ChannelsOf(u, x);
      }
    }
  }

  /** Unsubscribing the same user from the same channel in both maps keeps them in agreement. */
  lemma UnsubscribeKeepsAgreement(c: Channels.HubChannels, u: LegacyUsers.HubUsers, ch: HubName.HubChannelName,
                                  id: UserId)
    requires MapsAgree(c, u)
    ensures MapsAgree(Channels.UnsubscribeUser(c, ch, id), LegacyUsers.UnsubscribeUser(u, ch, id))
  {
    var c' := Channels.UnsubscribeUser(c, ch, id);
    var u' := LegacyUsers.UnsubscribeUser(u, ch, id);
    Channels.UnsubscribeMembership(c, ch, id);
    forall ch2, x ensures Channels.IsSubscribed(c', ch2, x) <==> ch2 in LegacyUsers.ChannelsOf(u', x)
    {
      assert Channels.IsSubscribed(c, ch2, x) <==> ch2 in LegacyUsers.ChannelsOf(u, x);
      if x != id {
        assert LegacyUsers.ChannelsOf(u', x) == LegacyUsers.ChannelsOf(u, x);
      }
    }
  }

  /** Registering a user with a fresh sender at hand keeps the manager valid. */
  lemma RegisterKeepsValid(m: HubManager, ch: HubName.HubChannelName, id: UserId, newSender: SenderId,
                           replies: seq<Result<(), string>>)
    requires Valid(m) && Channels.FreshSender(m.channels, newSender)
    requires |replies| == |m.nodes|
    ensures Valid(RegisterToChannel(m, ch, id, newSender, replies).0)
  {
    var (channels, receiver) := Channels.SubscribeUser(m.channels, ch, id, newSender);
    Channels.SubscribeValid(m.channels, ch, id, newSender);
    LegacyUsers.OperationsKeepValid(m.subscribers, ch, receiver, id);
    SubscribeKeepsAgreement(m.channels, m.subscribers, ch, id, newSender);
  }

  /** Unregistering keeps the manager valid. */
  lemma UnregisterKeepsValid(m: HubManager, ch: HubName.HubChannelName, id: UserId,
                             replies: seq<Result<(), string>>)
    requires Valid(m) && |replies| == |m.nodes|
    ensures Valid(UnregisterFromChannel(m, ch, id, replies).0)
  {
    Channels.UnsubscribeValid(m.channels, ch, id);
    LegacyUsers.OperationsKeepValid(m.subscribers, ch, HubReceiver(id, Receiver(0)), id);
    UnsubscribeKeepsAgreement(m.channels, m.subscribers, ch, id);
  }

  /** Registering a fresh user and unregistering it again restores both maps. */
  lemma UnregisterUndoesRegister(m: HubManager, ch: HubName.HubChannelName, id: UserId, newSender: SenderId,
                                 replies1: seq<Result<(), string>>, replies2: seq<Result<(), string>>)
    requires Valid(m) && Channels.FreshUser(m.channels, id)
    requires |replies1| == |m.nodes| && |replies2| == |m.nodes|
    ensures var m1 := RegisterToChannel(m, ch, id, newSender, replies1).0;
      var m2 := UnregisterFromChannel(m1, ch, id, replies2).0;
      m2.channels == m.channels && m2.subscribers == m.subscribers
  {
    var (channels, receiver) := Channels.SubscribeUser(m.channels, ch, id, newSender);
    Channels.UnsubscribeUndoesSubscribe(m.channels, ch, id, newSender);
    assert ch !in LegacyUsers.ChannelsOf(m.subscribers, id) by {
      assert !Channels.IsSubscribed(m.channels, ch, id);
    }
    LegacyUsers.UnsubscribeUndoesSubscribe(m.subscribers, ch, receiver);
  }

  /** With distinct senders per channel, a dispatched message reaches only its own
      channel's subscribers. */
  lemma DispatchReachesOnlyOwnChannel(m: HubManager, msg: HubMsg.HubMessage, other: HubName.HubChannelName)
    requires Channels.Valid(m.channels)
    requires other != msg.channel && other in m.channels.entries
    ensures Dispatch(m, msg).Some? ==> Dispatch(m, msg).value != m.channels.entries[other].sender
  {
  }

  /** `send_to_channel` addresses the `idx`-th node added. */
  lemma SendReachesAddedNode(m: HubManager, nodes: seq<NodeId>, msg: HubMsg.HubMessage, idx: nat, reply: Result<(), string>)
    requires m.nodes == [] && idx < |nodes|
    ensures var added := AddAll(m, nodes);
      SendToChannel(added, msg, idx, reply).0.log == m.log + [NodeCall(nodes[idx], Send(msg))]
  {
    AddAllAppends(m, nodes);
  }

  /** Adding several nodes in turn. */
  function AddAll(m: HubManager, nodes: seq<NodeId>): (r: HubManager)
    decreases |nodes|
  {
    if nodes == [] then m else AddAll(Add(m, nodes[0]), nodes[1..])
  }

  lemma {:induction false} AddAllAppends(m: HubManager, nodes: seq<NodeId>)
    ensures AddAll(m, nodes) == m.(nodes := m.nodes + nodes)
    decreases |nodes|
  {
    if nodes != [] {
      AddAllAppends(Add(m, nodes[0]), nodes[1..]);
      assert m.nodes + [nodes[0]] + nodes[1..] == m.nodes + nodes;
    }
  }
}

=== FILE: hub_message.dfy ===
/** `HubMessage`: a payload published on a hub channel. The creation timestamp the
    source stamps on every message is not part of this model. */
module HubMsg {

  import opened Wrappers
  import HubName
  import Payload
  import Text

  datatype HubMessage = HubMessage(channel: HubName.HubChannelName, data: Payload.HubData)

  /** `try_from_str`: validates the channel name and trims the payload; a bad channel
      name is reported with the channel validation's own message. */
  function TryFromStr(channel: string, data: string): (r: Result<HubMessage, string>)
    ensures r.Ok? <==> HubName.TryFrom(channel).Ok?
    ensures r.Ok? ==> r.value.channel == HubName.TryFrom(channel).value
    ensures r.Ok? ==> r.value.data == Payload.FromStr(data)
    ensures r.Err? ==> r.error == HubName.TryFrom(channel).error
  {
    match HubName.TryFrom(channel)
    case Err(e) => Err(e)
    case Ok(name) => Ok(HubMessage(name, Payload.FromStr(data)))
  }

  /** `new`: a message from an already validated channel and payload. */
  function New(channel: HubName.HubChannelName, data: Payload.HubData): (m: HubMessage)
    ensures m.channel == channel && m.data == data
  {
    HubMessage(channel, data)
  }

  /** Rebuilding a message from the text of its own channel and payload gives it back. */
  lemma TryFromStrRoundTrip(channel: string, data: string)
    requires TryFromStr(channel, data).Ok?
    ensures var m := TryFromStr(channel, data).value;
      TryFromStr(HubName.AsStr(m.channel), Payload.AsStr(m.data)) == Ok(m)
  {
    HubName.Idempotent(channel);
    Payload.FromStrIdempotent(data);
  }

  /** `try_from_str` and `new` agree: parsing text is validating each part and then
      building the message from the parts. */
  lemma TryFromStrIsNew(channel: string, data: string)
    requires HubName.TryFrom(channel).Ok?
    ensures TryFromStr(channel, data) == Ok(New(HubName.TryFrom(channel).value, Payload.FromStr(data)))
  {
  }

  /** The byte round trip `to_bytes` / `TryFrom<Vec<u8>>` (and likewise the JSON text
      one), stated over any encoder whose decoder inverts it: a parsed message comes
      back with the same channel and payload. The codec is abstract, so this lemma only
      fixes what its round-trip contract means for a parsed message. */
  lemma EncodingKeepsChannelAndData(encode: HubMessage -> seq<bv8>, decode: seq<bv8> -> Result<HubMessage, string>,
                                    channel: string, data: string)
    requires forall m :: decode(encode(m)) == Ok(m)
    requires TryFromStr(channel, data).Ok?
    ensures var m := TryFromStr(channel, data).value;
      && decode(encode(m)).Ok?
      && decode(encode(m)).value.channel == HubName.TryFrom(channel).value
      && decode(encode(m)).value.data == Payload.FromStr(data)
  {
  }

  /** The source's unit tests: a valid lower-case channel is kept as written ... */
  lemma ExampleValid()
    ensures TryFromStr("valid_channel", "some data")
      == Ok(HubMessage(HubName.HubChannelName("valid_channel"), Payload.HubData("some data")))
  {
    var c: string := "valid_channel";
    var d: string := "some data";
    assert forall k :: 0 <= k < |c| ==> HubName.IsLowerNameChar(c[k]);
    HubName.LowerNameUnchanged(c);
    assert !Payload.IsDataTrim(d[0]) && !Payload.IsDataTrim(d[|d| - 1]);
    Payload.FromStrKeeps(d);
  }

  /** ... and a channel with a space and a `!` is refused. */
  lemma ExampleInvalidChannel()
    ensures TryFromStr("invalid channel!", "some data").Err?
  {
    var c: string := "invalid channel!";
    assert !Text.IsNameChar(c[15]) && !Text.IsWhitespace(c[15]);
    HubName.ForeignCharRejected(c, 15);
  }
}

=== FILE: hub_receiver.dfy ===
/** Handles shared by the hub's bookkeeping. A broadcast channel is identified by its
    sender; a receiver is a subscription to one sender; a `HubReceiver` pairs a
    receiver with the id of the user it was issued to. */
module Receivers {

  /** `Uuid` of a subscribed user. Ids come from a fresh-id oracle (`Uuid::new_v4`). */
  type UserId = nat

  /** Identity of a `broadcast::Sender`: each `broadcast::channel` call makes a new one. */
  type SenderId = nat

  /** A `broadcast::Receiver`, known by the sender it listens to. */
  datatype Receiver = Receiver(sender: SenderId)

  /** `HubReceiver(user id, receiver)`. */
  datatype HubReceiver = HubReceiver(userId: UserId, receiver: Receiver)

  /** `resubscribe`: a new receiver on the same sender, for the same user. */
  function Resubscribe(r: HubReceiver): (s: HubReceiver)
    ensures s.userId == r.userId && s.receiver.sender == r.receiver.sender
  {
    HubReceiver(r.userId, Receiver(r.receiver.sender))
  }
}

=== FILE: hub_users.dfy ===
/** `HubUsers`: for every subscribed user id, the channels it listens to and the
    receiver held for each. A user exists only while it has a subscription. */
module Users {

  import opened Receivers
  import HubName

  /** `HubSubscriptionInfo`: channel → receiver. */
  type SubscriptionInfo = map<HubName.HubChannelName, Receiver>

  datatype HubUsers = HubUsers(entries: map<UserId, SubscriptionInfo>)

  /** No stored user has an empty subscription map. */
  ghost predicate Valid(u: HubUsers)
  {
    forall id :: id in u.entries ==> u.entries[id] != map[]
  }

  /** The subscriptions of `id`, empty for an unknown user. */
  function SubscriptionsOf(u: HubUsers, id: UserId): SubscriptionInfo
  {
    if id in u.entries then u.entries[id] else map[]
  }

  /** `new`. */
  function New(): (u: HubUsers)
    ensures Valid(u)
    ensures forall id :: SubscriptionsOf(u, id) == map[]
  {
    HubUsers(map[])
  }

  /** `subscribe_user`: the user (created if absent) maps the channel to a resubscribed
      receiver on the same sender, replacing an earlier entry for that channel. */
  function SubscribeUser(u: HubUsers, ch: HubName.HubChannelName, hr: HubReceiver): (r: HubUsers)
    ensures hr.userId in r.entries
    ensures ch in r.entries[hr.userId] && r.entries[hr.userId][ch].sender == hr.receiver.sender
    ensures forall other :: other != ch ==>
      (other in r.entries[hr.userId] <==> other in SubscriptionsOf(u, hr.userId))
    ensures forall other :: other != ch && other in r.entries[hr.userId] ==>
      r.entries[hr.userId][other] == SubscriptionsOf(u, hr.userId)[other]
    ensures forall id :: id != hr.userId ==> SubscriptionsOf(r, id) == SubscriptionsOf(u, id)
  {
    var HubReceiver(id, receiver) := Resubscribe(hr);
    var info := SubscriptionsOf(u, id);
    HubUsers(u.entries[id := info[ch := receiver]])
  }

  /** `unsubscribe_user`: the channel leaves the user's map, and the user is dropped
      once no channel is left; an unknown user is left alone. */
  function UnsubscribeUser(u: HubUsers, ch: HubName.HubChannelName, id: UserId): (r: HubUsers)
    ensures id !in u.entries ==> r == u
    ensures ch !in SubscriptionsOf(r, id)
    ensures id in u.entries ==> (id in r.entries <==> u.entries[id].Keys - {ch} != {})
    ensures forall other :: other != ch ==>
      (other in SubscriptionsOf(r, id) <==> other in SubscriptionsOf(u, id))
    ensures forall other :: other != ch && other in SubscriptionsOf(r, id) ==>
      SubscriptionsOf(r, id)[other] == SubscriptionsOf(u, id)[other]
    ensures forall other :: other != id ==> SubscriptionsOf(r, other) == SubscriptionsOf(u, other)
  {
    if id in u.entries then
      var info := u.entries[id] - {ch};
      if info == map[] then
        HubUsers(u.entries - {id})
      else
        assert info.Keys == u.entries[id].Keys - {ch};
        HubUsers(u.entries[id := info])
    else
      u
  }

  /** Both operations keep every stored user subscribed to something. */
  lemma OperationsKeepValid(u: HubUsers, ch: HubName.HubChannelName, hr: HubReceiver, id: UserId)
    requires Valid(u)
    ensures Valid(SubscribeUser(u, ch, hr))
    ensures Valid(UnsubscribeUser(u, ch, id))
  {
    var s := SubscribeUser(u, ch, hr);
    forall x | x in s.entries ensures s.entries[x] != map[]
    {
      if x != hr.userId {
        assert SubscriptionsOf(s, x) == SubscriptionsOf(u, x);
      }
    }
    var r := UnsubscribeUser(u, ch, id);
    forall x | x in r.entries ensures r.entries[x] != map[]
    {
      if x != id {
        assert SubscriptionsOf(r, x) == SubscriptionsOf(u, x);
      }
    }
  }

  /** Subscribing the same user to the same channel twice leaves one entry: the second
      call overwrites the first. */
  lemma SubscribeOverwrites(u: HubUsers, ch: HubName.HubChannelName, hr1: HubReceiver, hr2: HubReceiver)
    requires hr1.userId == hr2.userId
    ensures SubscribeUser(SubscribeUser(u, ch, hr1), ch, hr2) == SubscribeUser(u, ch, hr2)
  {
    var id := hr1.userId;
    var once := SubscriptionsOf(u, id)[ch := Receiver(hr2.receiver.sender)];
    var twice := SubscriptionsOf(u, id)[ch := Receiver(hr1.receiver.sender)][ch := Receiver(hr2.receiver.sender)];
    assert once == twice;
  }

  /** Subscribing a user to a channel it did not have, then unsubscribing it, restores
      the previous state. */
  lemma UnsubscribeUndoesSubscribe(u: HubUsers, ch: HubName.HubChannelName, hr: HubReceiver)
    requires Valid(u) && ch !in SubscriptionsOf(u, hr.userId)
    ensures UnsubscribeUser(SubscribeUser(u, ch, hr), ch, hr.userId) == u
  {
    var id := hr.userId;
    var s := SubscribeUser(u, ch, hr);
    var r := UnsubscribeUser(s, ch, id);
    assert SubscriptionsOf(r, id) == SubscriptionsOf(u, id);
    forall x ensures SubscriptionsOf(r, x) == SubscriptionsOf(u, x)
    {
      if x != id {
        assert SubscriptionsOf(r, x) == SubscriptionsOf(s, x);
      }
    }
    assert r.entries.Keys == u.entries.Keys by {
      forall x ensures x in r.entries <==> x in u.entries
      {
        assert SubscriptionsOf(r, x) == SubscriptionsOf(u, x);
      }
    }
    forall x | x in r.entries ensures r.entries[x] == u.entries[x]
    {
      assert SubscriptionsOf(r, x) == SubscriptionsOf(u, x);
    }
    assert r.entries == u.entries;
  }

  /** The source's unit tests: subscribe then unsubscribe removes the user; leaving one
      of two channels keeps the user with the other. */
  lemma ExampleSubscribeUnsubscribe(ch: HubName.HubChannelName, hr: HubReceiver)
    ensures var u := SubscribeUser(New(), ch, hr);
      && hr.userId in u.entries && ch in u.entries[hr.userId]
      && hr.userId !in UnsubscribeUser(u, ch, hr.userId).entries
  {
    var u := SubscribeUser(New(), ch, hr);
    assert u.entries[hr.userId].Keys == {ch};
  }

  lemma ExampleTwoChannels(ch1: HubName.HubChannelName, ch2: HubName.HubChannelName, hr1: HubReceiver, hr2: HubReceiver)
    requires ch1 != ch2 && hr1.userId == hr2.userId
    ensures var u := UnsubscribeUser(SubscribeUser(SubscribeUser(New(), ch1, hr1), ch2, hr2), ch1, hr1.userId);
      && hr1.userId in u.entries
      && ch1 !in u.entries[hr1.userId]
      && ch2 in u.entries[hr1.userId]
  {
    var u2 := SubscribeUser(SubscribeUser(New(), ch1, hr1), ch2, hr2);
    assert ch2 in u2.entries[hr1.userId].Keys - {ch1};
  }
}

=== FILE: legacy_hub_channel.dfy ===
/** The older crate's `HubChannel`: the same channel→subscribers map as `HubChannels`
    (and the same state type), with the emptiness test done on the subscriber set
    directly and no `is_empty` query. Each operation is proved to agree with its
    counterpart in `Channels`, so the invariants proved there carry over. */
module LegacyChannels {

  import opened Wrappers
  import opened Receivers
  import HubName
  import Channels

  /** `subscribe_user`. */
  function SubscribeUser(c: Channels.HubChannels, ch: HubName.HubChannelName, id: UserId, newSender: SenderId)
    : (r: (Channels.HubChannels, HubReceiver))
    ensures r == Channels.SubscribeUser(c, ch, id, newSender)
    ensures id in r.0.entries[ch].subscribers
    ensures r.1.receiver.sender == r.0.entries[ch].sender
  {
    match Channels.Get(c, ch)
    case Some(info) =>
      (Channels.HubChannels(c.entries[ch := Channels.ChannelInfo(info.sender, info.subscribers + {id})]),
       HubReceiver(id, Receiver(info.sender)))
    case None =>
      assert {} + {id} == {id};
      (Channels.HubChannels(c.entries[ch := Channels.ChannelInfo(newSender, {id})]),
       HubReceiver(id, Receiver(newSender)))
  }

  /** `unsubscribe_user`. */
  function UnsubscribeUser(c: Channels.HubChannels, ch: HubName.HubChannelName, id: UserId)
    : (r: Channels.HubChannels)
    ensures r == Channels.UnsubscribeUser(c, ch, id)
    ensures ch !in c.entries ==> r == c
    ensures ch in r.entries ==> id !in r.entries[ch].subscribers
  {
    match Channels.Get(c, ch)
    case None => c
    case Some(info) =>
      var rest := info.subscribers - {id};
      if rest == {} then Channels.HubChannels(c.entries - {ch})
      else Channels.HubChannels(c.entries[ch := Channels.ChannelInfo(info.sender, rest)])
  }

  /** `get_number_subscribers`. */
  function GetNumberSubscribers(c: Channels.HubChannels, ch: HubName.HubChannelName): (n: nat)
    ensures n == Channels.GetNumberSubscribers(c, ch)
    ensures ch !in c.entries ==> n == 0
  {
    match Channels.Get(c, ch)
    case None => 0
    case Some(info) => |info.subscribers|
  }

  /** `get_sender`. */
  function GetSender(c: Channels.HubChannels, ch: HubName.HubChannelName): (r: Option<SenderId>)
    ensures r == Channels.GetSender(c, ch)
    ensures r.Some? <==> ch in c.entries
  {
    match Channels.Get(c, ch)
    case None => None
    case Some(info) => Some(info.sender)
  }

  /** No stored channel is ever left without subscribers, and senders stay distinct. */
  lemma OperationsKeepValid(c: Channels.HubChannels, ch: HubName.HubChannelName, id: UserId, newSender: SenderId)
    requires Channels.Valid(c)
    ensures Channels.FreshSender(c, newSender) ==> Channels.Valid(SubscribeUser(c, ch, id, newSender).0)
    ensures Channels.Valid(UnsubscribeUser(c, ch, id))
  {
    if Channels.FreshSender(c, newSender) {
      Channels.SubscribeValid(c, ch, id, newSender);
    }
    Channels.UnsubscribeValid(c, ch, id);
  }

  /** A fresh subscriber raises the count by one; unsubscribing it again restores the map. */
  lemma SubscribeThenUnsubscribe(c: Channels.HubChannels, ch: HubName.HubChannelName, id: UserId, newSender: SenderId)
    requires Channels.Valid(c) && Channels.FreshUser(c, id)
    ensures GetNumberSubscribers(SubscribeUser(c, ch, id, newSender).0, ch) == GetNumberSubscribers(c, ch) + 1
    ensures UnsubscribeUser(SubscribeUser(c, ch, id, newSender).0, ch, id) == c
  {
    Channels.SubscribeCounts(c, ch, id, newSender);
    Channels.UnsubscribeUndoesSubscribe(c, ch, id, newSender);
  }
}

=== FILE: legacy_hub_users.dfy ===
/** The older crate's `HubUsers`: for every user id, one receiver (the one it first
    subscribed with) and the set of channels it is subscribed to. */
module LegacyUsers {

  import opened Receivers
  import HubName

  datatype UserInfo = UserInfo(receiver: Receiver, channels: set<HubName.HubChannelName>)

  datatype HubUsers = HubUsers(entries: map<UserId, UserInfo>)

  /** No stored user has an empty channel set. */
  ghost predicate Valid(u: HubUsers)
  {
    forall id :: id in u.entries ==> u.entries[id].channels != {}
  }

  /** The channels of `id`, empty for an unknown user. */
  function ChannelsOf(u: HubUsers, id: UserId): set<HubName.HubChannelName>
  {
    if id in u.entries then u.entries[id].channels else {}
  }

  /** `new`. */
  function New(): (u: HubUsers)
    ensures Valid(u)
    ensures forall id :: ChannelsOf(u, id) == {}
  {
    HubUsers(map[])
  }

  /** `subscribe_user`: the channel joins the user's set; a new user keeps the
      resubscribed receiver, an existing one keeps the receiver it already had. */
  function SubscribeUser(u: HubUsers, ch: HubName.HubChannelName, hr: HubReceiver): (r: HubUsers)
    ensures hr.userId in r.entries
    ensures ChannelsOf(r, hr.userId) == ChannelsOf(u, hr.userId) + {ch}
    ensures hr.userId in u.entries ==> r.entries[hr.userId].receiver == u.entries[hr.userId].receiver
    ensures hr.userId !in u.entries ==> r.entries[hr.userId].receiver.sender == hr.receiver.sender
    ensures forall id :: id != hr.userId ==> (id in r.entries <==> id in u.entries)
    ensures forall id :: id != hr.userId && id in u.entries ==> r.entries[id] == u.entries[id]
  {
    var HubReceiver(id, receiver) := Resubscribe(hr);
    var info := if id in u.entries then u.entries[id] else UserInfo(receiver, {});
    HubUsers(u.entries[id := UserInfo(info.receiver, info.channels + {ch})])
  }

  /** `unsubscribe_user`: the channel leaves the user's set, and the user is dropped
      once the set is empty; an unknown user is left alone. */
  function UnsubscribeUser(u: HubUsers, ch: HubName.HubChannelName, id: UserId): (r: HubUsers)
    ensures id !in u.entries ==> r == u
    ensures ChannelsOf(r, id) == ChannelsOf(u, id) - {ch}
    ensures id in u.entries ==> (id in r.entries <==> u.entries[id].channels - {ch} != {})
    ensures id in r.entries ==> r.entries[id].receiver == u.entries[id].receiver
    ensures forall other :: other != id ==> (other in r.entries <==> other in u.entries)
    ensures forall other :: other != id && other in u.entries ==> r.entries[other] == u.entries[other]
  {
    if id in u.entries then
      var info := u.entries[id];
      var rest := info.channels - {ch};
      if rest == {} then HubUsers(u.entries - {id})
      else HubUsers(u.entries[id := UserInfo(info.receiver, rest)])
    else
      u
  }

  /** Both operations keep every stored user subscribed to something. */
  lemma OperationsKeepValid(u: HubUsers, ch: HubName.HubChannelName, hr: HubReceiver, id: UserId)
    requires Valid(u)
    ensures Valid(SubscribeUser(u, ch, hr))
    ensures Valid(UnsubscribeUser(u, ch, id))
  {
  }

  /** Subscribing again keeps the first receiver: later receivers are not stored. */
  lemma ReceiverKept(u: HubUsers, ch1: HubName.HubChannelName, ch2: HubName.HubChannelName, hr1: HubReceiver, hr2: HubReceiver)
    requires hr1.userId == hr2.userId && hr1.userId !in u.entries
    ensures var r := SubscribeUser(SubscribeUser(u, ch1, hr1), ch2, hr2);
      r.entries[hr1.userId] == UserInfo(Receiver(hr1.receiver.sender), {ch1, ch2})
  {
  }

  /** Subscribing twice to the same channel changes nothing the second time. */
  lemma SubscribeIdempotent(u: HubUsers, ch: HubName.HubChannelName, hr: HubReceiver)
    ensures SubscribeUser(SubscribeUser(u, ch, hr), ch, hr) == SubscribeUser(u, ch, hr)
  {
    var s := SubscribeUser(u, ch, hr);
    assert s.entries[hr.userId].channels + {ch} == s.entries[hr.userId].channels;
    assert s.entries[hr.userId := s.entries[hr.userId]] == s.entries;
  }

  /** Subscribing a user to a channel it did not have, then unsubscribing it, restores
      the previous state. */
  lemma UnsubscribeUndoesSubscribe(u: HubUsers, ch: HubName.HubChannelName, hr: HubReceiver)
    requires Valid(u) && ch !in ChannelsOf(u, hr.userId)
    ensures UnsubscribeUser(SubscribeUser(u, ch, hr), ch, hr.userId) == u
  {
    var id := hr.userId;
    var s := SubscribeUser(u, ch, hr);
    var r := UnsubscribeUser(s, ch, id);
    if id in u.entries {
      assert s.entries[id].channels - {ch} == u.entries[id].channels;
      assert r.entries[id] == u.entries[id];
    } else {
      assert s.entries[id].channels - {ch} == {};
    }
    assert r.entries.Keys == u.entries.Keys;
    assert r.entries == u.entries;
  }
}

=== FILE: pipe_client.dfy ===
/** The test `PipeClient`: a hub node that mimics a serial port with files. Lines read
    from its read pipes are unquoted, then handled like serial lines (the `##` gate,
    parsing, channel learning, forwarding); messages sent to it go to its write pipe.
    File contents and the byte encoding of written messages are not modelled. */
module PipeClient {

  import opened Wrappers
  import opened Text
  import opened Receivers
  import HubName
  import HubMsg
  import Payload
  import SerialName
  import SerialMsg
  import SerialClient

  /** An open read pipe (`Arc<Mutex<File>>`). */
  type PipeId = nat

  const WritePipeMissing := "Write pipe is not available"
  const ReadPipeMissing := "Read pipe is not available"

  /** `write_pipe` is the messages written so far, if a write pipe is open. */
  datatype PipeClient = PipeClient(
    writePipe: Option<seq<HubMsg.HubMessage>>,
    readPipes: Option<seq<PipeId>>,
    channels: SerialName.SerialPubChannels)

  /** `new`, once the files named by its arguments are open. */
  function New(writeOpen: bool, readPipes: Option<seq<PipeId>>): (c: PipeClient)
    ensures c.writePipe.Some? <==> writeOpen
    ensures writeOpen ==> c.writePipe.value == []
    ensures c.readPipes == readPipes && c.channels.channels == {}
  {
    PipeClient(if writeOpen then Some([]) else None, readPipes, SerialName.NewChannels())
  }

  // ---------------------------------------------------------------------------
  // Reading
  // ---------------------------------------------------------------------------

  /** `str::strip_prefix(c)`. */
  function StripPrefix(s: string, c: char): (r: Option<string>)
    ensures r.Some? <==> |s| > 0 && s[0] == c
    ensures r.Some? ==> [c] + r.value == s
  {
    if |s| > 0 && s[0] == c then Some(s[1..]) else None
  }

  /** `str::strip_suffix(c)`. */
  function StripSuffix(s: string, c: char): (r: Option<string>)
    ensures r.Some? <==> |s| > 0 && s[|s| - 1] == c
    ensures r.Some? ==> r.value + [c] == s
  {
    if |s| > 0 && s[|s| - 1] == c then Some(s[..|s| - 1]) else None
  }

  /** The unquoting of a read line: a `"` at both ends is removed, and only when both
      are there. */
  function StripQuotes(line: string): (r: string)
    ensures (|line| >= 2 && line[0] == '"' && line[|line| - 1] == '"') ==> r == line[1..|line| - 1]
    ensures !(|line| >= 2 && line[0] == '"' && line[|line| - 1] == '"') ==> r == line
  {
    match StripPrefix(line, '"')
    case None => line
    case Some(s) =>
      match StripSuffix(s, '"')
      case None => line
      case Some(t) => t
  }

  /** One line from `next_line` (its line break already removed). */
  function ReadLine(c: PipeClient, line: string): (r: (PipeClient, Option<HubMsg.HubMessage>))
    ensures r.1.Some? <==> var s := StripQuotes(line);
      StartsWith(s, SerialClient.Prefix) && SerialMsg.ToHubMessage(SerialMsg.RawFromStr(s)).Ok?
    ensures r.1.Some? ==> r.0 == c.(channels := SerialName.Add(c.channels, SerialClient.Learned(r.1.value)))
    ensures r.1.None? ==> r.0 == c
  {
    var (channels, out) := SerialClient.ProcessLine(c.channels, StripQuotes(line));
    (c.(channels := channels), out)
  }

  /** What `next_line` gives. */
  datatype LineOutcome = Line(text: string) | EndOfFile | PipeError(error: string)

  /** One turn of a reader task; the flag says whether the task goes on. */
  function ReadStep(c: PipeClient, read: LineOutcome): (r: (PipeClient, Option<HubMsg.HubMessage>, bool))
    ensures read.Line? ==> (r.0, r.1) == ReadLine(c, read.text) && r.2
    ensures read.EndOfFile? ==> r == (c, None, true)
    ensures read.PipeError? ==> r == (c, None, false)
  {
    match read
    case Line(text) => var (c', out) := ReadLine(c, text); (c', out, true)
    case EndOfFile => (c, None, true)
    case PipeError(_) => (c, None, false)
  }

  /** A reader task spawned on a pipe, forwarding to a sender. */
  datatype ReaderTask = ReaderTask(pipe: PipeId, sender: SenderId)

  /** `start_read_pipe`: a reader is spawned only when there is a sender; it always
      succeeds. */
  function StartReadPipe(sender: Option<SenderId>, pipe: PipeId): (r: (Option<ReaderTask>, Result<(), string>))
    ensures r.1 == Ok(())
    ensures r.0.Some? <==> sender.Some?
    ensures r.0.Some? ==> r.0.value == ReaderTask(pipe, sender.value)
  {
    match sender
    case None => (None, Ok(()))
    case Some(s) => (Some(ReaderTask(pipe, s)), Ok(()))
  }

  /** `start`: without read pipes it fails; otherwise each pipe gets a reader when there
      is a sender. The readers spawned are returned next to the result. */
  function Start(c: PipeClient, sender: Option<SenderId>): (r: (Result<(), string>, seq<ReaderTask>))
    ensures c.readPipes.None? ==> r == (Err(ReadPipeMissing), [])
    ensures c.readPipes.Some? ==> r.0 == Ok(())
    ensures c.readPipes.Some? && sender.None? ==> r.1 == []
    ensures c.readPipes.Some? && sender.Some? ==> (|r.1| == |c.readPipes.value|
      && forall k :: 0 <= k < |r.1| ==> r.1[k] == ReaderTask(c.readPipes.value[k], sender.value))
  {
    match c.readPipes
    case None => (Err(ReadPipeMissing), [])
    case Some(pipes) => (Ok(()), StartAll(sender, pipes))
  }

  /** The `for` loop of `start` over the pipes. */
  function StartAll(sender: Option<SenderId>, pipes: seq<PipeId>): (tasks: seq<ReaderTask>)
    ensures sender.None? ==> tasks == []
    ensures sender.Some? ==> (|tasks| == |pipes|
      && forall k :: 0 <= k < |tasks| ==> tasks[k] == ReaderTask(pipes[k], sender.value))
  {
    if pipes == [] then []
    else
      var (first, _) := StartReadPipe(sender, pipes[0]);
      var rest := StartAll(sender, pipes[1..]);
      var tasks := SerialClient.OptionToSeq(first) + rest;
      assert sender.Some? ==> forall k :: 1 <= k < |tasks| ==> tasks[k] == rest[k - 1];
      tasks
  }

  // ---------------------------------------------------------------------------
  // Writing and listing
  // ---------------------------------------------------------------------------

  /** `send`: without a write pipe it fails; otherwise the message is written. */
  function Send(c: PipeClient, m: HubMsg.HubMessage): (r: (PipeClient, Result<(), string>))
    ensures c.writePipe.None? ==> r == (c, Err(WritePipeMissing))
    ensures c.writePipe.Some? ==> r.1 == Ok(()) && r.0.writePipe == Some(c.writePipe.value + [m])
    ensures r.0.readPipes == c.readPipes && r.0.channels == c.channels
  {
    match c.writePipe
    case None => (c, Err(WritePipeMissing))
    case Some(written) => (c.(writePipe := Some(written + [m])), Ok(()))
  }

  /** `list_channels`. */
  method ListChannels(c: PipeClient) returns (names: seq<HubName.HubChannelName>)
    requires SerialClient.AllNormal(c.channels)
    ensures forall h :: h in names <==> SerialName.SerialChannelName(h.name) in c.channels.channels
  {
    names := SerialClient.ListChannels(c.channels);
  }

  // ---------------------------------------------------------------------------
  // Properties
  // ---------------------------------------------------------------------------

  /** Unquoting a quoted text gives the text back. */
  lemma StripQuotesOfQuoted(s: string)
    ensures StripQuotes("\"" + s + "\"") == s
  {
    var q := "\"" + s + "\"";
    assert q[1..|q| - 1] == s;
  }

  /** A lone `"` is not a quoted empty line: it stays as it is. */
  lemma ExampleLoneQuote()
    ensures StripQuotes("\"") == "\""
  {
  }

  /** A quoted framed line on a normalised channel is forwarded with its payload, and
      the channel is learned. */
  lemma QuotedFrameForwarded(c: PipeClient, n: SerialName.SerialChannelName, d: string)
    requires SerialName.IsNormal(n.name)
    requires d == [] || (!Payload.IsDataTrim(d[0]) && !Payload.IsDataTrim(d[|d| - 1]))
    ensures var r := ReadLine(c, "\"" + SerialName.Tag(n) + d + "\"");
      && r.1 == Some(HubMsg.HubMessage(HubName.HubChannelName(n.name), Payload.HubData(d)))
      && n in r.0.channels.channels
  {
    var line := SerialName.Tag(n) + d;
    assert "\"" + SerialName.Tag(n) + d + "\"" == "\"" + line + "\"";
    StripQuotesOfQuoted(line);
    assert line[..2] == SerialClient.Prefix by {
      assert line == SerialClient.Prefix + (n.name + SerialClient.Prefix + d);
    }
    SerialMsg.ExtractTaggedTrimmed(n, d);
    SerialClient.ExtractedLineForwarded(c.channels, line, n, d);
  }

  /** A line that does not start with `##` once unquoted changes nothing. */
  lemma UngatedLineIgnored(c: PipeClient, line: string)
    requires !StartsWith(StripQuotes(line), SerialClient.Prefix)
    ensures ReadLine(c, line) == (c, None)
  {
  }

  /** A client opened without read pipes cannot be started, whether or not a sender is
      given. */
  lemma StartWithoutReadPipes(writeOpen: bool, sender: Option<SenderId>)
    ensures Start(New(writeOpen, None), sender).0 == Err(ReadPipeMissing)
  {
  }

  /** A client opened without a write pipe cannot send. */
  lemma SendWithoutWritePipe(readPipes: Option<seq<PipeId>>, m: HubMsg.HubMessage)
    ensures Send(New(false, readPipes), m).1 == Err(WritePipeMissing)
  {
  }

  /** A fresh client lists no channel. */
  method ExampleFreshClientListsNone(writeOpen: bool, readPipes: Option<seq<PipeId>>)
    returns (names: seq<HubName.HubChannelName>)
    ensures forall h :: h !in names
  {
    names := ListChannels(New(writeOpen, readPipes));
  }
}

=== FILE: pipe_options.dfy ===
/** `ClientPipeOptions` and its builder: the settings of the test pipe client (the
    paths of its write and read pipes, the hub channel it publishes on, the number of
    data dimensions, and the delay and period of its cycle in milliseconds). The
    builder is persistent: each setter returns a copy with one field set. */
module PipeOptions {

  import opened Wrappers
  import HubName

  /** Rust's `u64` and `usize` (a 64-bit target). */
  type U64 = x: int | 0 <= x < 0x1_0000_0000_0000_0000
  type USize = x: int | 0 <= x < 0x1_0000_0000_0000_0000

  const DefaultDelayMillis: U64 := 100
  const DefaultPeriodMillis: U64 := 1000
  const DefaultNDims: USize := 3

  /** The message `ClientPipeOptionsBuilder::channel` reports for a rejected name. */
  const InvalidChannelError := "Invalid channel name"
  /** The message `build` reports when no channel was set (spelled as in the source). */
  const MissingChannelError := "Invaluid channel name"

  /** The getters of the source are this datatype's fields. */
  datatype ClientPipeOptions = ClientPipeOptions(
    writePath: Option<string>,
    readPath: Option<string>,
    channel: HubName.HubChannelName,
    nDims: USize,
    delayMillis: U64,
    periodMillis: U64)

  /** `ClientPipeOptions::new`: validates the channel name and keeps every other argument. */
  function New(writePath: Option<string>, readPath: Option<string>, channel: string,
               nDims: USize, delayMillis: U64, periodMillis: U64): (r: Result<ClientPipeOptions, string>)
    ensures r.Ok? <==> HubName.TryFrom(channel).Ok?
    ensures r.Err? ==> r.error == HubName.TryFrom(channel).error
    ensures r.Ok? ==> (
      && r.value.channel == HubName.TryFrom(channel).value
      && r.value.writePath == writePath && r.value.readPath == readPath
      && r.value.nDims == nDims && r.value.delayMillis == delayMillis
      && r.value.periodMillis == periodMillis)
  {
    match HubName.TryFrom(channel)
    case Err(e) => Err(e)
    case Ok(name) => Ok(ClientPipeOptions(writePath, readPath, name, nDims, delayMillis, periodMillis))
  }

  datatype Builder = Builder(
    writePath: Option<string>,
    readPath: Option<string>,
    channel: Option<HubName.HubChannelName>,
    nDims: Option<USize>,
    delayMillis: Option<U64>,
    periodMillis: Option<U64>)

  /** `ClientPipeOptionsBuilder::new`: nothing set. */
  function NewBuilder(): (b: Builder)
    ensures b.writePath.None? && b.readPath.None? && b.channel.None?
    ensures b.nDims.None? && b.delayMillis.None? && b.periodMillis.None?
  {
    Builder(None, None, None, None, None, None)
  }

  /** Every field but the channel is the same in both builders. */
  predicate SameExceptChannel(a: Builder, b: Builder)
  {
    a.writePath == b.writePath && a.readPath == b.readPath && a.nDims == b.nDims
    && a.delayMillis == b.delayMillis && a.periodMillis == b.periodMillis
  }

  function WithWritePath(b: Builder, path: string): (r: Builder)
    ensures r.writePath == Some(path)
    ensures r.readPath == b.readPath && r.channel == b.channel && r.nDims == b.nDims
    ensures r.delayMillis == b.delayMillis && r.periodMillis == b.periodMillis
  {
    b.(writePath := Some(path))
  }

  function WithReadPath(b: Builder, path: string): (r: Builder)
    ensures r.readPath == Some(path)
    ensures r.writePath == b.writePath && r.channel == b.channel && r.nDims == b.nDims
    ensures r.delayMillis == b.delayMillis && r.periodMillis == b.periodMillis
  {
    b.(readPath := Some(path))
  }

  function WithDelay(b: Builder, delay: U64): (r: Builder)
    ensures r.delayMillis == Some(delay)
    ensures r.writePath == b.writePath && r.readPath == b.readPath && r.channel == b.channel
    ensures r.nDims == b.nDims && r.periodMillis == b.periodMillis
  {
    b.(delayMillis := Some(delay))
  }

  function WithPeriod(b: Builder, period: U64): (r: Builder)
    ensures r.periodMillis == Some(period)
    ensures r.writePath == b.writePath && r.readPath == b.readPath && r.channel == b.channel
    ensures r.nDims == b.nDims && r.delayMillis == b.delayMillis
  {
    b.(periodMillis := Some(period))
  }

  function WithNDims(b: Builder, nDims: USize): (r: Builder)
    ensures r.nDims == Some(nDims)
    ensures r.writePath == b.writePath && r.readPath == b.readPath && r.channel == b.channel
    ensures r.delayMillis == b.delayMillis && r.periodMillis == b.periodMillis
  {
    b.(nDims := Some(nDims))
  }

  /** `ClientPipeOptionsBuilder::channel`: a rejected name fails with a fixed message,
      not the validator's own one. */
  function WithChannel(b: Builder, channel: string): (r: Result<Builder, string>)
    ensures r.Ok? <==> HubName.TryFrom(channel).Ok?
    ensures r.Err? ==> r.error == InvalidChannelError
    ensures r.Ok? ==> r.value.channel == Some(HubName.TryFrom(channel).value) && SameExceptChannel(r.value, b)
  {
    match HubName.TryFrom(channel)
    case Err(_) => Err(InvalidChannelError)
    case Ok(name) => Ok(b.(channel := Some(name)))
  }

  function UnwrapOr<T>(o: Option<T>, default: T): (r: T)
    ensures o.Some? ==> r == o.value
    ensures o.None? ==> r == default
  {
    match o
    case Some(v) => v
    case None => default
  }

  /** `ClientPipeOptionsBuilder::build`: the channel is mandatory; the paths are passed
      on as they are, and an unset number takes its default. */
  function Build(b: Builder): (r: Result<ClientPipeOptions, string>)
    ensures r.Err? <==> b.channel.None?
    ensures r.Err? ==> r.error == MissingChannelError
    ensures r.Ok? ==> (
      && r.value.channel == b.channel.value
      && r.value.writePath == b.writePath && r.value.readPath == b.readPath
      && r.value.nDims == UnwrapOr(b.nDims, DefaultNDims)
      && r.value.delayMillis == UnwrapOr(b.delayMillis, DefaultDelayMillis)
      && r.value.periodMillis == UnwrapOr(b.periodMillis, DefaultPeriodMillis))
  {
    if b.channel.None? then
      Err(MissingChannelError)
    else
      Ok(ClientPipeOptions(
        b.writePath, b.readPath, b.channel.value,
        UnwrapOr(b.nDims, DefaultNDims),
        UnwrapOr(b.delayMillis, DefaultDelayMillis),
        UnwrapOr(b.periodMillis, DefaultPeriodMillis)))
  }

  // ---------------------------------------------------------------------------
  // Properties
  // ---------------------------------------------------------------------------

  /** A builder with no channel set cannot be built, whatever else was set. */
  lemma BuildNeedsChannel(b: Builder, path: string, n: USize, d: U64, p: U64)
    requires b.channel.None?
    ensures Build(NewBuilder()) == Err(MissingChannelError)
    ensures Build(WithNDims(WithPeriod(WithDelay(WithReadPath(WithWritePath(b, path), path), d), p), n))
      == Err(MissingChannelError)
  {
  }

  /** Only the channel set: no pipe paths, and the three default numbers. */
  lemma DefaultsApplied(channel: string)
    requires HubName.TryFrom(channel).Ok?
    ensures WithChannel(NewBuilder(), channel).Ok?
    ensures var o := Build(WithChannel(NewBuilder(), channel).value);
      && o.Ok?
      && o.value.channel == HubName.TryFrom(channel).value
      && o.value.writePath.None? && o.value.readPath.None?
      && o.value.delayMillis == 100 && o.value.periodMillis == 1000 && o.value.nDims == 3
  {
  }

  /** The builder with every field set builds the same options `new` makes from the same
      arguments; for a rejected name both fail, but with different messages. */
  lemma BuildAgreesWithNew(w: string, rd: string, channel: string, n: USize, d: U64, p: U64)
    ensures var b := WithChannel(WithNDims(WithPeriod(WithDelay(
                        WithReadPath(WithWritePath(NewBuilder(), w), rd), d), p), n), channel);
      && (b.Ok? <==> New(Some(w), Some(rd), channel, n, d, p).Ok?)
      && (b.Ok? ==> Build(b.value) == New(Some(w), Some(rd), channel, n, d, p))
      && (b.Err? ==> (b.error == InvalidChannelError
                     && New(Some(w), Some(rd), channel, n, d, p).error == HubName.TryFrom(channel).error))
  {
  }

  /** The order in which fields are set does not matter, and setting a field again
      replaces the earlier value. */
  lemma SettersCommute(b: Builder, d: U64, d2: U64, p: U64, n: USize, w: string, rd: string)
    ensures WithDelay(WithPeriod(b, p), d) == WithPeriod(WithDelay(b, d), p)
    ensures WithNDims(WithDelay(b, d), n) == WithDelay(WithNDims(b, n), d)
    ensures WithReadPath(WithWritePath(b, w), rd) == WithWritePath(WithReadPath(b, rd), w)
    ensures WithDelay(WithDelay(b, d), d2) == WithDelay(b, d2)
  {
  }

  /** Setting the channel commutes with setting the delay. */
  lemma ChannelCommutes(b: Builder, channel: string, d: U64)
    requires HubName.TryFrom(channel).Ok?
    ensures WithChannel(WithDelay(b, d), channel) == Ok(WithDelay(WithChannel(b, channel).value, d))
  {
  }

  /** A builder that was given a valid channel keeps it through later setters and builds. */
  lemma ValidChannelBuilds(b: Builder, channel: string, d: U64, p: U64)
    requires HubName.TryFrom(channel).Ok?
    ensures var o := Build(WithPeriod(WithDelay(WithChannel(b, channel).value, d), p));
      && o.Ok? && o.value.delayMillis == d && o.value.periodMillis == p
      && o.value.channel == HubName.TryFrom(channel).value
  {
  }
}

=== FILE: serial_channels.dfy ===
/** Serial-port topic channels. A serial channel name is the input lower-cased with every
    whitespace character deleted, and is accepted when what remains is alphanumerics
    and `_`; on the wire a channel is announced by its tag `##name##`.
    `SerialPubChannels` is the set of channel names a serial client has seen. */
module SerialName {

  import opened Wrappers
  import opened Text
  import HubName

  /** As with hub names, the wrapper itself enforces nothing; `TryFrom` does. */
  datatype SerialChannelName = SerialChannelName(name: string)

  const InvalidNameError := "Invalid channel name. Only alphanumeric and '_' characters allowed."

  /** The name as `TryFrom` normalises it: ASCII lower-cased, whitespace deleted. */
  function Normalise(value: string): string
  {
    RemoveMatching(ToAsciiLowercase(value), IsStripped)
  }

  /** Made only of lower-case letters, digits and `_`: the form every accepted name has. */
  ghost predicate IsNormal(s: string)
  {
    forall k :: 0 <= k < |s| ==> HubName.IsLowerNameChar(s[k])
  }

  /** `TryFrom<&str>` (and `TryFrom<String>`, which delegates to it). */
  function TryFrom(value: string): (r: Result<SerialChannelName, string>)
    ensures r.Ok? <==> forall k :: 0 <= k < |value| && !IsStripped(value[k]) ==> IsNameChar(value[k])
    ensures r.Ok? ==> r.value.name == Normalise(value) && IsNormal(r.value.name)
    ensures r.Err? ==> r.error == InvalidNameError
  {
    var name := Normalise(value);
    NormaliseChars(value);
    if forall k :: 0 <= k < |name| ==> IsNameChar(name[k]) then
      Ok(SerialChannelName(name))
    else
      Err(InvalidNameError)
  }

  /** The characters of the normalised name are the lowered non-whitespace characters. */
  lemma NormaliseChars(value: string)
    ensures forall k :: 0 <= k < |Normalise(value)| ==>
      (!IsStripped(Normalise(value)[k]) && !IsAsciiUpper(Normalise(value)[k]))
    ensures (forall k :: 0 <= k < |Normalise(value)| ==> IsNameChar(Normalise(value)[k]))
      <==> (forall k :: 0 <= k < |value| && !IsStripped(value[k]) ==> IsNameChar(value[k]))
  {
    var low := ToAsciiLowercase(value);
    var name := Normalise(value);
    forall k | 0 <= k < |value| { LowerCharKeepsClasses(value[k]); }
    forall k | 0 <= k < |name| ensures !IsAsciiUpper(name[k])
    {
      assert name[k] in low;
    }
    if forall k :: 0 <= k < |name| ==> IsNameChar(name[k]) {
      forall k | 0 <= k < |value| && !IsStripped(value[k]) ensures IsNameChar(value[k])
      {
        assert low[k] in name;
      }
    }
    if forall k :: 0 <= k < |value| && !IsStripped(value[k]) ==> IsNameChar(value[k]) {
      forall k | 0 <= k < |name| ensures IsNameChar(name[k])
      {
        assert name[k] in low;
      }
    }
  }

  /** `as_str`: the name's text, which validates back to the same name. */
  function AsStr(n: SerialChannelName): (s: string)
    ensures s == n.name
    ensures IsNormal(n.name) ==> TryFrom(s) == Ok(n)
  {
    NormalIsSerialName(n.name);
    n.name
  }

  /** `tag`: the on-wire channel marker, the name between two `##` markers. A normal name
      holds no `#`, so the only markers in the tag are its two ends. */
  function Tag(n: SerialChannelName): (t: string)
    ensures |t| == |n.name| + 4
    ensures t[..2] == "##" && t[|t| - 2..] == "##" && t[2..|t| - 2] == n.name
    ensures IsNormal(n.name) ==> forall k :: 2 <= k < |t| - 2 ==> t[k] != '#'
  {
    "##" + n.name + "##"
  }

  /** `From<SerialChannelName> for String` (by value and by reference): the same text as
      `as_str`, so it too validates back to the same name. */
  function ToString(n: SerialChannelName): (s: string)
    ensures s == AsStr(n)
    ensures IsNormal(n.name) ==> TryFrom(s) == Ok(n)
  {
    AsStr(n)
  }

  /** `From<SerialChannelName> for HubChannelName`, which unwraps the hub validation. */
  function ToHub(n: SerialChannelName): (h: HubName.HubChannelName)
    requires HubName.TryFrom(n.name).Ok?
    ensures IsNormal(n.name) ==> h.name == n.name
  {
    NormalIsHubName(n.name);
    HubName.TryFrom(n.name).value
  }

  /** `From<HubChannelName> for SerialChannelName`, which unwraps the serial validation. */
  function FromHub(h: HubName.HubChannelName): (n: SerialChannelName)
    requires TryFrom(h.name).Ok?
    ensures IsNormal(n.name)
    ensures IsNormal(h.name) ==> n.name == h.name
  {
    NormalIsSerialName(h.name);
    TryFrom(h.name).value
  }

  lemma {:induction false} NormaliseAppend(a: string, b: string)
    ensures Normalise(a + b) == Normalise(a) + Normalise(b)
  {
    assert ToAsciiLowercase(a + b) == ToAsciiLowercase(a) + ToAsciiLowercase(b);
    RemoveMatchingAppend(ToAsciiLowercase(a), ToAsciiLowercase(b), IsStripped);
  }

  lemma NormaliseNormal(s: string)
    requires IsNormal(s)
    ensures Normalise(s) == s
  {
    LowercaseOfLower(s);
    RemoveMatchingNone(s, IsStripped);
  }

  lemma {:induction false} NormaliseBlank(s: string)
    requires AllMatch(s, IsStripped)
    ensures Normalise(s) == []
  {
    forall k | 0 <= k < |s| { LowerCharKeepsClasses(s[k]); }
    RemoveMatchingAll(ToAsciiLowercase(s), IsStripped);
  }

  /** A normal name is accepted unchanged as a serial name ... */
  lemma NormalIsSerialName(s: string)
    ensures IsNormal(s) ==> TryFrom(s) == Ok(SerialChannelName(s))
  {
    if IsNormal(s) { NormaliseNormal(s); }
  }

  /** An input is accepted exactly as its normal form whenever that form is normal. */
  lemma NormalisedAccepted(value: string)
    requires IsNormal(Normalise(value))
    ensures TryFrom(value) == Ok(SerialChannelName(Normalise(value)))
  {
    NormaliseChars(value);
  }

  /** ... and as a hub name. */
  lemma NormalIsHubName(s: string)
    ensures IsNormal(s) ==> HubName.TryFrom(s) == Ok(HubName.HubChannelName(s))
  {
    if IsNormal(s) { HubName.LowerNameUnchanged(s); }
  }

  /** Idempotence: re-validating an accepted name gives the same name. */
  lemma Idempotent(value: string)
    requires TryFrom(value).Ok?
    ensures TryFrom(AsStr(TryFrom(value).value)) == TryFrom(value)
  {
    NormalIsSerialName(TryFrom(value).value.name);
  }

  /** Every accepted serial name is also a valid hub name, with the same text; this is why
      `ToHub` never fails on names built by `TryFrom`. */
  lemma SerialNameIsHubName(value: string)
    requires TryFrom(value).Ok?
    ensures HubName.TryFrom(TryFrom(value).value.name) == Ok(HubName.HubChannelName(TryFrom(value).value.name))
  {
    HubName.LowerNameUnchanged(TryFrom(value).value.name);
  }

  /** Every validated hub name is accepted as a serial name, which deletes any whitespace
      the hub validation let through; the text is kept when there was none. */
  lemma HubNameIsSerialName(value: string)
    requires HubName.TryFrom(value).Ok?
    ensures var h := HubName.TryFrom(value).value;
      && TryFrom(h.name).Ok?
      && TryFrom(h.name).value.name == RemoveMatching(h.name, IsStripped)
      && ((forall k :: 0 <= k < |h.name| ==> !IsStripped(h.name[k])) ==> TryFrom(h.name).value.name == h.name)
  {
    var h := HubName.TryFrom(value).value;
    HubName.OkShape(value);
    assert forall k :: 0 <= k < |h.name| && !IsStripped(h.name[k]) ==> IsNameChar(h.name[k]);
    LowercaseOfLower(h.name);
    if forall k :: 0 <= k < |h.name| ==> !IsStripped(h.name[k]) {
      RemoveMatchingNone(h.name, IsStripped);
    }
  }

  /** Converting a hub name with an inner tab to a serial name loses the tab, so the
      round trip hub -> serial -> hub does not return the original name. */
  lemma HubTabLostInSerial(a: string, b: string)
    requires a != [] && b != [] && IsNormal(a) && IsNormal(b)
    ensures HubName.TryFrom(a + "\t" + b) == Ok(HubName.HubChannelName(a + "\t" + b))
    ensures TryFrom(a + "\t" + b) == Ok(SerialChannelName(a + b))
  {
    HubName.InnerTabKept(a, b);
    var tab: string := "\t";
    assert Normalise(a + tab + b) == a + b by {
      NormaliseJoin(a, tab, b);
      NormaliseNormal(b);
    }
    NormalConcat(a, b);
    NormalisedAccepted(a + tab + b);
  }

  lemma NormalConcat(a: string, b: string)
    requires IsNormal(a) && IsNormal(b)
    ensures IsNormal(a + b)
  {
    assert forall k :: |a| <= k < |a + b| ==> (a + b)[k] == b[k - |a|];
  }

  lemma ExampleCapitals(s: string)
    requires s == "ExamPle"
    ensures TryFrom(s) == Ok(SerialChannelName("example"))
  {
    var e: string := "example";
    assert ToAsciiLowercase(s) == e by {
      var x: string := "xam";
      var l: string := "le";
      assert s == "E" + x + "P" + l;
      LowercaseAppend("E" + x + "P", l);
      LowercaseAppend("E" + x, "P");
      LowercaseAppend("E", x);
      LowercaseOfLower(x);
      LowercaseOfLower(l);
      assert ToAsciiLowercase("E") == "e" && ToAsciiLowercase("P") == "p";
    }
    assert IsNormal(e);
    RemoveMatchingNone(e, IsStripped);
    NormalisedAccepted(s);
  }

  /** Deleting a whitespace run between two normal pieces joins them. */
  lemma NormaliseJoin(a: string, w: string, b: string)
    requires IsNormal(a) && AllMatch(w, IsStripped)
    ensures Normalise(a + w + b) == a + Normalise(b)
  {
    NormaliseAppend(a + w, b);
    NormaliseAppend(a, w);
    NormaliseNormal(a);
    NormaliseBlank(w);
    assert Normalise(a + w) == a;
  }

  /** Four normal pieces separated and followed by whitespace runs normalise to their
      concatenation. */
  lemma SpacedPiecesJoin(a: string, b: string, c: string, d: string, sp: string, t4: string)
    requires IsNormal(a) && IsNormal(b) && IsNormal(c) && IsNormal(d)
    requires AllMatch(sp, IsStripped) && AllMatch(t4, IsStripped)
    ensures Normalise(sp + (a + sp + (b + sp + (c + sp + (d + t4))))) == a + (b + (c + d))
  {
    var s4 := d + t4;
    var s3 := c + sp + s4;
    var s2 := b + sp + s3;
    var s1 := a + sp + s2;
    assert Normalise(s4) == d by {
      NormaliseAppend(d, t4);
      NormaliseNormal(d);
      NormaliseBlank(t4);
    }
    assert Normalise(s3) == c + d by { NormaliseJoin(c, sp, s4); }
    assert Normalise(s2) == b + (c + d) by { NormaliseJoin(b, sp, s3); }
    assert Normalise(s1) == a + (b + (c + d)) by { NormaliseJoin(a, sp, s2); }
    assert Normalise(sp + s1) == a + (b + (c + d)) by {
      NormaliseAppend(sp, s1);
      NormaliseBlank(sp);
    }
  }

  lemma ExampleSpacesNormalise(s: string)
    requires s == " exa mp l e   \n"
    ensures Normalise(s) == "example"
  {
    ExampleSpacesShape(s);
    SpacedPiecesJoin("exa", "mp", "l", "e", " ", "   \n");
    assert "exa" + ("mp" + ("l" + "e")) == "example";
  }

  lemma ExampleSpacesShape(s: string)
    requires s == " exa mp l e   \n"
    ensures s == " " + ("exa" + " " + ("mp" + " " + ("l" + " " + ("e" + "   \n"))))
  {
  }

  lemma ExampleSpaces(s: string)
    requires s == " exa mp l e   \n"
    ensures TryFrom(s) == Ok(SerialChannelName("example"))
  {
    ExampleSpacesNormalise(s);
    var r: string := "example";
    assert IsNormal(r);
    NormalisedAccepted(s);
  }

  lemma ExampleDotRejected()
    ensures TryFrom("example.com") == Err(InvalidNameError)
  {
    var s: string := "example.com";
    assert !IsStripped(s[7]) && !IsNameChar(s[7]);
  }

  lemma ExampleTag()
    ensures Tag(SerialChannelName("example")) == "##example##"
  {
  }

  // ---------------------------------------------------------------------------
  // SerialPubChannels
  // ---------------------------------------------------------------------------

  datatype SerialPubChannels = SerialPubChannels(channels: set<SerialChannelName>)

  function NewChannels(): (c: SerialPubChannels)
    ensures forall n :: n !in c.channels
  {
    SerialPubChannels({})
  }

  /** `add`: `n` becomes a member, every other membership is unchanged. */
  function Add(c: SerialPubChannels, n: SerialChannelName): (r: SerialPubChannels)
    ensures n in r.channels
    ensures forall m :: m != n ==> (m in r.channels <==> m in c.channels)
  {
    SerialPubChannels(c.channels + {n})
  }

  /** `remove`: `n` stops being a member, every other membership is unchanged. */
  function Remove(c: SerialPubChannels, n: SerialChannelName): (r: SerialPubChannels)
    ensures n !in r.channels
    ensures forall m :: m != n ==> (m in r.channels <==> m in c.channels)
  {
    SerialPubChannels(c.channels - {n})
  }

  /** `iter`: every stored name exactly once, in an unspecified order. */
  method Iter(c: SerialPubChannels) returns (names: seq<SerialChannelName>)
    ensures forall m :: m in names <==> m in c.channels
    ensures forall i, j :: 0 <= i < j < |names| ==> names[i] != names[j]
  {
    names := [];
    var rest := c.channels;
    while rest != {}
      invariant rest <= c.channels
      invariant forall m :: m in names <==> m in c.channels && m !in rest
      invariant forall i, j :: 0 <= i < j < |names| ==> names[i] != names[j]
      decreases |rest|
    {
      var m :| m in rest;
      names := names + [m];
      rest := rest - {m};
    }
  }

  /** Adding a name twice stores it once. */
  lemma AddIdempotent(c: SerialPubChannels, n: SerialChannelName)
    ensures Add(Add(c, n), n) == Add(c, n)
  {
  }

  /** Removing a name that is not stored changes nothing. */
  lemma RemoveAbsent(c: SerialPubChannels, n: SerialChannelName)
    requires n !in c.channels
    ensures Remove(c, n) == c
  {
  }

  /** Removing a freshly added name restores the previous set. */
  lemma RemoveUndoesAdd(c: SerialPubChannels, n: SerialChannelName)
    requires n !in c.channels
    ensures Remove(Add(c, n), n) == c
  {
  }
}

=== FILE: serial_client.dfy ===
/** The serial client's reader task: bytes read from the port are appended to a line
    buffer; every complete line (up to and including `'\n'`) is taken off the front in
    order; a line starting with `##` is parsed into a hub message, whose channel the
    client learns and which it forwards to the hub. A partial last line waits for the
    next read. The buffer holds decoded characters. */
module SerialClient {

  import opened Wrappers
  import opened Text
  import HubName
  import HubMsg
  import SerialName
  import SerialMsg
  import Payload

  /** `line.starts_with("##")`. */
  const Prefix: string := "##"

  // ---------------------------------------------------------------------------
  // Line framing
  // ---------------------------------------------------------------------------

  /** `iter().position(|&b| b == c)`. */
  function Position(s: string, c: char): (r: Option<nat>)
    ensures r.Some? ==> r.value < |s| && s[r.value] == c && c !in s[..r.value]
    ensures r.None? ==> c !in s
  {
    if s == [] then None
    else if s[0] == c then Some(0)
    else match Position(s[1..], c)
      case None => None
      case Some(p) =>
        assert s[..p + 1] == [s[0]] + s[1..][..p];
        Some(p + 1)
  }

  /** `Position` finds the first occurrence: any index holding `c` with no `c` before it. */
  lemma {:induction false} PositionOf(s: string, c: char, p: nat)
    requires p < |s| && s[p] == c && c !in s[..p]
    ensures Position(s, c) == Some(p)
  {
    if p > 0 {
      assert s[0] == s[..p][0];
      assert s[1..][..p - 1] == s[..p][1..];
      PositionOf(s[1..], c, p - 1);
    }
  }

  /** A complete line: it ends with its only `'\n'`. */
  ghost predicate IsLine(l: string)
  {
    |l| > 0 && l[|l| - 1] == '\n' && '\n' !in l[..|l| - 1]
  }

  function Concat(lines: seq<string>): string
  {
    if lines == [] then [] else lines[0] + Concat(lines[1..])
  }

  lemma ConcatCons(line: string, lines: seq<string>)
    ensures Concat([line] + lines) == line + Concat(lines)
  {
    assert ([line] + lines)[1..] == lines;
  }

  /** The text up to and including the first `'\n'` is a complete line. */
  lemma FirstLine(buffer: string, pos: nat)
    requires pos < |buffer| && buffer[pos] == '\n' && '\n' !in buffer[..pos]
    ensures IsLine(buffer[..pos + 1])
  {
    var line := buffer[..pos + 1];
    assert line[..|line| - 1] == buffer[..pos];
  }

  /** Putting a complete line in front of complete lines. */
  lemma LinesCons(line: string, lines: seq<string>)
    requires IsLine(line)
    requires forall k :: 0 <= k < |lines| ==> IsLine(lines[k])
    ensures forall k :: 0 <= k < |[line] + lines| ==> IsLine(([line] + lines)[k])
  {
    forall k | 0 <= k < |[line] + lines| ensures IsLine(([line] + lines)[k])
    {
      if k > 0 { assert ([line] + lines)[k] == lines[k - 1]; }
    }
  }

  /** The first line followed by the rest of the buffer is the buffer. */
  lemma SplitConcat(buffer: string, pos: nat, lines: seq<string>, rest: string)
    requires pos < |buffer|
    requires Concat(lines) + rest == buffer[pos + 1..]
    ensures Concat([buffer[..pos + 1]] + lines) + rest == buffer
  {
    var line := buffer[..pos + 1];
    ConcatCons(line, lines);
    assert line + Concat(lines) + rest == line + (Concat(lines) + rest);
    assert line + buffer[pos + 1..] == buffer;
  }

  /** The complete lines at the front of `buffer`, in order, and what is left after them. */
  function SplitLines(buffer: string): (r: (seq<string>, string))
    ensures forall k :: 0 <= k < |r.0| ==> IsLine(r.0[k])
    ensures '\n' !in r.1
    ensures Concat(r.0) + r.1 == buffer
    decreases |buffer|
  {
    match Position(buffer, '\n')
    case None => ([], buffer)
    case Some(pos) =>
      var rest := SplitLines(buffer[pos + 1..]);
      FirstLine(buffer, pos);
      LinesCons(buffer[..pos + 1], rest.0);
      SplitConcat(buffer, pos, rest.0, rest.1);
      ([buffer[..pos + 1]] + rest.0, rest.1)
  }

  /** Splitting recovers any decomposition into complete lines and a partial rest:
      the complete lines are exactly the ones read, none is lost or merged. */
  lemma {:induction false} SplitLinesOfConcat(lines: seq<string>, rest: string)
    requires forall k :: 0 <= k < |lines| ==> IsLine(lines[k])
    requires '\n' !in rest
    ensures SplitLines(Concat(lines) + rest) == (lines, rest)
    decreases |lines|
  {
    var s := Concat(lines) + rest;
    if lines == [] {
      assert s == rest;
    } else {
      var l := lines[0];
      var tail := Concat(lines[1..]) + rest;
      assert s == l + tail;
      var p := |l| - 1;
      assert s[..p] == l[..p];
      PositionOf(s, '\n', p);
      assert s[..p + 1] == l;
      assert s[p + 1..] == tail;
      SplitLinesOfConcat(lines[1..], rest);
      assert lines == [l] + lines[1..];
    }
  }

  // ---------------------------------------------------------------------------
  // Line handling
  // ---------------------------------------------------------------------------

  /** The name the client learns from a forwarded message: `SerialChannelName::from`
      of its channel, whose text it keeps. */
  function Learned(m: HubMsg.HubMessage): SerialName.SerialChannelName
  {
    SerialName.SerialChannelName(m.channel.name)
  }

  /** Every learned name is a normalised serial channel name. */
  ghost predicate AllNormal(c: SerialName.SerialPubChannels)
  {
    forall n :: n in c.channels ==> SerialName.IsNormal(n.name)
  }

  /** One complete line: lines without the `##` prefix, and lines that do not parse,
      are dropped; a parsed message's channel is learned and the message forwarded. */
  function ProcessLine(c: SerialName.SerialPubChannels, line: string)
    : (r: (SerialName.SerialPubChannels, Option<HubMsg.HubMessage>))
    ensures r.1.Some? <==> StartsWith(line, Prefix) && SerialMsg.ToHubMessage(SerialMsg.RawFromStr(line)).Ok?
    ensures r.1.Some? ==> r.1.value == SerialMsg.ToHubMessage(SerialMsg.RawFromStr(line)).value
    ensures r.1.Some? ==> r.0 == SerialName.Add(c, Learned(r.1.value)) && SerialName.IsNormal(r.1.value.channel.name)
    ensures r.1.None? ==> r.0 == c
  {
    if StartsWith(line, Prefix) then
      var raw := SerialMsg.RawFromStr(line);
      match SerialMsg.ToHubMessage(raw)
      case Ok(message) =>
        SerialMsg.ExtractedDataTrimmed(raw);
        SerialName.NormalIsSerialName(message.channel.name);
        var n := SerialName.FromHub(message.channel);
        (SerialName.Add(c, n), Some(message))
      case Err(_) => (c, None)
    else
      (c, None)
  }

  function OptionToSeq<T>(o: Option<T>): (s: seq<T>)
    ensures o.None? ==> s == []
    ensures o.Some? ==> s == [o.value]
  {
    if o.Some? then [o.value] else []
  }

  /** The names learned from a sequence of forwarded messages. */
  function LearnedFrom(ms: seq<HubMsg.HubMessage>): set<SerialName.SerialChannelName>
  {
    if ms == [] then {} else {Learned(ms[0])} + LearnedFrom(ms[1..])
  }

  /** Every forwarded message is on a normalised channel. */
  ghost predicate NormalChannels(ms: seq<HubMsg.HubMessage>)
  {
    forall k :: 0 <= k < |ms| ==> SerialName.IsNormal(ms[k].channel.name)
  }

  /** The lines in order; at most one message is forwarded per line. */
  function ProcessLines(c: SerialName.SerialPubChannels, lines: seq<string>)
    : (r: (SerialName.SerialPubChannels, seq<HubMsg.HubMessage>))
    ensures |r.1| <= |lines|
    decreases |lines|
  {
    if lines == [] then (c, [])
    else
      var (c1, out) := ProcessLine(c, lines[0]);
      var (c2, rest) := ProcessLines(c1, lines[1..]);
      (c2, OptionToSeq(out) + rest)
  }

  lemma LearnedCons(m: HubMsg.HubMessage, ms: seq<HubMsg.HubMessage>)
    ensures LearnedFrom([m] + ms) == {Learned(m)} + LearnedFrom(ms)
    ensures NormalChannels(ms) && SerialName.IsNormal(m.channel.name) ==> NormalChannels([m] + ms)
  {
    assert ([m] + ms)[1..] == ms;
    if NormalChannels(ms) && SerialName.IsNormal(m.channel.name) {
      forall k | 0 <= k < |[m] + ms| ensures SerialName.IsNormal(([m] + ms)[k].channel.name)
      {
        if k > 0 { assert ([m] + ms)[k] == ms[k - 1]; }
      }
    }
  }

  /** One line's worth of learning: what the line forwards and learns, followed by what
      the remaining lines forward and learn. */
  lemma LearnStep(c: SerialName.SerialPubChannels, c1: SerialName.SerialPubChannels,
                  c2: SerialName.SerialPubChannels, out: Option<HubMsg.HubMessage>,
                  rest: seq<HubMsg.HubMessage>)
    requires out.Some? ==> c1.channels == c.channels + {Learned(out.value)} && SerialName.IsNormal(out.value.channel.name)
    requires out.None? ==> c1 == c
    requires c2.channels == c1.channels + LearnedFrom(rest) && NormalChannels(rest)
    ensures c2.channels == c.channels + LearnedFrom(OptionToSeq(out) + rest)
    ensures NormalChannels(OptionToSeq(out) + rest)
  {
    if out.Some? {
      LearnedCons(out.value, rest);
    } else {
      assert OptionToSeq(out) + rest == rest;
    }
  }

  /** What processing learns and forwards: the learned set grows by exactly the
      channels of the forwarded messages, all of which are normalised. */
  lemma {:induction false} ProcessLinesLearns(c: SerialName.SerialPubChannels, lines: seq<string>)
    ensures var r := ProcessLines(c, lines);
      r.0.channels == c.channels + LearnedFrom(r.1) && NormalChannels(r.1)
    decreases |lines|
  {
    if lines != [] {
      var (c1, out) := ProcessLine(c, lines[0]);
      var (c2, rest) := ProcessLines(c1, lines[1..]);
      ProcessLinesLearns(c1, lines[1..]);
      LearnStep(c, c1, c2, out, rest);
    }
  }

  /** The names learned from normalised channels are normalised. */
  lemma {:induction false} LearnedNormal(ms: seq<HubMsg.HubMessage>)
    requires NormalChannels(ms)
    ensures forall n :: n in LearnedFrom(ms) ==> SerialName.IsNormal(n.name)
  {
    if ms != [] {
      LearnedNormal(ms[1..]);
    }
  }

  /** Processing keeps every learned name normalised, so `list_channels` can convert
      each one back. */
  lemma ProcessLinesKeepsNormal(c: SerialName.SerialPubChannels, lines: seq<string>)
    requires AllNormal(c)
    ensures AllNormal(ProcessLines(c, lines).0)
  {
    ProcessLinesLearns(c, lines);
    LearnedNormal(ProcessLines(c, lines).1);
  }

  // ---------------------------------------------------------------------------
  // The reader
  // ---------------------------------------------------------------------------

  datatype Reader = Reader(buffer: string, channels: SerialName.SerialPubChannels)

  function NewReader(): (r: Reader)
    ensures r.buffer == [] && r.channels.channels == {}
  {
    Reader([], SerialName.NewChannels())
  }

  /** What one read of the port gives: `n > 0` bytes, `Ok(0)`, or an error. */
  datatype ReadOutcome = Chunk(data: string) | NoData | ReadError(error: string)

  /** One chunk: it is appended to the buffer, every complete line is processed and
      drained, and the partial rest stays. */
  function Feed(r: Reader, chunk: string): (result: (Reader, seq<HubMsg.HubMessage>))
    ensures '\n' !in result.0.buffer
    ensures result.0.buffer == SplitLines(r.buffer + chunk).1
    ensures (result.0.channels, result.1) == ProcessLines(r.channels, SplitLines(r.buffer + chunk).0)
  {
    var (lines, rest) := SplitLines(r.buffer + chunk);
    var (c, out) := ProcessLines(r.channels, lines);
    (Reader(rest, c), out)
  }

  /** One turn of the reader loop; the flag says whether the loop goes on. */
  function Step(r: Reader, read: ReadOutcome): (result: (Reader, seq<HubMsg.HubMessage>, bool))
    ensures read.Chunk? ==> (result.0, result.1) == Feed(r, read.data) && result.2
    ensures read.NoData? ==> result == (r, [], true)
    ensures read.ReadError? ==> result == (r, [], false)
  {
    match read
    case Chunk(data) => var (r', out) := Feed(r, data); (r', out, true)
    case NoData => (r, [], true)
    case ReadError(_) => (r, [], false)
  }

  /** What is left to do with `buffer`, after `forwarded` went out, as one result. */
  function Resume(c: SerialName.SerialPubChannels, forwarded: seq<HubMsg.HubMessage>, buffer: string)
    : (SerialName.SerialPubChannels, seq<HubMsg.HubMessage>)
  {
    var t := ProcessLines(c, SplitLines(buffer).0);
    (t.0, forwarded + t.1)
  }

  /** `SplitLines` on a buffer whose first `'\n'` is at `pos`: that line, then the rest. */
  lemma SplitLinesFirst(buffer: string, pos: nat)
    requires Position(buffer, '\n') == Some(pos)
    ensures SplitLines(buffer) == ([buffer[..pos + 1]] + SplitLines(buffer[pos + 1..]).0, SplitLines(buffer[pos + 1..]).1)
  {
  }

  /** `ProcessLines` on a line in front of more lines. */
  lemma ProcessLinesFirst(c: SerialName.SerialPubChannels, line: string, lines: seq<string>)
    ensures var (c1, out) := ProcessLine(c, line);
      ProcessLines(c, [line] + lines) == (ProcessLines(c1, lines).0, OptionToSeq(out) + ProcessLines(c1, lines).1)
  {
    assert ([line] + lines)[0] == line;
    assert ([line] + lines)[1..] == lines;
  }

  /** Handling the first complete line and draining it leaves the same work to do. */
  lemma ResumeStep(c: SerialName.SerialPubChannels, forwarded: seq<HubMsg.HubMessage>, buffer: string, pos: nat)
    requires Position(buffer, '\n') == Some(pos)
    ensures var (c1, out) := ProcessLine(c, buffer[..pos + 1]);
      Resume(c, forwarded, buffer) == Resume(c1, forwarded + OptionToSeq(out), buffer[pos + 1..])
      && SplitLines(buffer).1 == SplitLines(buffer[pos + 1..]).1
  {
    SplitLinesFirst(buffer, pos);
    ResumeCons(c, forwarded, buffer[..pos + 1], SplitLines(buffer[pos + 1..]).0);
  }

  /** Processing a line in front of more lines, with the earlier output kept in front. */
  lemma ResumeCons(c: SerialName.SerialPubChannels, forwarded: seq<HubMsg.HubMessage>, line: string, lines: seq<string>)
    ensures var (c1, out) := ProcessLine(c, line);
      var t := ProcessLines(c, [line] + lines);
      (t.0, forwarded + t.1) == (ProcessLines(c1, lines).0, (forwarded + OptionToSeq(out)) + ProcessLines(c1, lines).1)
  {
    ProcessLinesFirst(c, line, lines);
    var (c1, out) := ProcessLine(c, line);
    var t := ProcessLines(c1, lines);
    assert forwarded + (OptionToSeq(out) + t.1) == (forwarded + OptionToSeq(out)) + t.1;
  }

  /** The loop of `start` on one chunk, as written: find the first `'\n'`, handle the
      line up to and including it, drain it, repeat. */
  method OnChunk(r: Reader, chunk: string) returns (r': Reader, forwarded: seq<HubMsg.HubMessage>)
    ensures (r', forwarded) == Feed(r, chunk)
    ensures '\n' !in r'.buffer
  {
    var buffer := r.buffer + chunk;
    var channels := r.channels;
    forwarded := [];
    ghost var total := Resume(channels, forwarded, buffer);
    ghost var rest0 := SplitLines(buffer).1;
    assert total == ProcessLines(channels, SplitLines(buffer).0) by {
      assert [] + ProcessLines(channels, SplitLines(buffer).0).1 == ProcessLines(channels, SplitLines(buffer).0).1;
    }
    while true
      invariant SplitLines(buffer).1 == rest0
      invariant Resume(channels, forwarded, buffer) == total
      decreases |buffer|
    {
      var pos := Position(buffer, '\n');
      if pos.None? {
        break;
      }
      var line := buffer[..pos.value + 1];
      ResumeStep(channels, forwarded, buffer, pos.value);
      var (c1, out) := ProcessLine(channels, line);
      channels := c1;
      forwarded := forwarded + OptionToSeq(out);
      buffer := buffer[pos.value + 1..];
    }
    assert SplitLines(buffer) == ([], buffer);
    assert forwarded + [] == forwarded;
    r' := Reader(buffer, channels);
  }

  /** A chunk without a line break only grows the buffer. */
  lemma PartialLineWaits(r: Reader, chunk: string)
    requires '\n' !in r.buffer + chunk
    ensures Feed(r, chunk) == (Reader(r.buffer + chunk, r.channels), [])
  {
    SplitLinesOfConcat([], r.buffer + chunk);
  }

  /** A line without the `##` prefix is dropped without learning anything. */
  lemma UnprefixedLineIgnored(c: SerialName.SerialPubChannels, line: string)
    requires !StartsWith(line, Prefix)
    ensures ProcessLine(c, line) == (c, None)
  {
  }

  /** A framed line for a normalised channel, ended by its line break, yields the
      channel and the payload without the line break. */
  lemma TaggedLineExtract(n: SerialName.SerialChannelName, d: string)
    requires SerialName.IsNormal(n.name)
    requires d == [] || (!Payload.IsDataTrim(d[0]) && !Payload.IsDataTrim(d[|d| - 1]))
    ensures SerialMsg.ExtractInfo(SerialMsg.RawFromStr(SerialName.Tag(n) + d + "\n"))
      == Some((n, SerialMsg.SerialData(d)))
  {
    var post: string := "\n";
    var after := d + post;
    assert TrimMatches(after, Payload.IsDataTrim) == d by {
      assert AllMatch(post, Payload.IsDataTrim);
      TrimMatchesOf([], d, post, Payload.IsDataTrim);
      assert [] + d + post == after;
    }
    assert [] + SerialName.Tag(n) + after == SerialName.Tag(n) + d + "\n";
    SerialMsg.ExtractTagged([], n, after);
  }

  /** A line behind the `##` gate whose extraction is known is forwarded as that
      channel and payload, and the channel is learned. */
  lemma ExtractedLineForwarded(c: SerialName.SerialPubChannels, line: string,
                               n: SerialName.SerialChannelName, d: string)
    requires StartsWith(line, Prefix)
    requires SerialMsg.ExtractInfo(SerialMsg.RawFromStr(line)) == Some((n, SerialMsg.SerialData(d)))
    ensures ProcessLine(c, line)
      == (SerialName.Add(c, n), Some(HubMsg.HubMessage(HubName.HubChannelName(n.name), Payload.HubData(d))))
  {
    SerialMsg.HubMessageOfExtract(SerialMsg.RawFromStr(line), n, SerialMsg.SerialData(d));
  }

  /** A framed line for a normalised channel is forwarded with its trimmed data, and
      its channel is learned. */
  lemma TaggedLineForwarded(c: SerialName.SerialPubChannels, n: SerialName.SerialChannelName, d: string)
    requires SerialName.IsNormal(n.name)
    requires d == [] || (!Payload.IsDataTrim(d[0]) && !Payload.IsDataTrim(d[|d| - 1]))
    ensures var line := SerialName.Tag(n) + d + "\n";
      && ProcessLine(c, line).1 == Some(HubMsg.HubMessage(HubName.HubChannelName(n.name), Payload.HubData(d)))
      && n in ProcessLine(c, line).0.channels
  {
    var line := SerialName.Tag(n) + d + "\n";
    assert line[..2] == Prefix by {
      assert line == Prefix + (n.name + Prefix + d + "\n");
    }
    TaggedLineExtract(n, d);
    ExtractedLineForwarded(c, line, n, d);
  }

  /** `list_channels`: every learned name, as a hub channel name. */
  method ListChannels(c: SerialName.SerialPubChannels) returns (names: seq<HubName.HubChannelName>)
    requires AllNormal(c)
    ensures forall h :: h in names <==> SerialName.SerialChannelName(h.name) in c.channels
  {
    var serial := SerialName.Iter(c);
    forall k | 0 <= k < |serial|
      ensures SerialName.IsNormal(serial[k].name) && HubName.TryFrom(serial[k].name).Ok?
    {
      assert serial[k] in c.channels;
      SerialName.NormalIsHubName(serial[k].name);
    }
    names := seq(|serial|, k requires 0 <= k < |serial| => SerialName.ToHub(serial[k]));
    assert forall k :: 0 <= k < |names| ==> names[k] == HubName.HubChannelName(serial[k].name);
    forall h ensures h in names <==> SerialName.SerialChannelName(h.name) in c.channels
    {
      if h in names {
        var k :| 0 <= k < |names| && names[k] == h;
        assert serial[k] == SerialName.SerialChannelName(h.name);
      }
      if SerialName.SerialChannelName(h.name) in c.channels {
        var n := SerialName.SerialChannelName(h.name);
        var k :| 0 <= k < |serial| && serial[k] == n;
        assert names[k] == h;
      }
    }
  }
}

=== FILE: serial_message.dfy ===
/** Messages on the serial line. A raw line carries a message as
    `...##channel##payload`: the channel is the text between the first `##` and the
    next one, the payload is everything after the second `##` with spaces and line
    breaks trimmed from both ends. */
module SerialMsg {

  import opened Wrappers
  import opened Text
  import HubName
  import SerialName
  import Payload
  import HubMsg

  /** `SerialData`: payload text as it arrived on the serial line. */
  datatype SerialData = SerialData(text: string)

  /** `SerialRawMessage`: one line read from the serial port. */
  datatype SerialRawMessage = SerialRawMessage(text: string)

  const ConversionError := "Couldn't convert serial raw message to serial message."

  const Marker := "##"

  /** `SerialData::from_str` and `SerialRawMessage::from_str` keep the text verbatim. */
  function DataFromStr(data: string): (d: SerialData)
    ensures d.text == data
  {
    SerialData(data)
  }

  function RawFromStr(data: string): (m: SerialRawMessage)
    ensures m.text == data
  {
    SerialRawMessage(data)
  }

  /** `i` is the first `##` in `raw` and `j` the first `##` that starts at or after
      `i + 2`: the two markers that frame the channel name. */
  ghost predicate MarkersAt(raw: string, i: int, j: int)
  {
    && OccursAt(raw, Marker, i) && i + 2 <= j && OccursAt(raw, Marker, j)
    && (forall k :: 0 <= k < i ==> !OccursAt(raw, Marker, k))
    && (forall k :: i + 2 <= k < j ==> !OccursAt(raw, Marker, k))
  }

  /** A `##` at offset `k` of a suffix is a `##` at offset `start + k` of the whole. */
  lemma OccursInSuffix(raw: string, start: nat, k: int)
    requires start <= |raw|
    ensures OccursAt(raw[start..], Marker, k) <==> k >= 0 && OccursAt(raw, Marker, start + k)
  {
    if 0 <= k && k + 2 <= |raw| - start {
      assert raw[start..][k..k + 2] == raw[start + k..start + k + 2];
    }
  }

  /** There is at most one pair of framing markers. */
  lemma MarkersUnique(raw: string, i: int, j: int, i': int, j': int)
    requires MarkersAt(raw, i, j) && MarkersAt(raw, i', j')
    ensures i == i' && j == j'
  {
  }

  /** The markers `find` locates, when it locates both. */
  lemma FoundMarkers(raw: string)
    ensures Find(raw, Marker).Some? && Find(raw[Find(raw, Marker).value + 2..], Marker).Some? ==>
      MarkersAt(raw, Find(raw, Marker).value, Find(raw, Marker).value + 2 + Find(raw[Find(raw, Marker).value + 2..], Marker).value)
    ensures Find(raw, Marker).Some? && Find(raw[Find(raw, Marker).value + 2..], Marker).None? ==>
      forall i, j :: !MarkersAt(raw, i, j)
    ensures Find(raw, Marker).None? ==> forall i, j :: !MarkersAt(raw, i, j)
  {
    var f := Find(raw, Marker);
    if f.Some? {
      var i := f.value;
      var rest := raw[i + 2..];
      var g := Find(rest, Marker);
      if g.Some? {
        OccursInSuffix(raw, i + 2, g.value);
        forall k | i + 2 <= k < i + 2 + g.value ensures !OccursAt(raw, Marker, k)
        {
          OccursInSuffix(raw, i + 2, k - i - 2);
        }
      } else {
        forall i', j' | MarkersAt(raw, i', j') ensures false
        {
          assert i' == i;
          OccursInSuffix(raw, i + 2, j' - i - 2);
        }
      }
    }
  }

  /** The two `find` calls of `extract_info`: the positions of the framing markers. */
  function Locate(s: string): (r: Option<(nat, nat)>)
    ensures r.Some? ==> MarkersAt(s, r.value.0, r.value.1)
    ensures r.None? ==> forall i, j :: !MarkersAt(s, i, j)
  {
    FoundMarkers(s);
    match Find(s, Marker)
    case None => None
    case Some(start) =>
      match Find(s[start + 2..], Marker)
      case None => None
      case Some(end) => Some((start, start + 2 + end))
  }

  /** The channel of `s` sits between the markers at `i` and `j`, and `data` is the payload
      after them. */
  ghost predicate Framed(s: string, i: int, j: int, info: (SerialName.SerialChannelName, SerialData))
  {
    && MarkersAt(s, i, j)
    && SerialName.TryFrom(s[i + 2..j]) == Ok(info.0)
    && info.1.text == TrimMatches(s[j + 2..], Payload.IsDataTrim)
  }

  /** `extract_info`: the channel between the framing markers, which must be a valid
      serial channel name, and the trimmed payload after them. */
  function ExtractInfo(raw: SerialRawMessage): (r: Option<(SerialName.SerialChannelName, SerialData)>)
    ensures r.Some? ==> exists i, j :: Framed(raw.text, i, j, r.value)
    ensures r.None? ==> forall i, j :: MarkersAt(raw.text, i, j) ==> SerialName.TryFrom(raw.text[i + 2..j]).Err?
  {
    var s := raw.text;
    match Locate(s)
    case None => None
    case Some((i, j)) =>
      MarkersOnly(s, i, j);
      match SerialName.TryFrom(s[i + 2..j])
      case Ok(name) =>
        var info := (name, SerialData(TrimMatches(s[j + 2..], Payload.IsDataTrim)));
        assert Framed(s, i, j, info);
        Some(info)
      case Err(_) => None
  }

  lemma MarkersOnly(s: string, i: int, j: int)
    requires MarkersAt(s, i, j)
    ensures forall i', j' :: MarkersAt(s, i', j') ==> i' == i && j' == j
  {
    forall i', j' | MarkersAt(s, i', j') ensures i' == i && j' == j
    {
      MarkersUnique(s, i, j, i', j');
    }
  }

  /** `From<SerialData> for HubData`: the payload is parsed, i.e. trimmed again. */
  function ToHubData(d: SerialData): (h: Payload.HubData)
    ensures h == Payload.FromStr(d.text)
    ensures |h.text| <= |d.text|
    ensures h.text == [] || (!Payload.IsDataTrim(h.text[0]) && !Payload.IsDataTrim(h.text[|h.text| - 1]))
  {
    Payload.FromStr(d.text)
  }

  /** `From<HubData> for SerialData`. */
  function FromHubData(h: Payload.HubData): (d: SerialData)
    ensures d.text == Payload.AsStr(h)
  {
    SerialData(h.text)
  }

  /** `From<(SerialChannelName, SerialData)> for HubMessage`. */
  function FromPair(channel: SerialName.SerialChannelName, data: SerialData): (m: HubMsg.HubMessage)
    requires HubName.TryFrom(channel.name).Ok?
    ensures m.channel == SerialName.ToHub(channel) && m.data == ToHubData(data)
  {
    HubMsg.New(SerialName.ToHub(channel), ToHubData(data))
  }

  /** `TryFrom<SerialRawMessage> for HubMessage`. */
  function ToHubMessage(raw: SerialRawMessage): (r: Result<HubMsg.HubMessage, string>)
    ensures r.Ok? <==> ExtractInfo(raw).Some?
    ensures r.Ok? ==> r.value.channel == HubName.HubChannelName(ExtractInfo(raw).value.0.name)
    ensures r.Ok? ==> r.value.data == Payload.HubData(ExtractInfo(raw).value.1.text)
    ensures r.Err? ==> r.error == ConversionError
  {
    match ExtractInfo(raw)
    case None => Err(ConversionError)
    case Some(info) =>
      SerialName.NormalIsHubName(info.0.name);
      ExtractedDataTrimmed(raw);
      Ok(FromPair(info.0, info.1))
  }

  /** The channel `extract_info` yields is in normal form and its payload is already
      trimmed, so converting to a hub message changes neither. */
  lemma ExtractedDataTrimmed(raw: SerialRawMessage)
    requires ExtractInfo(raw).Some?
    ensures SerialName.IsNormal(ExtractInfo(raw).value.0.name)
    ensures Payload.FromStr(ExtractInfo(raw).value.1.text) == Payload.HubData(ExtractInfo(raw).value.1.text)
  {
    var d := ExtractInfo(raw).value.1.text;
    Payload.FromStrKeeps(d);
  }

  /** In a line `pre + "##" + name + "##" + after` with no `#` in `pre` or `name`, the
      two markers written out are the framing markers. */
  lemma FramedAt(pre: string, name: string, after: string)
    requires '#' !in pre && '#' !in name
    ensures var s := pre + Marker + name + Marker + after;
      && MarkersAt(s, |pre|, |pre| + 2 + |name|)
      && s[|pre| + 2..|pre| + 2 + |name|] == name
      && s[|pre| + 2 + |name| + 2..] == after
  {
    var s := pre + Marker + name + Marker + after;
    var i := |pre|;
    var j := |pre| + 2 + |name|;
    assert s[i..i + 2] == Marker;
    assert s[j..j + 2] == Marker;
    forall k | 0 <= k < i ensures !OccursAt(s, Marker, k)
    {
      assert s[k] == pre[k];
    }
    forall k | i + 2 <= k < j ensures !OccursAt(s, Marker, k)
    {
      assert s[k] == name[k - i - 2];
    }
    assert s[i + 2..j] == name;
    assert s[j + 2..] == after;
  }

  /** The framing markers are the ones `Locate` finds. */
  lemma LocateFinds(s: string, i: nat, j: nat)
    requires MarkersAt(s, i, j)
    ensures Locate(s) == Some((i, j))
  {
    var r := Locate(s);
    MarkersUnique(s, i, j, r.value.0, r.value.1);
  }

  /** What `extract_info` yields once the framing markers are located: something
      exactly when the channel between them is valid, namely that validated channel
      and the trimmed payload after the second marker. */
  lemma ExtractLocatedSome(s: string, i: nat, j: nat)
    requires Locate(s) == Some((i, j))
    ensures ExtractInfo(SerialRawMessage(s)).Some? <==> SerialName.TryFrom(s[i + 2..j]).Ok?
  {
  }

  lemma ExtractLocatedChannel(s: string, i: nat, j: nat)
    requires Locate(s) == Some((i, j)) && ExtractInfo(SerialRawMessage(s)).Some?
    ensures ExtractInfo(SerialRawMessage(s)).value.0 == SerialName.TryFrom(s[i + 2..j]).value
  {
    var r := ExtractInfo(SerialRawMessage(s));
    var i', j' :| Framed(s, i', j', r.value);
    MarkersOnly(s, i, j);
    assert i' == i && j' == j;
  }

  lemma ExtractLocatedData(s: string, i: nat, j: nat)
    requires Locate(s) == Some((i, j)) && ExtractInfo(SerialRawMessage(s)).Some?
    ensures ExtractInfo(SerialRawMessage(s)).value.1.text == TrimMatches(s[j + 2..], Payload.IsDataTrim)
  {
    var r := ExtractInfo(SerialRawMessage(s));
    var i', j' :| Framed(s, i', j', r.value);
    MarkersOnly(s, i, j);
    assert i' == i && j' == j;
  }

  /** Without framing markers there is nothing to extract. */
  lemma ExtractUnlocated(s: string)
    requires Locate(s).None?
    ensures ExtractInfo(SerialRawMessage(s)).None?
  {
  }

  /** `Locate` finds the markers at `i` and `j`, with `name` between them and `after`
      behind the second. */
  predicate LocatedAround(s: string, i: nat, j: nat, name: string, after: string)
  {
    Locate(s) == Some((i, j)) && i + 2 <= j && j + 2 <= |s| && s[i + 2..j] == name && s[j + 2..] == after
  }

  /** ... so they are the markers `Locate` finds. */
  lemma FramedLocated(pre: string, name: string, after: string, s: string)
    requires '#' !in pre && '#' !in name
    requires s == pre + Marker + name + Marker + after
    ensures LocatedAround(s, |pre|, |pre| + 2 + |name|, name, after)
  {
    FramedAt(pre, name, after);
    LocateFinds(s, |pre|, |pre| + 2 + |name|);
  }

  /** With the framing markers located around `name` and followed by `after`, the
      extracted message is decided by `name` alone. */
  lemma ExtractAt(s: string, i: nat, j: nat, name: string, after: string)
    requires LocatedAround(s, i, j, name, after)
    ensures SerialName.TryFrom(name).Err? ==> ExtractInfo(SerialRawMessage(s)).None?
    ensures SerialName.TryFrom(name).Ok? ==> (ExtractInfo(SerialRawMessage(s))
      == Some((SerialName.TryFrom(name).value, SerialData(TrimMatches(after, Payload.IsDataTrim)))))
  {
    ExtractLocatedSome(s, i, j);
    if SerialName.TryFrom(name).Ok? {
      ExtractLocatedChannel(s, i, j);
      ExtractLocatedData(s, i, j);
    }
  }

  /** Such a line yields the serial validation of `name` and the trimmed `after` ... */
  lemma ExtractFramed(pre: string, name: string, after: string)
    requires '#' !in pre && '#' !in name
    requires SerialName.TryFrom(name).Ok?
    ensures ExtractInfo(SerialRawMessage(pre + Marker + name + Marker + after))
      == Some((SerialName.TryFrom(name).value, SerialData(TrimMatches(after, Payload.IsDataTrim))))
  {
    var s := pre + Marker + name + Marker + after;
    FramedLocated(pre, name, after, s);
    ExtractAt(s, |pre|, |pre| + 2 + |name|, name, after);
  }

  /** ... and nothing when `name` is not a valid serial channel name. */
  lemma ExtractFramedInvalid(pre: string, name: string, after: string)
    requires '#' !in pre && '#' !in name
    requires SerialName.TryFrom(name).Err?
    ensures ExtractInfo(SerialRawMessage(pre + Marker + name + Marker + after)).None?
    ensures ToHubMessage(SerialRawMessage(pre + Marker + name + Marker + after)) == Err(ConversionError)
  {
    var s := pre + Marker + name + Marker + after;
    FramedLocated(pre, name, after, s);
    ExtractAt(s, |pre|, |pre| + 2 + |name|, name, after);
  }

  /** A normal channel name has no `#`. */
  lemma NormalHasNoHash(name: string)
    requires SerialName.IsNormal(name)
    ensures '#' !in name
  {
  }

  /** Round trip: a tagged line `pre + Tag(n) + after` yields `n` and the trimmed
      `after` whenever `n` is a validated serial name. */
  lemma ExtractTagged(pre: string, n: SerialName.SerialChannelName, after: string)
    requires '#' !in pre && SerialName.IsNormal(n.name)
    ensures ExtractInfo(SerialRawMessage(pre + SerialName.Tag(n) + after))
      == Some((n, SerialData(TrimMatches(after, Payload.IsDataTrim))))
  {
    assert pre + SerialName.Tag(n) + after == pre + Marker + n.name + Marker + after by {
      assert SerialName.Tag(n) == Marker + n.name + Marker;
    }
    NormalHasNoHash(n.name);
    SerialName.NormalIsSerialName(n.name);
    ExtractFramed(pre, n.name, after);
  }

  /** The hub message built from what `extract_info` found. */
  lemma HubMessageOfExtract(raw: SerialRawMessage, n: SerialName.SerialChannelName, d: SerialData)
    requires ExtractInfo(raw) == Some((n, d))
    ensures ToHubMessage(raw) == Ok(HubMsg.HubMessage(HubName.HubChannelName(n.name), Payload.HubData(d.text)))
  {
  }

  /** A tag followed by an already trimmed payload reads back as that tag and payload. */
  lemma TaggedPayloadExtract(n: SerialName.SerialChannelName, text: string)
    requires SerialName.IsNormal(n.name) && TrimMatches(text, Payload.IsDataTrim) == text
    ensures ExtractInfo(SerialRawMessage(SerialName.Tag(n) + text)) == Some((n, SerialData(text)))
  {
    assert SerialName.Tag(n) + text == [] + SerialName.Tag(n) + text;
    ExtractTagged([], n, text);
  }

  /** Round trip through the hub message: a hub message on a normal channel with a
      trimmed payload, written as a tagged line, reads back as the same message. */
  lemma HubMessageThroughLine(m: HubMsg.HubMessage)
    requires SerialName.IsNormal(m.channel.name)
    requires m.data == Payload.FromStr(m.data.text)
    ensures SerialName.TryFrom(m.channel.name).Ok?
    ensures ToHubMessage(RawFromStr(SerialName.Tag(SerialName.FromHub(m.channel)) + FromHubData(m.data).text)) == Ok(m)
  {
    var n := SerialName.SerialChannelName(m.channel.name);
    SerialName.NormalIsSerialName(m.channel.name);
    assert SerialName.FromHub(m.channel) == n;
    assert TrimMatches(m.data.text, Payload.IsDataTrim) == m.data.text;
    TaggedPayloadExtract(n, m.data.text);
    HubMessageOfExtract(RawFromStr(SerialName.Tag(n) + m.data.text), n, SerialData(m.data.text));
  }

  /** A line with no `#` has no `##`. */
  lemma NoHashNoMarker(s: string)
    requires '#' !in s
    ensures forall k :: !OccursAt(s, Marker, k)
  {
    forall k ensures !OccursAt(s, Marker, k)
    {
      if 0 <= k && k + 2 <= |s| {
        assert s[k..k + 2][0] == s[k];
      }
    }
  }

  /** A line with no `##` at all yields nothing. */
  lemma NoMarkerNothing(raw: SerialRawMessage)
    requires forall k :: !OccursAt(raw.text, Marker, k)
    ensures ExtractInfo(raw).None?
    ensures ToHubMessage(raw) == Err(ConversionError)
  {
  }

  /** Payload conversions: a trimmed hub payload survives the trip through `SerialData`,
      and a trimmed serial payload survives the trip through `HubData`. */
  lemma HubDataRoundTrip(h: Payload.HubData)
    requires h == Payload.FromStr(h.text)
    ensures ToHubData(FromHubData(h)) == h
  {
  }

  lemma SerialDataRoundTrip(d: SerialData)
    requires d.text == [] || (!Payload.IsDataTrim(d.text[0]) && !Payload.IsDataTrim(d.text[|d.text| - 1]))
    ensures FromHubData(ToHubData(d)) == d
  {
    Payload.FromStrKeeps(d.text);
  }

  /** A tagged line whose payload needs no trimming yields exactly its name and payload. */
  lemma ExtractTaggedTrimmed(n: SerialName.SerialChannelName, d: string)
    requires SerialName.IsNormal(n.name)
    requires d == [] || (!Payload.IsDataTrim(d[0]) && !Payload.IsDataTrim(d[|d| - 1]))
    ensures ExtractInfo(RawFromStr(SerialName.Tag(n) + d)) == Some((n, SerialData(d)))
  {
    assert [] + SerialName.Tag(n) + d == SerialName.Tag(n) + d;
    ExtractTagged([], n, d);
    TrimMatchesNoop(d, Payload.IsDataTrim);
  }

  /** The source's unit tests. */
  lemma ExampleLine()
    ensures "##channel##data" == SerialName.Tag(SerialName.SerialChannelName("channel")) + "data"
  {
  }

  lemma ExampleExtract()
    ensures ExtractInfo(RawFromStr("##channel##data"))
      == Some((SerialName.SerialChannelName("channel"), SerialData("data")))
  {
    var c: string := "channel";
    var d: string := "data";
    assert SerialName.IsNormal(c);
    assert !Payload.IsDataTrim(d[0]) && !Payload.IsDataTrim(d[|d| - 1]);
    ExampleLine();
    ExtractTaggedTrimmed(SerialName.SerialChannelName(c), d);
  }

  lemma ExampleToHubMessage()
    ensures ToHubMessage(RawFromStr("##channel##data"))
      == Ok(HubMsg.HubMessage(HubName.HubChannelName("channel"), Payload.HubData("data")))
  {
    ExampleExtract();
    HubMessageOfExtract(RawFromStr("##channel##data"), SerialName.SerialChannelName("channel"), SerialData("data"));
  }

  lemma ExampleNoMarker()
    ensures ExtractInfo(RawFromStr("invalid_data")).None?
    ensures ToHubMessage(RawFromStr("invalid_data")).Err?
  {
    var s: string := "invalid_data";
    assert '#' !in s;
    NoHashNoMarker(s);
    NoMarkerNothing(RawFromStr(s));
  }
}

=== FILE: text.dfy ===
/** The `str`/`char` operations of Rust's standard library that the hub relies on:
    character classes, `trim_matches`, `find`, `starts_with`, `to_ascii_lowercase`
    and filtering characters out of a string. Strings are sequences of Unicode
    scalar values. */
module Text {

  import opened Wrappers

  // ---------------------------------------------------------------------------
  // Character classes
  // ---------------------------------------------------------------------------

  /** `char::is_whitespace`: the Unicode White_Space property. */
  predicate IsWhitespace(c: char)
  {
    || ('\t' <= c <= '\r')   // U+0009 .. U+000D: tab, line feed, vertical tab, form feed, carriage return
    || c == ' '
    || c == '\U{0085}' || c == '\U{00A0}' || c == '\U{1680}'
    || ('\U{2000}' <= c <= '\U{200A}')
    || c == '\U{2028}' || c == '\U{2029}' || c == '\U{202F}' || c == '\U{205F}' || c == '\U{3000}'
  }

  /** `char::is_alphanumeric`, restricted to ASCII letters and digits. */
  predicate IsAlphanumeric(c: char)
  {
    ('a' <= c <= 'z') || ('A' <= c <= 'Z') || ('0' <= c <= '9')
  }

  /** The characters a channel name may consist of: alphanumerics and `_`. */
  predicate IsNameChar(c: char)
  {
    IsAlphanumeric(c) || c == '_'
  }

  /** The closure `c.is_whitespace() || c == '\n' || c == '\r'` that both channel-name
      parsers use to decide what to strip. */
  predicate IsStripped(c: char)
  {
    IsWhitespace(c) || c == '\n' || c == '\r'
  }

  predicate IsAsciiUpper(c: char)
  {
    'A' <= c <= 'Z'
  }

  /** `char::to_ascii_lowercase`. */
  function LowerChar(c: char): (r: char)
    ensures !IsAsciiUpper(r)
    ensures IsAsciiUpper(c) ==> r as int == c as int + 32
    ensures !IsAsciiUpper(c) ==> r == c
  {
    if IsAsciiUpper(c) then (c as int + 32) as char else c
  }

  /** Lowering changes no character class the parsers test. */
  lemma LowerCharKeepsClasses(c: char)
    ensures IsNameChar(LowerChar(c)) == IsNameChar(c)
    ensures IsWhitespace(LowerChar(c)) == IsWhitespace(c)
    ensures IsStripped(LowerChar(c)) == IsStripped(c)
    ensures LowerChar(c) == ' ' <==> c == ' '
    ensures LowerChar(c) == '\n' <==> c == '\n'
    ensures LowerChar(c) == '\r' <==> c == '\r'
  {
  }

  /** `str::to_ascii_lowercase`. */
  function ToAsciiLowercase(s: string): (r: string)
    ensures |r| == |s|
    ensures forall k :: 0 <= k < |s| ==> r[k] == LowerChar(s[k])
  {
    seq(|s|, k requires 0 <= k < |s| => LowerChar(s[k]))
  }

  /** A string with no ASCII upper-case letter is its own lower-case form. */
  lemma LowercaseOfLower(s: string)
    requires forall k :: 0 <= k < |s| ==> !IsAsciiUpper(s[k])
    ensures ToAsciiLowercase(s) == s
  {
  }

  lemma LowercaseAppend(a: string, b: string)
    ensures ToAsciiLowercase(a + b) == ToAsciiLowercase(a) + ToAsciiLowercase(b)
  {
  }

  lemma LowercaseIdempotent(s: string)
    ensures ToAsciiLowercase(ToAsciiLowercase(s)) == ToAsciiLowercase(s)
  {
    LowercaseOfLower(ToAsciiLowercase(s));
  }

  // ---------------------------------------------------------------------------
  // trim_matches
  // ---------------------------------------------------------------------------

  ghost predicate AllMatch(s: string, p: char -> bool)
  {
    forall k :: 0 <= k < |s| ==> p(s[k])
  }

  /** Number of leading characters that satisfy `p`. */
  function LeadLen(s: string, p: char -> bool): (n: nat)
    ensures n <= |s|
    ensures forall k :: 0 <= k < n ==> p(s[k])
    ensures n < |s| ==> !p(s[n])
  {
    if |s| > 0 && p(s[0]) then 1 + LeadLen(s[1..], p) else 0
  }

  /** Number of trailing characters that satisfy `p`. */
  function TrailLen(s: string, p: char -> bool): (n: nat)
    ensures n <= |s|
    ensures forall k :: |s| - n <= k < |s| ==> p(s[k])
    ensures n < |s| ==> !p(s[|s| - 1 - n])
  {
    if |s| > 0 && p(s[|s| - 1]) then 1 + TrailLen(s[..|s| - 1], p) else 0
  }

  /** `str::trim_matches(p)`: the middle of `s` once every leading and every trailing
      character satisfying `p` is removed. */
  function TrimMatches(s: string, p: char -> bool): (r: string)
    ensures |r| <= |s|
    ensures r == [] || (!p(r[0]) && !p(r[|r| - 1]))
    ensures LeadLen(s, p) + |r| <= |s|
    ensures r == s[LeadLen(s, p)..LeadLen(s, p) + |r|]
    ensures AllMatch(s[..LeadLen(s, p)], p) && AllMatch(s[LeadLen(s, p) + |r|..], p)
  {
    var t := s[LeadLen(s, p)..];
    t[..|t| - TrailLen(t, p)]
  }

  /** Trimming is determined by its result's shape: whenever `s` splits as `pre + mid + post`
      with `pre` and `post` made of `p`-characters and `mid` neither starting nor ending
      with one, trimming `s` yields exactly `mid`. */
  lemma {:induction false} TrimMatchesOf(pre: string, mid: string, post: string, p: char -> bool)
    requires AllMatch(pre, p) && AllMatch(post, p)
    requires mid == [] || (!p(mid[0]) && !p(mid[|mid| - 1]))
    ensures TrimMatches(pre + mid + post, p) == mid
  {
    var s := pre + mid + post;
    var n := LeadLen(s, p);
    if mid == [] {
      assert s == pre + post;
      assert forall k :: 0 <= k < |s| ==> p(s[k]) by {
        assert forall k :: 0 <= k < |pre| ==> s[k] == pre[k];
        assert forall k :: |pre| <= k < |s| ==> s[k] == post[k - |pre|];
      }
      assert n == |s|;
    } else {
      assert forall k :: 0 <= k < |pre| ==> s[k] == pre[k];
      assert s[|pre|] == mid[0];
      assert n == |pre|;
      var t := s[n..];
      assert t == mid + post;
      var m := TrailLen(t, p);
      assert forall k :: |mid| <= k < |t| ==> t[k] == post[k - |mid|];
      assert t[|mid| - 1] == mid[|mid| - 1];
      assert m == |post|;
      assert t[..|t| - m] == mid;
    }
  }

  /** A string that does not start or end with a `p`-character is unchanged by trimming. */
  lemma TrimMatchesNoop(s: string, p: char -> bool)
    requires s == [] || (!p(s[0]) && !p(s[|s| - 1]))
    ensures TrimMatches(s, p) == s
  {
    TrimMatchesOf([], s, [], p);
    assert [] + s + [] == s;
  }

  lemma TrimMatchesIdempotent(s: string, p: char -> bool)
    ensures TrimMatches(TrimMatches(s, p), p) == TrimMatches(s, p)
  {
    TrimMatchesNoop(TrimMatches(s, p), p);
  }

  /** A string made only of `p`-characters trims to the empty string. */
  lemma TrimMatchesAllMatch(s: string, p: char -> bool)
    requires AllMatch(s, p)
    ensures TrimMatches(s, p) == []
  {
    TrimMatchesOf(s, [], [], p);
    assert s + [] + [] == s;
  }

  /** Joining two runs of `p`-characters around one separator: every character of the
      result is a `p`-character or the separator, and the ends come from the runs. */
  lemma {:induction false} JoinedRuns(a: string, c: char, b: string, p: char -> bool)
    requires AllMatch(a, p) && AllMatch(b, p)
    ensures forall k :: 0 <= k < |a + [c] + b| ==> p((a + [c] + b)[k]) || (a + [c] + b)[k] == c
    ensures (a + [c] + b)[|a|] == c
    ensures a != [] ==> (a + [c] + b)[0] == a[0]
    ensures b != [] ==> (a + [c] + b)[|a + [c] + b| - 1] == b[|b| - 1]
  {
    var s := a + [c] + b;
    forall k | 0 <= k < |s|
      ensures p(s[k]) || s[k] == c
    {
      if k < |a| {
        assert s[k] == a[k];
      } else if k > |a| {
        assert s[k] == b[k - |a| - 1];
      }
    }
  }

  // ---------------------------------------------------------------------------
  // find / starts_with
  // ---------------------------------------------------------------------------

  /** `pat` occurs in `s` starting at index `i`. */
  predicate OccursAt(s: string, pat: string, i: int)
  {
    0 <= i && i + |pat| <= |s| && s[i..i + |pat|] == pat
  }

  /** `str::starts_with`. */
  predicate StartsWith(s: string, pat: string)
  {
    OccursAt(s, pat, 0)
  }

  /** `str::find(pat)`: the first index at which `pat` occurs. */
  function Find(s: string, pat: string): (r: Option<nat>)
    ensures r.Some? ==> OccursAt(s, pat, r.value)
    ensures r.Some? ==> forall j :: 0 <= j < r.value ==> !OccursAt(s, pat, j)
    ensures r.None? ==> forall j :: 0 <= j <= |s| ==> !OccursAt(s, pat, j)
  {
    FindFrom(s, pat, 0)
  }

  function FindFrom(s: string, pat: string, from: nat): (r: Option<nat>)
    requires from <= |s|
    ensures r.Some? ==> from <= r.value && OccursAt(s, pat, r.value)
    ensures r.Some? ==> forall j :: from <= j < r.value ==> !OccursAt(s, pat, j)
    ensures r.None? ==> forall j :: from <= j <= |s| ==> !OccursAt(s, pat, j)
    decreases |s| - from
  {
    if OccursAt(s, pat, from) then Some(from)
    else if from == |s| then None
    else FindFrom(s, pat, from + 1)
  }

  // ---------------------------------------------------------------------------
  // filtering
  // ---------------------------------------------------------------------------

  /** `s.chars().filter(|c| !p(c)).collect()`: `s` with every `p`-character deleted,
      keeping the order of the others. */
  function RemoveMatching(s: string, p: char -> bool): (r: string)
    ensures |r| <= |s|
    ensures forall k :: 0 <= k < |r| ==> !p(r[k])
    ensures forall c :: c in r <==> c in s && !p(c)
  {
    if s == [] then []
    else if p(s[0]) then RemoveMatching(s[1..], p)
    else [s[0]] + RemoveMatching(s[1..], p)
  }

  /** Deleting nothing leaves the string alone. */
  lemma {:induction false} RemoveMatchingNone(s: string, p: char -> bool)
    requires forall k :: 0 <= k < |s| ==> !p(s[k])
    ensures RemoveMatching(s, p) == s
  {
    if s != [] {
      RemoveMatchingNone(s[1..], p);
      assert s == [s[0]] + s[1..];
    }
  }

  /** Deleting every character of a string made only of `p`-characters leaves nothing. */
  lemma {:induction false} RemoveMatchingAll(s: string, p: char -> bool)
    requires AllMatch(s, p)
    ensures RemoveMatching(s, p) == []
  {
    if s != [] {
      RemoveMatchingAll(s[1..], p);
    }
  }

  lemma {:induction false} RemoveMatchingAppend(a: string, b: string, p: char -> bool)
    ensures RemoveMatching(a + b, p) == RemoveMatching(a, p) + RemoveMatching(b, p)
  {
    if a != [] {
      assert (a + b)[1..] == a[1..] + b;
      RemoveMatchingAppend(a[1..], b, p);
    } else {
      assert a + b == b;
    }
  }
}

=== FILE: wrappers.dfy ===
/** Failure-carrying result types shared by every module of the hub model.
    They follow the Rust shapes the hub uses: `Option<T>` and `Result<T, E>`;
    Rust's `Result<(), E>` is `Result<(), E>` here too. */
module Wrappers {

  datatype Option<+T> = None | Some(value: T)

  datatype Result<+T, +E> = Ok(value: T) | Err(error: E)
}

=== FILE: ws_message.dfy ===
/** `WsMessage`: what a WebSocket client and the hub exchange. Only `Data` carries a hub
    message; the others manage subscriptions and channel listing. The JSON encoding
    is not part of this model. */
module WsMsg {

  import opened Wrappers
  import HubName
  import Payload
  import HubMsg

  datatype WsMessage =
    | Subscribe(channel: HubName.HubChannelName)
    | Unsubscribe(channel: HubName.HubChannelName)
    | ListChannelsReq
    | ListChannelsResponse(channels: seq<HubName.HubChannelName>)
    | Data(channel: HubName.HubChannelName, data: Payload.HubData)

  const InvalidTypeError := "Invalid message type"

  /** `subscribe`: a subscription request for a channel given as text. */
  function SubscribeTo(channel: string): (r: Result<WsMessage, string>)
    ensures r.Ok? <==> HubName.TryFrom(channel).Ok?
    ensures r.Ok? ==> r.value == Subscribe(HubName.TryFrom(channel).value)
    ensures r.Err? ==> r.error == HubName.TryFrom(channel).error
  {
    match HubName.TryFrom(channel)
    case Err(e) => Err(e)
    case Ok(name) => Ok(Subscribe(name))
  }

  /** `subscribe_channel`. */
  function SubscribeChannel(channel: HubName.HubChannelName): (m: WsMessage)
    ensures m.Subscribe? && m.channel == channel
  {
    Subscribe(channel)
  }

  /** `unsubscribe`: an unsubscription request for a channel given as text. */
  function UnsubscribeFrom(channel: string): (r: Result<WsMessage, string>)
    ensures r.Ok? <==> HubName.TryFrom(channel).Ok?
    ensures r.Ok? ==> r.value == Unsubscribe(HubName.TryFrom(channel).value)
    ensures r.Err? ==> r.error == HubName.TryFrom(channel).error
  {
    match HubName.TryFrom(channel)
    case Err(e) => Err(e)
    case Ok(name) => Ok(Unsubscribe(name))
  }

  /** `unsubscribe_channel`. */
  function UnsubscribeChannel(channel: HubName.HubChannelName): (m: WsMessage)
    ensures m.Unsubscribe? && m.channel == channel
  {
    Unsubscribe(channel)
  }

  /** `list_channels_req`. */
  function ListChannelsRequest(): (m: WsMessage)
    ensures m.ListChannelsReq?
  {
    ListChannelsReq
  }

  /** `send_data`: a data message for a channel given as text, with the payload trimmed. */
  function SendData(channel: string, data: string): (r: Result<WsMessage, string>)
    ensures r.Ok? <==> HubName.TryFrom(channel).Ok?
    ensures r.Ok? ==> r.value == Data(HubName.TryFrom(channel).value, Payload.FromStr(data))
    ensures r.Err? ==> r.error == HubName.TryFrom(channel).error
  {
    match HubName.TryFrom(channel)
    case Err(e) => Err(e)
    case Ok(name) => Ok(Data(name, Payload.FromStr(data)))
  }

  /** `send_data_channel`. */
  function SendDataChannel(channel: HubName.HubChannelName, data: Payload.HubData): (m: WsMessage)
    ensures m.Data? && m.channel == channel && m.data == data
  {
    Data(channel, data)
  }

  /** `TryFrom<WsMessage> for HubMessage`: only a data message carries a hub message. */
  function ToHubMessage(m: WsMessage): (r: Result<HubMsg.HubMessage, string>)
    ensures r.Ok? <==> m.Data?
    ensures r.Ok? ==> r.value.channel == m.channel && r.value.data == m.data
    ensures r.Err? ==> r.error == InvalidTypeError
  {
    match m
    case Data(channel, data) => Ok(HubMsg.New(channel, data))
    case _ => Err(InvalidTypeError)
  }

  /** `From<HubMessage> for WsMessage`. */
  function FromHubMessage(m: HubMsg.HubMessage): (w: WsMessage)
    ensures w.Data? && w.channel == m.channel && w.data == m.data
  {
    Data(m.channel, m.data)
  }

  /** Wrapping a hub message for the WebSocket and unwrapping it again is the identity. */
  lemma HubMessageRoundTrip(m: HubMsg.HubMessage)
    ensures ToHubMessage(FromHubMessage(m)) == Ok(m)
  {
  }

  /** Every message that unwraps to a hub message is the wrapping of that hub message. */
  lemma WsMessageRoundTrip(w: WsMessage)
    requires ToHubMessage(w).Ok?
    ensures FromHubMessage(ToHubMessage(w).value) == w
  {
  }

  /** Building a data message from text and unwrapping it is the same as parsing a hub
      message from the same text, failures included. */
  lemma SendDataIsHubMessage(channel: string, data: string)
    ensures SendData(channel, data).Ok? <==> HubMsg.TryFromStr(channel, data).Ok?
    ensures SendData(channel, data).Ok? ==>
      ToHubMessage(SendData(channel, data).value) == HubMsg.TryFromStr(channel, data)
    ensures SendData(channel, data).Err? ==> SendData(channel, data).error == HubMsg.TryFromStr(channel, data).error
  {
  }

  /** The text and already-validated constructors agree. */
  lemma TextConstructorsAgree(channel: string, data: string)
    requires HubName.TryFrom(channel).Ok?
    ensures SubscribeTo(channel) == Ok(SubscribeChannel(HubName.TryFrom(channel).value))
    ensures UnsubscribeFrom(channel) == Ok(UnsubscribeChannel(HubName.TryFrom(channel).value))
    ensures SendData(channel, data) == Ok(SendDataChannel(HubName.TryFrom(channel).value, Payload.FromStr(data)))
  {
  }

  /** Control messages never unwrap to a hub message. */
  lemma ControlMessagesRejected(c: HubName.HubChannelName, cs: seq<HubName.HubChannelName>)
    ensures ToHubMessage(Subscribe(c)) == Err(InvalidTypeError)
    ensures ToHubMessage(Unsubscribe(c)) == Err(InvalidTypeError)
    ensures ToHubMessage(ListChannelsReq) == Err(InvalidTypeError)
    ensures ToHubMessage(ListChannelsResponse(cs)) == Err(InvalidTypeError)
  {
  }

  /** The source's unit test: subscribing to `test_channel` names that channel. */
  lemma ExampleSubscribe()
    ensures SubscribeTo("test_channel") == Ok(Subscribe(HubName.HubChannelName("test_channel")))
  {
    var c: string := "test_channel";
    assert forall k :: 0 <= k < |c| ==> HubName.IsLowerNameChar(c[k]);
    HubName.LowerNameUnchanged(c);
  }
}

=== FILE: ws_server.dfy ===
/** The WebSocket server's channel→peer map: for every hub channel, the connected
    peers (by socket address) subscribed to it and the outgoing queue of each. Each
    handler is the state change its critical section makes, plus the outbox of
    messages it queues to peers. */
module WsServer {

  import opened Wrappers
  import HubName
  import Payload
  import WsMsg

  /** A peer's `SocketAddr`. */
  type Addr = nat

  /** A connection's `UnboundedSender<Message>`. */
  type Tx = nat

  /** `PeerMap`. */
  type PeerMap = map<Addr, Tx>

  /** `ChannelMap` (the map behind the mutex). */
  type ChannelMap = map<HubName.HubChannelName, PeerMap>

  /** What is queued to a peer: a WebSocket message, or the channel listing (whose
      order, `HashMap` key order, is not modelled). */
  datatype Outgoing = Text(message: WsMsg.WsMessage) | ChannelList(channels: set<HubName.HubChannelName>)

  datatype Delivery = Delivery(peer: Addr, tx: Tx, message: Outgoing)

  /** The peers of `ch`, none for an unknown channel. */
  function PeersOf(m: ChannelMap, ch: HubName.HubChannelName): PeerMap
  {
    if ch in m then m[ch] else map[]
  }

  /** `WebSocketServer::new`. */
  function New(): (m: ChannelMap)
    ensures m.Keys == {}
  {
    map[]
  }

  /** `handle_ws_data`: the channel is created if unknown, and the data goes to every
      peer of the channel except the one that sent it. */
  function HandleData(m: ChannelMap, ch: HubName.HubChannelName, data: Payload.HubData, addr: Addr)
    : (r: (ChannelMap, set<Delivery>))
    ensures r.0.Keys == m.Keys + {ch}
    ensures forall c :: c in r.0 ==> r.0[c] == PeersOf(m, c)
    ensures forall d :: d in r.1 <==>
      (&& d.peer in PeersOf(m, ch) && d.peer != addr
       && d.tx == PeersOf(m, ch)[d.peer]
       && d.message == Text(WsMsg.SendDataChannel(ch, data)))
  {
    var m' := if ch in m then m else m[ch := map[]];
    var peers := m'[ch];
    (m', set peer | peer in peers && peer != addr :: Delivery(peer, peers[peer], Text(WsMsg.SendDataChannel(ch, data))))
  }

  /** `handle_ws_subscribe`: `addr` is registered under `ch` with its queue `tx`,
      creating the channel and replacing an earlier queue. */
  function HandleSubscribe(m: ChannelMap, ch: HubName.HubChannelName, tx: Tx, addr: Addr): (r: ChannelMap)
    ensures r.Keys == m.Keys + {ch}
    ensures r[ch] == PeersOf(m, ch)[addr := tx]
    ensures forall c :: c in r && c != ch ==> r[c] == m[c]
  {
    m[ch := PeersOf(m, ch)[addr := tx]]
  }

  /** `handle_ws_unsubscribe`: `addr` leaves `ch`; the channel stays even when no peer
      is left, and an unknown channel is left alone. */
  function HandleUnsubscribe(m: ChannelMap, ch: HubName.HubChannelName, addr: Addr): (r: ChannelMap)
    ensures r.Keys == m.Keys
    ensures ch in r ==> r[ch] == m[ch] - {addr}
    ensures forall c :: c in r && c != ch ==> r[c] == m[c]
  {
    if ch in m then m[ch := m[ch] - {addr}] else m
  }

  /** `handle_ws_list_channels`: the requester gets every channel key, including the
      channels nobody is subscribed to. */
  function HandleListChannels(m: ChannelMap, addr: Addr, tx: Tx): (r: (ChannelMap, set<Delivery>))
    ensures r.0 == m
    ensures r.1 == {Delivery(addr, tx, ChannelList(m.Keys))}
  {
    (m, {Delivery(addr, tx, ChannelList(m.Keys))})
  }

  /** The dispatch in `handle_connection` of one text frame from `addr`, already run
      through `WsMessage::try_from`: undecodable text and a `ListChannelsResponse`
      only log a warning. */
  function HandleIncoming(m: ChannelMap, addr: Addr, tx: Tx, decoded: Result<WsMsg.WsMessage, string>)
    : (r: (ChannelMap, set<Delivery>))
    ensures m.Keys <= r.0.Keys
    ensures (decoded.Err? || decoded.value.ListChannelsResponse?) ==> r == (m, {})
    ensures forall d :: d in r.1 ==> d.peer != addr || (decoded.Ok? && decoded.value.ListChannelsReq?)
  {
    match decoded
    case Err(_) => (m, {})
    case Ok(msg) =>
      match msg
      case Data(ch, data) => HandleData(m, ch, data, addr)
      case ListChannelsReq => HandleListChannels(m, addr, tx)
      case Subscribe(ch) => (HandleSubscribe(m, ch, tx, addr), {})
      case Unsubscribe(ch) => (HandleUnsubscribe(m, ch, addr), {})
      case ListChannelsResponse(_) => (m, {})
  }

  /** The cleanup after a connection closes: `addr` leaves every channel and no channel
      is removed. */
  function Disconnect(m: ChannelMap, addr: Addr): (r: ChannelMap)
    ensures r.Keys == m.Keys
    ensures forall c :: c in r ==> r[c] == m[c] - {addr}
  {
    map c | c in m :: m[c] - {addr}
  }

  /** A subscriber receives the data another peer then publishes on the channel. */
  lemma SubscriberReceivesData(m: ChannelMap, ch: HubName.HubChannelName, tx: Tx, subscriber: Addr,
                               data: Payload.HubData, publisher: Addr)
    requires subscriber != publisher
    ensures Delivery(subscriber, tx, Text(WsMsg.SendDataChannel(ch, data)))
      in HandleData(HandleSubscribe(m, ch, tx, subscriber), ch, data, publisher).1
  {
  }

  /** A publisher never receives its own data. */
  lemma PublisherNotEchoed(m: ChannelMap, ch: HubName.HubChannelName, data: Payload.HubData, addr: Addr)
    ensures forall d :: d in HandleData(m, ch, data, addr).1 ==> d.peer != addr
  {
  }

  /** Unsubscribing right after subscribing leaves the channel, now possibly empty, as
      it was before. */
  lemma UnsubscribeUndoesSubscribe(m: ChannelMap, ch: HubName.HubChannelName, tx: Tx, addr: Addr)
    requires addr !in PeersOf(m, ch)
    ensures HandleUnsubscribe(HandleSubscribe(m, ch, tx, addr), ch, addr) == m[ch := PeersOf(m, ch)]
  {
    assert PeersOf(m, ch)[addr := tx] - {addr} == PeersOf(m, ch);
  }

  /** After a disconnect, no data reaches the departed peer. */
  lemma NothingAfterDisconnect(m: ChannelMap, addr: Addr, ch: HubName.HubChannelName, data: Payload.HubData,
                               publisher: Addr)
    ensures forall d :: d in HandleData(Disconnect(m, addr), ch, data, publisher).1 ==> d.peer != addr
  {
  }

  /** Disconnecting twice is the same as disconnecting once. */
  lemma DisconnectIdempotent(m: ChannelMap, addr: Addr)
    ensures Disconnect(Disconnect(m, addr), addr) == Disconnect(m, addr)
  {
    var once := Disconnect(m, addr);
    forall c | c in once ensures once[c] - {addr} == once[c] {}
  }

  /** A list request answers with every channel that data or a subscription ever
      mentioned, even after its peers left. */
  lemma ListedAfterUnsubscribe(m: ChannelMap, ch: HubName.HubChannelName, tx: Tx, addr: Addr, lister: Addr, ltx: Tx)
    ensures var m' := HandleUnsubscribe(HandleSubscribe(m, ch, tx, addr), ch, addr);
      HandleListChannels(m', lister, ltx).1 == {Delivery(lister, ltx, ChannelList(m.Keys + {ch}))}
  {
  }
}
